=== FILE: README.md ===
# hookshot, modelled in Dafny

hookshot captures webhooks. Every endpoint has a capture URL. The Rust server stores each request sent to that URL, answers with a default reply or the endpoint's custom response, and pushes the captured request over a WebSocket to the dashboards watching that endpoint. The dashboard is a React single-page application embedded in the server binary. It lists the requests of an endpoint, merges the live ones into that list, and lets the operator filter, inspect and export them. It also lets the operator configure the custom response.

This project models the logic of both halves as immutable datatypes and pure functions, and proves properties of them.

- **Server:**
  - the WebSocket fan-out registry (register, unregister, broadcast, heartbeat, client counts);
  - the paginated and method-filtered request listing, endpoint deletion and the custom-response update of the management API;
  - the capture handler's size gate, body normalisation, header recording and reply assembly;
  - the migration statement splitter;
  - the routing of the embedded frontend.
- **Dashboard:**
  - the reconnecting WebSocket client;
  - the live request list and its merge with the fetched one;
  - the request and endpoint stores;
  - the validators;
  - the curl / raw-HTTP export;
  - keyboard shortcuts;
  - the two response-configuration forms;
  - body classification;
  - the method filters;
  - the request table;
  - the method badge and colour tables;
  - relative timestamps;
  - the headers tab;
  - `cn`;
  - the theme hook;
  - the toast store.

Each module (one per source file) takes foreign code as function-typed parameters, for example JSON parsing, `HeaderName`/`HeaderValue` parsing, `mime_guess`, `String::from_utf8` and SQLite's verdict on a statement. Each asynchronous call is replaced by its outcome. Browser callbacks and timers are explicit events applied to a state value. Shared helpers are in `strings.dfy` (trim, ASCII case mapping, split/join, decimal printing, JavaScript's `parseInt`), `seqs.dfy`, `assoc.dfy` (insertion-ordered key/value lists, the common behaviour of a JavaScript object, a `Map` and `HeaderMap::insert`) and `wrappers.dfy`.

## Live delivery as the code does it

- The feed is pushed over a WebSocket. Nothing polls, no fallback timer exists and there is no `polling` status.
- The n-th of at most five reconnection attempts waits 1000·2^(n−1) ms, so 1 s to 16 s. No ceiling is applied, and nothing stops a second timer from being pending.
- A row is flagged "new" when its index is below `newRequestCount`. The code keeps no high-water mark and no set of recent arrivals with an expiry.
- A pushed request is prepended without a dedup check (`useRequests.addRequest`). The endpoint page removes duplicates only when it shows the live rows followed by the fetched rows. Each id keeps its first position and its last value. Nothing is re-sorted by `received_at`.
- When the endpoint changes, teardown unsubscribes and calls `disconnect`. `disconnect` does not cancel the reconnection that its own `close` triggers (see Findings).

## Model

| member | source | states |
|---|---|---|
| Registry.TagRoundTrip | src/websocket/manager.rs:8-17 | each message's `type` tag reads back to its own variant, and a tag that reads back to a variant is that variant's tag |
| Registry.New | src/websocket/manager.rs:47-51 | a new manager has no endpoint entry |
| Registry.Register | src/websocket/manager.rs:54-70 | the channel is appended to its endpoint's list, created if absent; every other endpoint's list is unchanged; no empty entry appears |
| Registry.Unregister | src/websocket/manager.rs:73-95 | an unknown endpoint changes nothing; otherwise every handle of the channel leaves the list and every other handle stays, in its order and with its count of copies; other endpoints are untouched, and the entry survives exactly when some other handle remains |
| Registry.RegisterTotal | src/websocket/manager.rs:139-142 | a registration adds exactly one to the total connection count |
| Registry.UnregisterTotal | src/websocket/manager.rs:139-142 | an unregistration takes from the total exactly the number of handles of that channel the endpoint held |
| Registry.RegisterScenarios | src/websocket/manager.rs:181-207 | the two in-file tests: one client counted then removed; two clients on one endpoint counted as two, in total as well |
| Registry.RegisterAllTotal | src/websocket/manager.rs:54-70 | n registrations on any endpoints, in any order, add n connections and keep every entry non-empty |
| Registry.RegisterAllFromNew | src/websocket/manager.rs:139-142 | n registrations on a new manager give a total of n |
| Registry.Send | src/websocket/manager.rs:105-110 | each open channel gets the message once per handle it has in the list, closed channels get nothing, the set of channels is unchanged |
| Registry.Broadcast | src/websocket/manager.rs:98-128 | no entry means nothing is sent; otherwise every open channel of the endpoint is delivered to in list order, and deliveries plus failures equal the client count |
| Registry.BroadcastsInOrder | src/websocket/manager.rs:98-128 | a client registered once and open receives two broadcasts in the order made; clients not listed for the endpoint are untouched |
| Registry.SendHeartbeat | src/websocket/manager.rs:145-167 | one ping per handle of every endpoint, endpoint by endpoint in iteration order; successes plus failures equal the total connection count |
| Registry.PingEndpoints | src/websocket/manager.rs:152-162 | the outer heartbeat loop pings the endpoint lists one after another, reaching every registered handle |
| Registry.PingAll | src/websocket/manager.rs:153-161 | the inner loop pings the endpoint's handles in order and counts successes by whether the channel is open |
| Registry.EveryClientListed | src/websocket/manager.rs:152-162 | any order listing every endpoint reaches every registered handle |
| RequestsApi.EffectivePage | src/handlers/api.rs:19 | the page is at least 1: a page below 1 becomes 1, any other is kept |
| RequestsApi.EffectiveLimit | src/handlers/api.rs:20 | the limit is clamped to 1..100: kept when inside, 100 above, 1 below |
| RequestsApi.MethodList | src/handlers/api.rs:41 | the method filter is cut at every comma, one piece more than there are commas, and each listed method is its piece with the white space at both ends trimmed |
| RequestsApi.MethodListOfJoin | src/handlers/api.rs:41 | joining trimmed, comma-free method names with "," and listing them gives those names back in order |
| RequestsApi.MethodListConcat | src/handlers/api.rs:41 | the text on each side of a comma is listed independently, the left side's methods first |
| RequestsApi.PlaceholdersShape | src/handlers/api.rs:42-46 | the placeholder list holds exactly n `?` and n-1 commas and nothing else |
| RequestsApi.Window | src/handlers/api.rs:49-53 | LIMIT/OFFSET: the rows from the offset on, at most `count` of them, in order, and none past the end |
| RequestsApi.GetEndpointRequests | src/handlers/api.rs:13-137 | 404 exactly when the endpoint is unknown; otherwise the effective page and limit, the total of matching rows, and the requested window of those rows |
| RequestsApi.ListingFacts | src/handlers/api.rs:49-99 | a page holds min(limit, max(0, total - offset)) rows, all of the endpoint and, under a filter, of a listed method; the total does not depend on the page |
| RequestsApi.UnusedMethod | src/handlers/api.rs:49-61 | filtering on a method no row carries gives an empty page and a total of 0 |
| RequestsApi.PagesAreConsecutive | src/handlers/api.rs:19-21 | when page p is full, pages p and p+1 together are the window of 2·limit rows starting at page p |
| RequestsApi.DeleteEndpoint | src/handlers/api.rs:160-192 | 404 and no change for an unknown id; otherwise 204 and exactly that endpoint row is gone |
| RequestsApi.DeleteThenList | src/handlers/api.rs:34-36 | after a delete, listing that endpoint answers 404 |
| RequestsApi.UpdateEndpointResponse | src/handlers/api.rs:196-246 | the checks in order, each an if-and-only-if: bad status is 400, invalid headers JSON is 400, unknown endpoint is 404, otherwise the update; an update sets exactly the four response fields of that row and changes nothing else |
| Webhook.HeaderText | src/handlers/webhook.rs:227 | a header value that is visible ASCII or tab is kept character for character; any other value is recorded as "[binary]" |
| Webhook.AddHeaderStep | src/handlers/webhook.rs:230-241 | one loop turn: the first value under a name is stored as a string, the second turns the entry into an array of both, later ones are appended; other names are untouched |
| Webhook.HeaderObjectAt | src/handlers/webhook.rs:222-245 | the header object has one entry per name, and that entry is the name's values in arrival order (a string for one, an array for two or more, absent for none) |
| Webhook.HeaderObjectMeaning | src/handlers/webhook.rs:222-245 | the same fact for every name at once |
| Webhook.HeadersToJson | src/handlers/webhook.rs:280-284 | no headers give the text "{}" |
| Webhook.ContentType | src/handlers/webhook.rs:66-69 | with no `content-type` header nothing is recorded; otherwise the first such header decides: its text when readable, nothing when not, whatever later headers hold |
| Webhook.ContentTypeIsFirstRecorded | src/handlers/webhook.rs:66-69 | the stored content type is the first value the header object records under `content-type`; when that value is unreadable nothing is stored and the object shows "[binary]" |
| Webhook.ReplyStatus | src/handlers/webhook.rs:188-189 | the reply status is always 100..999: the stored status's low 16 bits when they are in that range, 200 otherwise |
| Webhook.InsertEntriesIsFromPairs | src/handlers/webhook.rs:199-207 | the insertion loop over the stored entries equals writing the accepted entries, in order, after the ones already present |
| Webhook.CustomHeadersAre | src/handlers/webhook.rs:192-209 | the custom reply headers are Access-Control-Allow-Origin "*" followed by each stored entry with a valid name and an acceptable string value; nothing when the stored text is missing or not an object |
| Webhook.CustomHeadersMeaning | src/handlers/webhook.rs:192-209 | each reply header holds the last accepted value for its name; allow-origin stays "*" unless an accepted entry overrides it; no other header appears |
| Webhook.Handle | src/handlers/webhook.rs:18-219 | 413 exactly when the body exceeds 10 MiB; otherwise 404 exactly for an unknown endpoint; an accepted request stores its body (none when empty), its header JSON, its content type, its endpoint, and the request's method, path, query string, arrival time and client address as given, and broadcasts the body as UTF-8 text when it decodes |
| Webhook.ReplyChoice | src/handlers/webhook.rs:186-218 | with the custom response off the reply is 200, allow-origin "*" and an empty body; with it on, the parsed status, the custom headers and the stored body or "" |
| Migrations.TrimSemicolons | src/db/mod.rs:50 | `trim_end_matches(';')` keeps a prefix, removes only ';' characters, and leaves no ';' at the end |
| Migrations.Statement | src/db/mod.rs:50 | a flushed statement has no white space at either end |
| Migrations.Classify | src/db/mod.rs:35-38 | a line is classified blank exactly when its trimmed form is empty |
| Migrations.Flush | src/db/mod.rs:49-55 | a flush adds at most one statement, at the end, and only a clean one |
| Migrations.Step | src/db/mod.rs:34-56 | one loop turn: blank lines and comments with an empty buffer are skipped; a comment not ending in ';' changes nothing; code is appended with a line break; a line ending in ';' flushes the buffer; a flush empties the buffer |
| Migrations.StepKeepsInvariant | src/db/mod.rs:34-56 | every turn keeps the buffer well formed (empty, or ending in a line break after text whose last solid character is not ';') and every flushed statement clean |
| Migrations.RunInvariant | src/db/mod.rs:34-56 | the invariant holds after any number of lines |
| Migrations.LeftoverStatement | src/db/mod.rs:58-62 | a non-empty well-formed leftover buffer is not blank, and it is run as its trimmed text, which is clean |
| Migrations.StatementsAreClean | src/db/mod.rs:34-62 | SQLite never receives an empty statement nor one with white space at either end; the leftover statement is the trimmed buffer |
| Migrations.InertLinesAddNothing | src/db/mod.rs:38-46 | deleting the blank lines and the comments that do not end in ';' from a script changes nothing about the result |
| Migrations.RenderRoundTrip | src/db/mod.rs:34-56 | a script of one-line statements, each followed by ';', is split back into exactly those statements |
| Migrations.RenderedScript | src/db/mod.rs:34-62 | such a script runs exactly those statements, with nothing left over |
| Migrations.FlushedFirst | src/db/mod.rs:58-62 | the statements flushed inside the loop come before the leftover one |
| Migrations.RunGrows | src/db/mod.rs:49-55 | later lines only add statements after the earlier ones |
| Migrations.RunLines | src/db/mod.rs:34-56 | the loop either stops at the first failing statement, with everything before it accepted, or ends in the splitter's final state having run every flushed statement |
| Migrations.RunMigrations | src/db/mod.rs:27-66 | the statements run are a prefix of the script's statements, in order; success exactly when all ran and succeeded; otherwise the last one run is the first that failed |
| StaticFiles.StripSlashes | src/static_files.rs:13 | the result is a suffix of the path that does not start with '/' |
| StaticFiles.StripSlashesOf | src/static_files.rs:13 | any run of leading slashes is removed and the rest of the path is kept whole |
| StaticFiles.StripSlashesIdempotent | src/static_files.rs:13 | stripping twice is stripping once |
| StaticFiles.Serve | src/static_files.rs:12-30 | 200 exactly when the file exists or the path is outside `api/`, `webhook/`, `ws/` and `index.html` is embedded; the file itself takes precedence over the shell; every other answer is the plain 404 |
| StaticFiles.ServedIsCached | src/static_files.rs:32-41 | every 200 answer carries `public, max-age=31536000` |
| StaticFiles.SlashesIrrelevant | src/static_files.rs:13 | leading slashes never change the answer |
| StaticFiles.EmbeddedMeansFallback | src/static_files.rs:44-46 | with the shell embedded every non-server path gets 200; without it exactly the existing files do |
| WsClient.New | frontend/src/lib/websocket.ts:11-21 | a new client has no socket, no handler, no pending timer and zero attempts |
| WsClient.Connect | frontend/src/lib/websocket.ts:26-55 | a created socket becomes the current one; a throwing constructor changes nothing; handlers, attempts and timers are untouched |
| WsClient.OnOpen | frontend/src/lib/websocket.ts:30-33 | an open resets the attempt counter and changes nothing else |
| WsClient.DelaysAreDoubling | frontend/src/lib/websocket.ts:16-17 | the five waits are 1000, 2000, 4000, 8000 and 16000 ms, one per allowed attempt |
| WsClient.AttemptReconnect | frontend/src/lib/websocket.ts:80-94 | at the cap nothing happens; below it the counter goes up by one and a timer with delay 1000·2^(attempt-1) is added |
| WsClient.FireTimer | frontend/src/lib/websocket.ts:91-93 | the fired timer and only it is removed, the others keep their order; the socket is what `connect` would give; handlers and attempts are kept; firing a timer that does not exist changes nothing |
| WsClient.CloseThenFire | frontend/src/lib/websocket.ts:48-51 | a close below the cap followed by its timer firing is one counted attempt and then `connect`, with the timers as before the close |
| WsClient.OnMessage | frontend/src/lib/websocket.ts:35-42 | when no handler throws: a frame that parses reaches every handler once, in subscription order; one that does not parse reaches none |
| WsClient.OnMessageThrowing | frontend/src/lib/websocket.ts:35-42 | when a handler throws, the handlers reached are a prefix of the full delivery ending at the first one that throws; the later ones get nothing |
| WsClient.Subscribe | frontend/src/lib/websocket.ts:70-71 | the handler is appended; nothing else changes |
| WsClient.Unsubscribe | frontend/src/lib/websocket.ts:72-74 | every subscription of that handler is removed; the others keep their order and their counts |
| WsClient.SubscribeUnsubscribe | frontend/src/lib/websocket.ts:70-75 | unsubscribing a fresh handler right after subscribing it restores the client |
| WsClient.Disconnect | frontend/src/lib/websocket.ts:60-65 | the current socket is forgotten; with no socket nothing changes; attempts, handlers and timers stay as they were |
| WsClient.StepBounded | frontend/src/lib/websocket.ts:80-87 | no event pushes the counter past 5 or schedules a delay outside the table |
| WsClient.RunBounded | frontend/src/lib/websocket.ts:80-87 | the same after any sequence of events |
| WsClient.CloseSchedulesNext | frontend/src/lib/websocket.ts:48-51 | a close below the cap schedules the next delay of the table |
| WsClient.RepeatedCloses | frontend/src/lib/websocket.ts:80-94 | n closes without an open schedule the next delays of the table, up to five in all, and then nothing more |
| WsClient.DisconnectReopens | frontend/src/lib/websocket.ts:60-65 | as written: after `disconnect`, the socket's close event and the timer it sets open a new socket |
| WsClient.StepStoppable | frontend/src/lib/websocket.ts:60-65 | the corrected client behaves like the original one until it is disconnected |
| WsClient.StoppedStaysClosed | frontend/src/lib/websocket.ts:60-65 | corrected: after `disconnect`, no event other than `connect` opens a socket or leaves a reconnection pending |
| WsClient.DisconnectStops | frontend/src/lib/websocket.ts:60-65 | corrected: the trace that reopens the original client leaves the corrected one without a socket |
| LiveFeed.OnLiveMessage | frontend/src/pages/EndpointView.tsx:48-52 | a `new_request` frame puts its request in front of the live list; any other frame leaves the list alone |
| LiveFeed.ShownIsKeyed | frontend/src/pages/EndpointView.tsx:68-71 | the id map files every request under its own id, so the shown ids are the map's keys |
| LiveFeed.ShownOrder | frontend/src/pages/EndpointView.tsx:68-71 | each id of live-then-fetched appears once, at the place of its first occurrence; nothing is re-sorted |
| LiveFeed.ShownKeepsLast | frontend/src/pages/EndpointView.tsx:68-71 | the record shown for an id is the last one with that id, so a fetched copy replaces a live one |
| LiveFeed.ShownWithoutRepeats | frontend/src/pages/EndpointView.tsx:68-71 | with no repeated id the page shows exactly the live list followed by the fetched one |
| LiveFeed.CountLabelPlural | frontend/src/pages/EndpointView.tsx:105 | the count line says "requests" for every count but 1 |
| LiveFeed.Mount | frontend/src/pages/EndpointView.tsx:42-52 | no client without an id; otherwise a client for that id with just the page's handler, no attempt counted and no timer pending, holding a socket exactly when the constructor succeeded |
| LiveFeed.Cleanup | frontend/src/pages/EndpointView.tsx:54-57 | the cleanup removes the handler and drops the socket |
| LiveFeed.MountThenCleanup | frontend/src/pages/EndpointView.tsx:42-58 | cleaning up after mounting leaves no handler and no socket |
| RequestStore.Load | frontend/src/hooks/useRequests.ts:30-47 | no endpoint (null or "") empties the list and fetches nothing; a success replaces the list and clears the error; a failure keeps the list and records the error; loading ends either way |
| RequestStore.LoadWithoutEndpoint | frontend/src/hooks/useRequests.ts:31-34 | without an endpoint the fetch outcome plays no part and the list is empty |
| RequestStore.Clear | frontend/src/hooks/useRequests.ts:52-64 | the list is emptied only after the server confirms; a failure keeps the list, records the error and rethrows it |
| RequestStore.Delete | frontend/src/hooks/useRequests.ts:69-84 | after confirmation no entry has that id; the others keep their order and counts; a failure changes only the error, which is rethrown |
| RequestStore.DeleteAbsent | frontend/src/hooks/useRequests.ts:76 | deleting an id nobody has leaves the list as it was |
| RequestStore.Add | frontend/src/hooks/useRequests.ts:89-91 | the pushed request goes in front and nothing else changes |
| RequestStore.AddNeverDedups | frontend/src/hooks/useRequests.ts:89-91 | a request delivered twice is listed twice more |
| RequestStore.AddThenDelete | frontend/src/hooks/useRequests.ts:69-91 | adding a request with a fresh id and then deleting that id restores the list |
| EndpointStore.ErrorText | frontend/src/hooks/useEndpoints.ts:39 | a thrown `Error` records its own message; any other thrown value records the operation's fallback text |
| EndpointStore.Refresh | frontend/src/hooks/useEndpoints.ts:27-45 | a success replaces the list and clears the error, and with nothing selected a non-empty list gets its first endpoint selected; a failure only records the error; loading ends either way |
| EndpointStore.Create | frontend/src/hooks/useEndpoints.ts:51-64 | the new endpoint goes first, becomes the selection and is returned; a failure records "Failed to create endpoint" or the error's message and returns null |
| EndpointStore.Delete | frontend/src/hooks/useEndpoints.ts:66-89 | after success no entry has the id and the others keep their order and counts; a deleted selection moves to the first endpoint left, or to none; another selection stays; a failure returns false and changes only the error |
| EndpointStore.DeleteSelectsFirstLeft | frontend/src/hooks/useEndpoints.ts:74-79 | deleting the selected endpoint selects the first entry with a different id, wherever it stands, or nothing when none is left |
| EndpointStore.ReplaceId | frontend/src/hooks/useEndpoints.ts:96 | exactly the entries with the id become the server's copy, in place |
| EndpointStore.UpdateConfig | frontend/src/hooks/useEndpoints.ts:91-106 | a success replaces the entries with that id and returns the copy; a failure records the error and returns null |
| EndpointStore.FailuresKeepList | frontend/src/hooks/useEndpoints.ts:38-44 | no failing call changes the list, and none changes the selection |
| EndpointStore.CreateThenDelete | frontend/src/hooks/useEndpoints.ts:51-89 | creating an endpoint with a fresh id and deleting it restores the list and selects what was first before |
| EndpointStore.UpdateKeepsIds | frontend/src/hooks/useEndpoints.ts:96 | an update whose reply keeps the id leaves every id in its place |
| Validation.ValidateStatusCode | frontend/src/lib/validation.ts:5-10 | no error exactly for 100..599; otherwise the range message |
| Validation.ValidateJson | frontend/src/lib/validation.ts:12-20 | blank text is accepted without parsing; other text is accepted exactly when it parses; the error is "Invalid JSON syntax" |
| Validation.TokenRun | frontend/src/lib/validation.ts:26 | the length of the leading run of letters, digits and hyphens |
| Validation.ValidateHeaderName | frontend/src/lib/validation.ts:22-30 | a blank name is reported empty; any other name is accepted exactly when every character is a letter, a digit or a hyphen |
| Validation.ControlAt | frontend/src/lib/validation.ts:34 | the position of the first character in 0x00-0x1F or 0x7F, or the length when there is none |
| Validation.ValidateHeaderValue | frontend/src/lib/validation.ts:32-38 | an error exactly when some character is a control character |
| Validation.ValidateUrl | frontend/src/lib/validation.ts:40-50 | blank text is reported empty; other text is accepted exactly when the URL constructor takes it |
| Validation.ValidateRateLimit | frontend/src/lib/validation.ts:52-60 | on a JavaScript number: no error exactly for NaN and for finite values in 0..10000, fractional or not; negative values and minus infinity get the negative message first, values above 10000 and plus infinity the too-high one |
| Validation.ValidateMaxRequests | frontend/src/lib/validation.ts:62-70 | on a JavaScript number: no error exactly for NaN and for finite values in 0..100000, with the same order of messages |
| Export.QuoteAsWrittenBreaks | frontend/src/lib/export.ts:30 | as written: a body of one `'` is exported as `'\''`, which a POSIX shell does not read back (the quote is left open) |
| Export.QuoteRoundTrip | frontend/src/lib/export.ts:30 | corrected: the body word, with each `'` written as `'\''`, reads back under POSIX shell quoting as exactly the body |
| Export.QuotingsAgree | frontend/src/lib/export.ts:30 | for a body without single quotes both spellings are the body in single quotes |
| Export.HeaderOptions | frontend/src/lib/export.ts:25-26 | one `-H "key: value"` option per header, in order |
| Export.CurlParts | frontend/src/lib/export.ts:24-38 | the command has four pieces with a body and three without |
| Export.CurlShape | frontend/src/lib/export.ts:24-38 | the command is its pieces (method, header options, data option when the body is not empty, quoted URL) joined by a backslash-newline continuation |
| Export.CurlEnds | frontend/src/lib/export.ts:33-37 | the command starts with `curl -X` and the method and ends with the quoted origin, path and `?query` when there is one |
| Export.CurlDataReadsBack | frontend/src/lib/export.ts:29-31 | corrected: the data option carries exactly the body to curl |
| Export.HeaderLines | frontend/src/lib/export.ts:45-47 | one `key: value` line per header, in order |
| Export.RawLines | frontend/src/lib/export.ts:43-50 | with at least one header, the raw export splits into the request line, the header lines, one empty line and the body's lines |
| Export.RawLinesNoHeaders | frontend/src/lib/export.ts:43-50 | with no header, the request line is followed by two empty lines and then the body's lines |
| Export.RawRoundTrip | frontend/src/lib/export.ts:43-50 | reading the raw export back gives the request line, the header lines in order and the body |
| Export.LanguageOf | frontend/src/lib/export.ts:55-68 | the language is always one of text, json, xml, html, javascript, typescript, css, yaml |
| Export.LanguageIsFirstFamily | frontend/src/lib/export.ts:57-67 | the language is that of the first family in the fixed order whose word the lower-cased type contains; yaml answers to `yaml` or `yml`; otherwise text |
| Export.LanguageIgnoresCase | frontend/src/lib/export.ts:57 | upper-casing the content type does not change the language |
| Export.FormatBody | frontend/src/lib/export.ts:73-82 | only a json body is reformatted; text that does not parse is returned unchanged |
| Keyboard.MatchesExactly | frontend/src/hooks/useKeyboard.ts:34-55 | a shortcut matches exactly when the key agrees up to case and each modifier is pressed exactly when the shortcut asks for it |
| Keyboard.MatchIgnoresCase | frontend/src/hooks/useKeyboard.ts:34 | the case of the pressed key never matters |
| Keyboard.HandleKeyDown | frontend/src/hooks/useKeyboard.ts:21-62 | presses aimed at an input, a textarea or editable content run nothing; otherwise the first matching shortcut in list order runs, and the default is prevented exactly when one runs; no match means no shortcut matches |
| Keyboard.FirstMatch | frontend/src/hooks/useKeyboard.ts:33-61 | the position of the first matching shortcut, every earlier one failing, or the length when none matches |
| Keyboard.Triggered | frontend/src/hooks/useKeyboard.ts:17-19 | a disabled hook, or a press in a text field, triggers nothing; anything triggered matches the press |
| Keyboard.OnlyHelpNeedsShift | frontend/src/hooks/useKeyboard.ts:69-101 | among the default shortcuts only `?` needs a modifier, and it needs Shift alone |
| EndpointConfig.CommonStatusIsValid | frontend/src/components/endpoint/EndpointConfig.tsx:68-71 | a status text that is not custom is the printed form of a listed code, and it parses to a code the status validation accepts |
| EndpointConfig.CommonCodeParses | frontend/src/components/endpoint/EndpointConfig.tsx:21-34 | every listed code's printed form parses back to it, and every listed code is in 100..599 |
| EndpointConfig.NumeralCustomExactly | frontend/src/components/endpoint/EndpointConfig.tsx:68-71 | the numeral of a number is in custom-status mode exactly when the number is not in the drop-down list |
| EndpointConfig.OffShapeIsCustom | frontend/src/components/endpoint/EndpointConfig.tsx:69 | the comparison is on text, so text that is not three characters long or starts with "0" (such as "0404") is always custom |
| EndpointConfig.KeyError | frontend/src/components/endpoint/EndpointConfig.tsx:87-93 | a row's name is in error exactly when it is not blank and holds a character other than a letter, digit or hyphen |
| EndpointConfig.HeaderErrors | frontend/src/components/endpoint/EndpointConfig.tsx:84-96 | the error record holds exactly the indices of the rows whose name is in error, each with the name message |
| EndpointConfig.FirstKeyErrorIsLeast | frontend/src/components/endpoint/EndpointConfig.tsx:124-126 | the header error reported first is that of the lowest-indexed row in error, and there is one exactly when the record is not empty |
| EndpointConfig.RepeatAtMeansDuplicates | frontend/src/components/endpoint/EndpointConfig.tsx:131 | the `indexOf(key) !== index` scan finds nothing exactly when all checked names differ |
| EndpointConfig.ContentType | frontend/src/components/endpoint/EndpointConfig.tsx:75 | the value of the first row named content-type in any case, and none exactly when no row is |
| EndpointConfig.JsonCheck | frontend/src/components/endpoint/EndpointConfig.tsx:74-82 | a JSON error exactly when the content type mentions application/json in any case, the body is not blank and it does not parse |
| EndpointConfig.ValidateForm | frontend/src/components/endpoint/EndpointConfig.tsx:112-121 | a status text that does not parse gives "Status code must be a number"; a number outside 100..599 gives the range message |
| EndpointConfig.ValidateFormAccepts | frontend/src/components/endpoint/EndpointConfig.tsx:112-148 | a form passes exactly when the status parses to 100..599, every name is valid, the lower-cased names are distinct, no blank name has a value and the JSON check passes |
| EndpointConfig.NameErrorsComeFirst | frontend/src/components/endpoint/EndpointConfig.tsx:123-127 | once the status passes, a bad header name is reported before a duplicate, an empty name or a bad body |
| EndpointConfig.DuplicateReported | frontend/src/components/endpoint/EndpointConfig.tsx:129-134 | with valid names, the reported name is the earliest lower-cased key that repeats an earlier one, after "Duplicate header key: " |
| EndpointConfig.EmptyKeyBeforeJson | frontend/src/components/endpoint/EndpointConfig.tsx:136-146 | once the status, names and distinctness pass, a blank name with a value gives "Header key cannot be empty", whatever the body's JSON check would say |
| EndpointConfig.AddRow | frontend/src/components/endpoint/EndpointConfig.tsx:98-100 | one empty row is appended and the others are kept |
| EndpointConfig.RemoveRow | frontend/src/components/endpoint/EndpointConfig.tsx:102-104 | the row at the index goes, the others keep their order; an index past the end changes nothing |
| EndpointConfig.AddThenRemove | frontend/src/components/endpoint/EndpointConfig.tsx:98-104 | adding a row and removing it again restores the rows |
| EndpointConfig.ChangeRow | frontend/src/components/endpoint/EndpointConfig.tsx:106-110 | only the chosen field of the chosen row changes |
| EndpointConfig.FilledPairs | frontend/src/components/endpoint/EndpointConfig.tsx:163-164 | the rows with neither part blank, as pairs, never more than the rows |
| EndpointConfig.Save | frontend/src/components/endpoint/EndpointConfig.tsx:150-178 | rejected exactly when validation fails, with its message; otherwise the flag, the parsed status, headers only when some row is filled, and the trimmed body only when it is not blank |
| EndpointConfig.SaveKeepsEveryFilledRow | frontend/src/components/endpoint/EndpointConfig.tsx:163-176 | after validation no two saved names coincide, so the saved headers are exactly the filled rows in order |
| ResponseConfig.RowsOf | frontend/src/components/ResponseConfig.tsx:51-55 | one row per parsed entry, in order, with id `header-<index>` |
| ResponseConfig.InitialRows | frontend/src/components/ResponseConfig.tsx:47-63 | there is always at least one row; the editor starts from the single blank row exactly when there is no stored text, it does not parse or it holds no entry; otherwise the rows carry the stored names in order |
| ResponseConfig.ChangeRow | frontend/src/components/ResponseConfig.tsx:116-120 | exactly the rows with that id get the field replaced; every other row is unchanged |
| ResponseConfig.ChangeKeepsIds | frontend/src/components/ResponseConfig.tsx:116-120 | edits never change a row's id |
| ResponseConfig.AddRow | frontend/src/components/ResponseConfig.tsx:122-124 | one blank row is appended after the others |
| ResponseConfig.RemoveRow | frontend/src/components/ResponseConfig.tsx:126-132 | a single row is reset to the blank row; otherwise the rows with that id go |
| ResponseConfig.FilterDropsAtMostOne | frontend/src/components/ResponseConfig.tsx:130 | with distinct ids at most one row goes, and none when no row has the id |
| ResponseConfig.RemoveKeepsARow | frontend/src/components/ResponseConfig.tsx:126-132 | with distinct ids the editor never runs out of rows |
| ResponseConfig.StatusValid | frontend/src/components/ResponseConfig.tsx:65-73 | the status passes exactly when its text starts with a decimal number in 100..599 |
| ResponseConfig.HeadersValid | frontend/src/components/ResponseConfig.tsx:75-88 | the headers pass exactly when every row with a non-blank name has a non-blank value |
| ResponseConfig.BodyValid | frontend/src/components/ResponseConfig.tsx:90-109 | the body fails exactly when some row declares a JSON content type, the body is not blank and it does not parse |
| ResponseConfig.TrimmedPairsDrawn | frontend/src/components/ResponseConfig.tsx:163-167 | every name written is the trimmed name of some row, and never `__proto__` |
| ResponseConfig.TrimmedPairsCover | frontend/src/components/ResponseConfig.tsx:163-167 | every row with a non-blank name other than `__proto__` writes its trimmed name |
| ResponseConfig.HeadersObjectMeaning | frontend/src/components/ResponseConfig.tsx:162-167 | the object holds each name once: exactly the trimmed non-blank names of the rows other than `__proto__`, whose assignment stores nothing on a plain object; each maps to the value of its last row |
| ResponseConfig.HeadersObjectEmpty | frontend/src/components/ResponseConfig.tsx:162-177 | the object is empty exactly when no row stores an entry, so rows named only `__proto__` send no headers |
| ResponseConfig.LaterRowWins | frontend/src/components/ResponseConfig.tsx:165 | a later row with the same trimmed name overwrites an earlier one; under `__proto__` neither is stored |
| ResponseConfig.Save | frontend/src/components/ResponseConfig.tsx:148-179 | all three validators run and each records its verdict; the request is built exactly when all three pass, with the flag, the parsed status, headers only when the object is not empty and the body only when it is not blank |
| ResponseConfig.AfterSend | frontend/src/components/ResponseConfig.tsx:188-190 | a failed request leaves "Failed to save configuration" on the status field and keeps the other messages |
| ResponseConfig.PreviewOf | frontend/src/components/ResponseConfig.tsx:196-209 | the preview shows the same header object, the trimmed body or "(empty)", and the parsed status unless it is missing or 0, which fall back to 200 |
| ResponseConfig.PreviewMatchesSave | frontend/src/components/ResponseConfig.tsx:196-209 | whenever a save is sent, the preview shows the status, headers and body it sends |
| RequestDetail.MethodVariant | frontend/src/components/RequestDetail.tsx:21-37 | on the upper-cased method: GET is default, POST secondary, DELETE destructive, everything else outline, each an if-and-only-if |
| RequestDetail.MethodVariantIgnoresCase | frontend/src/components/RequestDetail.tsx:24 | lower-casing the method does not change its variant |
| RequestDetail.TryFormatJson | frontend/src/components/RequestDetail.tsx:39-49 | JSON exactly when the text parses, then shown pretty-printed; otherwise the text as plain text |
| RequestDetail.TryFormatXml | frontend/src/components/RequestDetail.tsx:51-57 | the text is never changed; it is labelled XML exactly when its trimmed form starts with `<` and ends with `>` |
| RequestDetail.DetectContentType | frontend/src/components/RequestDetail.tsx:59-94 | a missing or empty body shows nothing; anything not shown as JSON is the body unchanged |
| RequestDetail.DetectMeaning | frontend/src/components/RequestDetail.tsx:59-94 | a body is shown as JSON exactly when it parses and the type mentions application/json, or the type mentions no XML type and the body opens with `{` or `[`; it is shown as XML exactly when the type does not mention JSON, the body looks like XML, and the type declares XML or the JSON attempt did not apply |
| RequestDetail.DeclaredTypeIsCaseSensitive | frontend/src/components/RequestDetail.tsx:68 | the declared type is matched case-sensitively: "123" is JSON under application/json and plain text under APPLICATION/JSON |
| RequestDetail.ContentTypeOf | frontend/src/components/RequestDetail.tsx:110 | the lower-case header name wins unless its value is missing or empty, in which case `Content-Type` is read |
| RequestDetail.HeadersTextLines | frontend/src/components/RequestDetail.tsx:116-118 | the copied header text splits back into one `name: value` line per header, in order |
| Filters.FilterMethodsOffered | frontend/src/components/request/RequestFilters.tsx:4 | every offered button is an HTTP method of the request type; HEAD and OPTIONS are not offered |
| Filters.ToggleMethod | frontend/src/components/request/RequestFilters.tsx:15-20 | an unselected method is appended; a selected one is dropped entirely and the other methods keep their order and counts |
| Filters.ToggleTwice | frontend/src/components/request/RequestFilters.tsx:15-20 | toggling an unselected method twice gives the selection back |
| Filters.ClearHidesControl | frontend/src/components/request/RequestFilters.tsx:22-24 | clearing hides the "Clear filters" control, and selecting a method shows it |
| Filters.BarVariant | frontend/src/components/FilterBar.tsx:30-35 | a button is lit exactly when nothing is selected or its method is |
| Filters.Render | frontend/src/components/FilterBar.tsx:27-96 | one variant per button in the bar's order; ALL is lit exactly when nothing is selected; the clear button and the summary appear exactly when a method is selected or the trimmed search is not empty; the search's own clear button appears exactly when the search is not empty |
| Filters.SpacesAreNoFilter | frontend/src/components/FilterBar.tsx:27 | a search of spaces shows the search clear button but counts as no filter |
| Filters.AllClicks | frontend/src/components/FilterBar.tsx:46-50 | ALL toggles each selected method exactly once and nothing when nothing is selected |
| Filters.SetToggle | frontend/src/components/FilterBar.tsx:60 | toggling removes a member and adds a non-member |
| Filters.AllClearsSelection | frontend/src/components/FilterBar.tsx:46-50 | a parent that toggles its set once per call ends with nothing selected after ALL |
| RequestList.ToggleRow | frontend/src/components/RequestList.tsx:67-75 | the row joins the expanded set exactly when it was not in it; every other row keeps its state |
| RequestList.ToggleRowTwice | frontend/src/components/RequestList.tsx:67-75 | toggling a row twice restores the set |
| RequestList.Banner | frontend/src/components/RequestList.tsx:91-100 | the banner appears exactly when the new-request count is positive |
| RequestList.BannerPlural | frontend/src/components/RequestList.tsx:94 | a count of 1 reads "1 new request received"; every other count ends in "requests received" |
| RequestList.Render | frontend/src/components/RequestList.tsx:77-116 | no requests means only the empty state; otherwise the banner and one row per request in order, each with its method variant, new exactly for the first newRequestCount rows, expanded exactly when its id is in the set, and its header count |
| MethodBadge.TintOf | frontend/src/components/ui/MethodBadge.tsx:15-32 | on the upper-cased method, HEAD and OPTIONS are yellow and every method outside the seven named ones is muted, each an if-and-only-if |
| MethodBadge.Render | frontend/src/components/ui/MethodBadge.tsx:35 | the label is the upper-cased method |
| MethodBadge.ClassListOf | frontend/src/components/ui/MethodBadge.tsx:13-35 | the class attribute splits at spaces into the base classes, then the tint's background, text and border classes, then the caller's class |
| MethodBadge.TintTable | frontend/src/components/ui/MethodBadge.test.tsx:10-88 | GET blue, POST green, PUT orange, PATCH purple, DELETE red, HEAD and OPTIONS yellow, an unknown method muted; lower-case input gets the same badge |
| RelativeTime.Bucket | frontend/src/components/ui/RelativeTimestamp.tsx:20-28 | seconds below 60, minutes below 3600, hours below 86400, days from there on, each an if-and-only-if |
| RelativeTime.BucketCount | frontend/src/components/ui/RelativeTimestamp.tsx:18-28 | below a minute the count is the age itself; otherwise it is the number of whole units in the age, at least 1, under 60 minutes or 24 hours |
| RelativeTime.LabelEdges | frontend/src/components/ui/RelativeTimestamp.tsx:20-28 | 59 s reads "59s ago", 60 s "1m ago", 3599 s "59m ago", 3600 s "1h ago", 86400 s "1d ago", and a date 2 s ahead "-2s ago" |
| HeadersTab.FilterHeaders | frontend/src/components/detail/HeadersTab.tsx:16-18 | exactly the headers whose lower-cased name contains the lower-cased filter are kept, in their order and with their counts |
| HeadersTab.EmptyFilterKeepsAll | frontend/src/components/detail/HeadersTab.tsx:16-18 | an empty filter keeps every header in order |
| HeadersTab.FilterIgnoresCase | frontend/src/components/detail/HeadersTab.tsx:17 | upper-casing the filter keeps the same headers |
| HeadersTab.CountLineSingular | frontend/src/components/detail/HeadersTab.tsx:36-37 | the count says "headers" exactly when it is not 1 |
| HeadersTab.CopyAll | frontend/src/components/detail/HeadersTab.tsx:54-63 | the copy button appears exactly when there is a header, and copies every header, whatever the filter, one `name: value` line each |
| HeadersTab.DisplayValue | frontend/src/components/detail/HeadersTab.tsx:75-76 | values up to 100 characters, and expanded values, are shown whole; a longer collapsed value shows its first 100 characters and "..." |
| HeadersTab.DisplayIsPrefix | frontend/src/components/detail/HeadersTab.tsx:75-76 | what is shown is the value, or its first 100 characters and "..." when the toggle is offered |
| Utils.Kept | frontend/src/lib/utils.ts:66 | the kept words are never more than the arguments, and none is empty |
| Utils.KeptIsFilteredWords | frontend/src/lib/utils.ts:66 | the kept words are the arguments `filter(Boolean)` keeps, printed one by one, in order |
| Utils.Cn | frontend/src/lib/utils.ts:65-67 | a single truthy argument is the result itself |
| Utils.CnOfNothingTruthy | frontend/src/lib/utils.ts:65-67 | with no truthy argument the result is "" |
| Utils.CnDropsFalsy | frontend/src/lib/utils.ts:66 | a falsy argument anywhere in the list changes nothing |
| Utils.CnPrintsTrue | frontend/src/lib/utils.ts:65-67 | `true` is printed as the class "true", and `false`, null and "" vanish |
| Utils.CnTokens | frontend/src/lib/utils.ts:65-67 | split at spaces, the result gives back exactly the kept words when no string argument holds a space and one argument is truthy |
| Utils.MethodColor | frontend/src/lib/utils.ts:25-36 | a name the record inherits from `Object.prototype`, such as `constructor` or `toString`, returns that inherited member; the gray classes are returned exactly for every other key but GET, POST, PUT, PATCH and DELETE |
| Utils.MethodColorRecorded | frontend/src/lib/utils.ts:26-34 | every key of the record gets the classes recorded under it |
| Utils.MethodColorFallback | frontend/src/lib/utils.ts:35 | a key outside the record, such as a lower-case method, gets gray, unless it is an inherited name, which gets the inherited member |
| Theme.Name | frontend/src/hooks/useTheme.ts:34 | the stored name is "dark" or "light" |
| Theme.InitialTheme | frontend/src/hooks/useTheme.ts:16-30 | a stored "light" gives light and anything else, stored or not, gives dark |
| Theme.SystemPreferenceIgnored | frontend/src/hooks/useTheme.ts:23-29 | as written: the system preference never decides the theme |
| Theme.IntendedInitialTheme | frontend/src/hooks/useTheme.ts:5-13 | corrected: a stored name wins; otherwise the theme is light exactly when the system prefers light |
| Theme.IntendedDiffersOnLightSystem | frontend/src/hooks/useTheme.ts:5-29 | both agree when a name is stored; with none stored and a system that prefers light, the corrected hook picks light and the hook as written dark |
| Theme.StoredNameReadBack | frontend/src/hooks/useTheme.ts:18-21 | a stored name is read back as the theme it names |
| Theme.Toggle | frontend/src/hooks/useTheme.ts:44-46 | a toggle always changes the theme |
| Theme.ToggleTwice | frontend/src/hooks/useTheme.ts:44-46 | two toggles restore it |
| Theme.Effect | frontend/src/hooks/useTheme.ts:32-42 | after the effect the storage holds the theme's name and the root has the `dark` class exactly for dark; no other class changes |
| Theme.Mount | frontend/src/hooks/useTheme.ts:16-42 | a mounted page is in sync |
| Theme.ToggleStep | frontend/src/hooks/useTheme.ts:32-46 | a toggle and its effect leave the page in sync with the other theme |
| Theme.TogglesKeepSync | frontend/src/hooks/useTheme.ts:32-46 | after any number of toggles the page is in sync, an even number restores the theme, and no other root class changes |
| Theme.ReloadKeepsTheme | frontend/src/hooks/useTheme.ts:16-42 | reloading a synced page brings back exactly the page it showed |
| Toast.ToastIdInjective | frontend/src/components/ui/use-toast.ts:15 | different counter values give different ids |
| Toast.Notify | frontend/src/components/ui/use-toast.ts:18 | one call per listener, in registration order, each passed the current list |
| Toast.AddToast | frontend/src/components/ui/use-toast.ts:14-26 | the counter is bumped before use, the toast with the new id goes last, every listener is told, a timer is set for the id, and the id is returned |
| Toast.RemoveToast | frontend/src/components/ui/use-toast.ts:28-31 | no toast with the id is left, the others keep their order and counts, and every listener is told |
| Toast.RemoveAbsent | frontend/src/components/ui/use-toast.ts:29 | removing an id no toast has leaves the list as it was |
| Toast.Expire | frontend/src/components/ui/use-toast.ts:21-23 | the oldest pending timer removes its toast; with no timer nothing happens |
| Toast.Register | frontend/src/components/ui/use-toast.ts:36-39 | the listener is registered afterwards, no other one is added or dropped, and no listener is registered twice |
| Toast.RegisterIdempotent | frontend/src/components/ui/use-toast.ts:36-39 | registering twice is registering once |
| Toast.InitialValid | frontend/src/components/ui/use-toast.ts:10-12 | the empty store satisfies the invariant |
| Toast.AddKeepsValid | frontend/src/components/ui/use-toast.ts:14-26 | adding keeps ids issued and distinct, every shown toast with a pending timer, and listeners distinct |
| Toast.RemoveKeepsValid | frontend/src/components/ui/use-toast.ts:28-31 | removing keeps the invariant |
| Toast.ExpireKeepsValid | frontend/src/components/ui/use-toast.ts:21-23 | a timer firing keeps the invariant |
| Toast.NextIdIsFresh | frontend/src/components/ui/use-toast.ts:15 | an id already handed out never equals the next one, so ids never repeat |
| Toast.AddThenRemove | frontend/src/components/ui/use-toast.ts:14-31 | removing a toast's id right after adding it restores the earlier list |
| Toast.DropLast | frontend/src/components/ui/use-toast.ts:28-31 | removing an id that only the last toast has gives back the toasts before it |
| Toast.AllTimersClearToasts | frontend/src/components/ui/use-toast.ts:21-23 | once every pending timer has fired no toast is left |

## Left out

- Database access: sqlx queries are modelled as slicing and filtering over an in-memory picture of the two tables. SQLite pool and WAL setup and the request-count update are not part of this model.
- The background insert of a captured request and its failure path are not modelled; the reply does not depend on it.
- Database failures (the 500 answers of the API handlers) are not modelled.
- Async and concurrency machinery (tokio tasks, `RwLock`, `mpsc` channels, the socket loops of src/handlers/websocket.rs) is not modelled. Registry operations are sequential steps, which the lock makes them.
- Logging (`tracing`, `console.error`/`console.log`) is not modelled.
- Foreign parsers and printers are parameters and are not modelled further: `serde_json`, `JSON.parse`/`JSON.stringify`, `HeaderName`/`HeaderValue::from_str`, `StatusCode::from_u16`, `String::from_utf8`, `mime_guess`, `include_dir` and `new URL`.
- Webhook.HeadersToJson: members are printed in the order their names first appear. `serde_json::Map` prints them in key order unless the crate's `preserve_order` feature is on, and the crate's build features are not part of this model. What each name maps to is modelled exactly.
- Validation.ValidateUrl: the `URL` constructor is not modelled; whether it accepts the text is the `isUrl` parameter.
- The query-string parsing of the broadcast request's `query_params` (`form_urlencoded`) is a parameter.
- Strings.Trim, Strings.IsBlank, Strings.Lower, Strings.Upper: trimming treats only ASCII space and `\t`..`\r` as white space, and case mapping changes only ASCII letters. Rust's `trim` and JavaScript's `trim`, `toLowerCase` and `toUpperCase` also act on Unicode characters, such as U+00A0 (no-break space), which JavaScript strips. So the model can differ from the source on text holding non-ASCII white space or letters, in every place it trims or maps case:
  - response and form bodies: EndpointConfig.Save and JsonCheck, ResponseConfig.Save, BodyValid and PreviewOf, RequestDetail.TryFormatXml and DetectContentType. A body of U+00A0 alone is saved as no body by the source and as that character by the model;
  - header names and values: EndpointConfig.KeyError, FilledPairs, ContentType and HeaderErrors; ResponseConfig.HeadersValid, TrimmedPairs and DeclaresJson; Validation.ValidateHeaderName and ValidateJson;
  - migration lines and statements: Migrations.Classify, Statement and Flush;
  - the method filter list (RequestsApi.MethodList) and the search text (Filters.Render, SpacesAreNoFilter);
  - case-insensitive comparisons: Keyboard.Matches, HeadersTab.FilterHeaders, Export.LanguageOf, RequestDetail.MethodVariant, MethodBadge.TintOf and the lower-cased keys of EndpointConfig.
  Every statement proved holds for the ASCII-only operations.
- Strings.ParseIntDecimalRoundTrip: stated for non-negative numbers only. The negative case is not proved; every status code the callers parse is non-negative.
- RequestsApi: `RequestQueryParams` is not part of this model. Page and limit are unbounded integers, so the integer width of the query parameters and of `(page - 1) * limit` is not modelled.
- RequestsApi.DeleteEndpoint: keeps the endpoint's request rows, whose removal is the database's `ON DELETE CASCADE`. Listing them afterwards is answered 404 all the same.
- RequestsApi.UpdateEndpointResponse: the SQL update is modelled as "updated exactly when the endpoint exists".
- Floats, dates and locale are not modelled: `formatBytes` in utils.ts, export.ts and RequestList.tsx, `Blob` sizes, `formatDate`, `formatTimestamp`, `toLocaleString`, and date parsing in RelativeTimestamp.tsx (the caller passes both instants in milliseconds).
- Timers are not modelled as waits. The reconnection delay is a value and its firing is an event. The toast timer is the explicit `Toast.Expire` step, which fires the oldest timer first because every timer waits the same five seconds. RelativeTimestamp's refresh interval is not modelled.
- Browser APIs are not modelled: clipboard writes (`copyToClipboard`, the copy buttons), downloads (`exportAsJSON`), DOM events, and React rendering beyond the values a component derives.
- localStorage is a field of `Theme.Page`, and `matchMedia` is the parameter `systemDark` (the `Scheme` value for the corrected hook).
- Keyboard: installing and removing the listener is modelled only as the `enabled` switch. `handleEscape` and the other per-page handlers bound to the shortcuts are handler numbers.
- WsClient: the dashboard page calls `ws.onMessage`, which `WebSocketClient` does not define. The model treats that call as `subscribe`.
- useWebSocket.ts and its test expect `onStatusChange`, `send`, `connect(callback)` and a `usingPolling` field that the client class does not have. That hook is not part of this model; the client class is modelled directly.
- Export.RawLines: requires at least one header; the shape with no header is stated separately by Export.RawLinesNoHeaders.
- EndpointConfig.ValidateForm: its own contract states only the two status checks; the later checks, in their order, are stated by EndpointConfig.ValidateFormAccepts, NameErrorsComeFirst, DuplicateReported and EmptyKeyBeforeJson.
- WsClient.OnMessage: states the delivery when no handler throws; a throwing handler that stops the later ones is WsClient.OnMessageThrowing. What a handler does is not modelled, only which handlers are called with which message.
- Export.RawRoundTrip: requires at least one header and no line break in any field. With no header, the empty header block cannot be told apart from the blank separator line.
- RequestDetail.HeadersTextLines: requires at least one header and no line break in any field, for the same reason.
- Export: the `-H "name: value"` options are printed without escaping, as the source prints them. The model proves nothing about how a shell reads a header holding `"`.
- Header objects are modelled as insertion-ordered key/value lists. JavaScript lists integer-like keys of an object first, in numeric order; that reordering is not modelled.
- EndpointConfig: the dialog's initial state (the form fields copied from the endpoint) is not modelled.
- ResponseConfig: `applyTemplate` and the response templates (frontend/src/lib/response-templates.ts) are not part of this model.
- EndpointConfig.ChangeRow: requires the index to be in range. The form only edits rows it has rendered.
- ResponseConfig.RemoveKeepsARow: "never zero rows" is proved for rows with distinct ids, which the `Date.now()` ids give in practice but the source does not check.
- RequestDetail: the raw-request tab and the `URLSearchParams` display of the query string are not modelled.
- Toast: the title and description are opaque optional strings, and a listener is a number standing for its setter. Calls made to listeners are recorded in `deliveries`. A listener registered by `useToast` is never removed in the source, and the model does not remove one either.
- Everything outside the modelled files (presentational components, the API fetch wrapper, wiring, build and test doubles) is not part of this model.

## Findings

| source | as written | input that shows it | evidently intended | confidence | as-written member | corrected member |
|---|---|---|---|---|---|---|
| frontend/src/lib/websocket.ts:60-65 | `disconnect` closes the socket and forgets it, but the socket's `onclose` handler stays bound and still calls `attemptReconnect`. After an explicit disconnect a timer is scheduled and a new socket is opened. | connect, open, `disconnect`, the close event, then the 1000 ms timer fires: a second socket is opened for the endpoint the page has left | an explicit disconnect stops reconnection until `connect` is called again | high, not executed | WsClient.DisconnectReopens | WsClient.StoppedStaysClosed |
| frontend/src/lib/export.ts:30 | the body is put between single quotes with every `'` written `\'`. Inside single quotes a POSIX shell keeps the backslash and ends the word at the quote. | a body consisting of one `'` is exported as `'\''`, which leaves a quote open | every `'` written as `'\''` (close, escaped quote, reopen), so the word reads back as the body | high, not executed | Export.QuoteAsWrittenBreaks | Export.QuoteRoundTrip |
| frontend/src/hooks/useTheme.ts:23-29 | the doc comment at lines 8-11 puts the system preference second, but both branches after the stored-name check return `'dark'` | nothing stored and a system that prefers light: the hook picks dark | with no stored name, a system that prefers light gives light | medium, not executed | Theme.SystemPreferenceIgnored | Theme.IntendedInitialTheme |

=== FILE: assoc.dfy ===
/** Insertion-ordered key/value lists: the behaviour shared by a JavaScript object with
    string keys, a JavaScript `Map` and an `http::HeaderMap` used through `insert`.
    Writing a key that is present replaces its value where it stands; writing a new key
    appends it. */
module Assoc {
  import opened Wrappers

  type Pairs<K, V> = seq<(K, V)>

  function Keys<K, V>(a: Pairs<K, V>): (ks: seq<K>)
    ensures |ks| == |a| && forall i :: 0 <= i < |a| ==> ks[i] == a[i].0
  {
    seq(|a|, i requires 0 <= i < |a| => a[i].0)
  }

  function Values<K, V>(a: Pairs<K, V>): (vs: seq<V>)
    ensures |vs| == |a| && forall i :: 0 <= i < |a| ==> vs[i] == a[i].1
  {
    seq(|a|, i requires 0 <= i < |a| => a[i].1)
  }

  predicate DistinctKeys<K(==), V>(a: Pairs<K, V>) {
    forall i, j :: 0 <= i < j < |a| ==> a[i].0 != a[j].0
  }

  predicate HasKey<K(==), V>(a: Pairs<K, V>, k: K) {
    exists i :: 0 <= i < |a| && a[i].0 == k
  }

  /** The value stored under `k`: the last pair with that key. */
  function Lookup<K(==), V(==)>(a: Pairs<K, V>, k: K): (r: Option<V>)
    ensures r.None? <==> !HasKey(a, k)
    ensures r.Some? ==> exists i :: 0 <= i < |a| && a[i] == (k, r.value)
  {
    if |a| == 0 then None
    else if a[|a| - 1].0 == k then Some(a[|a| - 1].1)
    else Lookup(a[..|a| - 1], k)
  }

  /** A lookup in two lists one after the other finds the second list's value first. */
  lemma {:induction false} LookupAppend<K, V>(a: Pairs<K, V>, b: Pairs<K, V>, k: K)
    ensures Lookup(a + b, k) == if HasKey(b, k) then Lookup(b, k) else Lookup(a, k)
    decreases |b|
  {
    if |b| == 0 {
      assert a + b == a;
    } else {
      var init := b[..|b| - 1];
      assert (a + b)[..|a + b| - 1] == a + init;
      LookupAppend(a, init, k);
      assert HasKey(b, k) <==> b[|b| - 1].0 == k || HasKey(init, k) by {
        if HasKey(b, k) && b[|b| - 1].0 != k {
          var i :| 0 <= i < |b| && b[i].0 == k;
          assert init[i] == b[i];
        }
        if HasKey(init, k) {
          var i :| 0 <= i < |init| && init[i].0 == k;
          assert b[i] == init[i];
        }
      }
    }
  }

  /** The slot of the first pair with key `k`. */
  function FirstIndex<K(==), V>(a: Pairs<K, V>, k: K): (i: nat)
    requires HasKey(a, k)
    ensures i < |a| && a[i].0 == k && forall j :: 0 <= j < i ==> a[j].0 != k
  {
    if a[0].0 == k then 0
    else
      assert HasKey(a[1..], k) by {
        var i :| 0 <= i < |a| && a[i].0 == k;
        assert a[1..][i - 1] == a[i];
      }
      1 + FirstIndex(a[1..], k)
  }

  /** `obj[k] = v`, `map.set(k, v)`, `headers.insert(k, v)`. */
  function Insert<K(==), V>(a: Pairs<K, V>, k: K, v: V): (r: Pairs<K, V>)
  {
    if HasKey(a, k) then a[FirstIndex(a, k) := (k, v)] else a + [(k, v)]
  }

  /** Insertion never reorders keys: a present key keeps its slot and a new one goes last;
      distinct keys stay distinct. */
  lemma InsertKeys<K, V>(a: Pairs<K, V>, k: K, v: V)
    requires DistinctKeys(a)
    ensures DistinctKeys(Insert(a, k, v))
    ensures HasKey(a, k) ==> Keys(Insert(a, k, v)) == Keys(a)
    ensures !HasKey(a, k) ==> Keys(Insert(a, k, v)) == Keys(a) + [k]
    ensures forall k' :: HasKey(Insert(a, k, v), k') <==> k' == k || HasKey(a, k')
  {
    var r := Insert(a, k, v);
    if HasKey(a, k) {
      assert Keys(r) == Keys(a);
      forall k' | HasKey(r, k') ensures k' == k || HasKey(a, k') {
        var i :| 0 <= i < |r| && r[i].0 == k';
        assert a[i].0 == k';
      }
      forall k' | HasKey(a, k') ensures HasKey(r, k') {
        var i :| 0 <= i < |a| && a[i].0 == k';
        assert r[i].0 == k';
      }
    } else {
      assert Keys(r) == Keys(a) + [k];
      assert r[|a|].0 == k;
      forall k' | HasKey(a, k') ensures HasKey(r, k') {
        var i :| 0 <= i < |a| && a[i].0 == k';
        assert r[i].0 == k';
      }
    }
  }

  /** In a list without repeated keys, the pair at slot `i` is what its key looks up to. */
  lemma {:induction false} LookupAt<K, V>(a: Pairs<K, V>, i: nat)
    requires DistinctKeys(a) && i < |a|
    ensures Lookup(a, a[i].0) == Some(a[i].1)
    decreases |a|
  {
    if i < |a| - 1 {
      var init := a[..|a| - 1];
      assert init[i] == a[i];
      LookupAt(init, i);
    }
  }

  /** After an insertion the written key holds the new value and every other key keeps its
      old one. */
  lemma InsertLookup<K, V>(a: Pairs<K, V>, k: K, v: V)
    requires DistinctKeys(a)
    ensures Lookup(Insert(a, k, v), k) == Some(v)
    ensures forall k' :: k' != k ==> Lookup(Insert(a, k, v), k') == Lookup(a, k')
  {
    var r := Insert(a, k, v);
    InsertKeys(a, k, v);
    var slot := if HasKey(a, k) then FirstIndex(a, k) else |a|;
    assert r[slot] == (k, v);
    LookupAt(r, slot);
    forall k' | k' != k ensures Lookup(r, k') == Lookup(a, k') {
      if HasKey(a, k') {
        var i :| 0 <= i < |a| && a[i].0 == k';
        assert r[i] == a[i];
        LookupAt(a, i);
        LookupAt(r, i);
      }
    }
  }

  /** Writing the pairs one after another into an empty object / map. */
  function FromPairs<K(==), V>(ps: Pairs<K, V>): (r: Pairs<K, V>)
    decreases |ps|
  {
    if |ps| == 0 then [] else Insert(FromPairs(ps[..|ps| - 1]), ps[|ps| - 1].0, ps[|ps| - 1].1)
  }

  /** Building from pairs keeps each key once, with the value of its last occurrence. */
  lemma {:induction false} FromPairsMeaning<K, V>(ps: Pairs<K, V>)
    ensures DistinctKeys(FromPairs(ps))
    ensures forall k :: HasKey(FromPairs(ps), k) <==> HasKey(ps, k)
    ensures forall k :: Lookup(FromPairs(ps), k) == Lookup(ps, k)
    decreases |ps|
  {
    if |ps| > 0 {
      var init := ps[..|ps| - 1];
      var last := ps[|ps| - 1];
      var a := FromPairs(init);
      assert FromPairs(ps) == Insert(a, last.0, last.1);
      FromPairsMeaning(init);
      InsertKeys(a, last.0, last.1);
      InsertLookup(a, last.0, last.1);
      forall k ensures Lookup(ps, k) == (if k == last.0 then Some(last.1) else Lookup(init, k)) {
      }
      forall k ensures HasKey(ps, k) <==> k == last.0 || HasKey(init, k) {
        if HasKey(ps, k) && k != last.0 {
          var i :| 0 <= i < |ps| && ps[i].0 == k;
          assert init[i] == ps[i];
        }
        if HasKey(init, k) {
          var i :| 0 <= i < |init| && init[i].0 == k;
          assert ps[i] == init[i];
        }
      }
    }
  }

  /** Every pair of a built list is one of the pairs it was built from. */
  lemma {:induction false} FromPairsDrawn<K, V>(ps: Pairs<K, V>)
    ensures forall i :: 0 <= i < |FromPairs(ps)| ==> FromPairs(ps)[i] in ps
    decreases |ps|
  {
    if |ps| > 0 {
      var init := ps[..|ps| - 1];
      var last := ps[|ps| - 1];
      FromPairsDrawn(init);
      var a := FromPairs(init);
      var r := Insert(a, last.0, last.1);
      forall i | 0 <= i < |r| ensures r[i] in ps {
        if r[i] != last {
          assert i < |a| && r[i] == a[i];
          assert a[i] in init;
          var j :| 0 <= j < |init| && init[j] == a[i];
          assert ps[j] == init[j];
        }
      }
    }
  }

  /** The elements of `ks` that do not occur earlier in `ks`, in order. */
  function FirstOccurrences<K(==)>(ks: seq<K>): seq<K>
  {
    if |ks| == 0 then []
    else
      var init := ks[..|ks| - 1];
      FirstOccurrences(init) + (if ks[|ks| - 1] in init then [] else [ks[|ks| - 1]])
  }

  /** Keys come out in the order of their first occurrence. */
  lemma {:induction false} FromPairsKeys<K, V>(ps: Pairs<K, V>)
    ensures Keys(FromPairs(ps)) == FirstOccurrences(Keys(ps))
    decreases |ps|
  {
    if |ps| > 0 {
      var init := ps[..|ps| - 1];
      var last := ps[|ps| - 1];
      FromPairsKeys(init);
      FromPairsMeaning(init);
      InsertKeys(FromPairs(init), last.0, last.1);
      assert Keys(ps)[..|ps| - 1] == Keys(init);
      assert last.0 in Keys(init) <==> HasKey(init, last.0) by {
        if last.0 in Keys(init) {
          var i :| 0 <= i < |init| && Keys(init)[i] == last.0;
          assert init[i].0 == last.0;
        }
        if HasKey(init, last.0) {
          var i :| 0 <= i < |init| && init[i].0 == last.0;
          assert Keys(init)[i] == last.0;
        }
      }
    }
  }

  /** When no key repeats, building from the pairs gives the pairs back. */
  lemma {:induction false} FromDistinctPairs<K, V>(ps: Pairs<K, V>)
    requires DistinctKeys(ps)
    ensures FromPairs(ps) == ps
    decreases |ps|
  {
    if |ps| > 0 {
      var init := ps[..|ps| - 1];
      var last := ps[|ps| - 1];
      assert DistinctKeys(init);
      FromDistinctPairs(init);
      assert !HasKey(init, last.0) by {
        forall i | 0 <= i < |init| ensures init[i].0 != last.0 {
          assert ps[i] == init[i];
        }
      }
      assert init + [last] == ps;
    }
  }
}

=== FILE: bytes.dfy ===
/** Raw bytes, as request bodies and embedded files hold them. */
module Bytes {
  newtype byte = x: int | 0 <= x < 256
}

=== FILE: endpoint_config.dfy ===
/** The custom-response dialog of an endpoint (frontend/src/components/endpoint/EndpointConfig.tsx):
    the derived header errors and JSON check, the form validation with its fixed order of
    checks, the custom-status switch, the row edits and the payload handed to `onSave`.
    `JSON.parse` is the parameter `parses`; the header object that `JSON.stringify` would
    print is kept as its key/value list. */
module EndpointConfig {
  import opened Wrappers
  import opened Strings
  import opened Seqs
  import opened Assoc
  import opened Validation

  datatype Row = Row(key: string, value: string)

  datatype Field = KeyField | ValueField

  /** The dialog's editable state. */
  datatype Form = Form(enabled: bool, statusCode: string, rows: seq<Row>, body: string)

  const StatusNotNumber := "Status code must be a number"
  const DuplicatePrefix := "Duplicate header key: "
  const EmptyKeyError := "Header key cannot be empty"

  /** The codes of `STATUS_CODES`, in the order of the drop-down. */
  const CommonStatusCodes: seq<nat> := [200, 201, 202, 204, 400, 401, 403, 404, 422, 500, 502, 503]

  function StatusTexts(codes: seq<nat>): (ts: seq<string>)
    ensures |ts| == |codes| && forall i :: 0 <= i < |codes| ==> ts[i] == NatToString(codes[i])
  {
    seq(|codes|, i requires 0 <= i < |codes| => NatToString(codes[i]))
  }

  /** Custom-status mode: the text is not the printed form of a listed code. */
  predicate IsCustomStatus(statusCode: string) {
    statusCode !in StatusTexts(CommonStatusCodes)
  }

  /** Text that is not custom is a listed code and passes the status validation. */
  lemma CommonStatusIsValid(statusCode: string)
    requires !IsCustomStatus(statusCode)
    ensures exists i :: 0 <= i < |CommonStatusCodes| && ParseInt(statusCode) == Some(CommonStatusCodes[i])
    ensures ParseInt(statusCode).Some? && ValidateStatusCode(ParseInt(statusCode).value).None?
  {
    var ts := StatusTexts(CommonStatusCodes);
    var i :| 0 <= i < |ts| && ts[i] == statusCode;
    CommonCodeParses(i);
  }

  lemma CommonCodeParses(i: nat)
    requires i < |CommonStatusCodes|
    ensures ParseInt(NatToString(CommonStatusCodes[i])) == Some(CommonStatusCodes[i])
    ensures 100 <= CommonStatusCodes[i] <= 599
  {
    var n := CommonStatusCodes[i];
    ParseIntOfNumeral(n, "", true);
    assert NatToString(n) + "" == NatToString(n);
  }

  /** The comparison is on text: the numeral of a number is custom exactly when the number
      is not listed. */
  lemma NumeralCustomExactly(n: nat)
    ensures IsCustomStatus(NatToString(n)) <==> n !in CommonStatusCodes
  {
    var ts := StatusTexts(CommonStatusCodes);
    if n in CommonStatusCodes {
      var i :| 0 <= i < |CommonStatusCodes| && CommonStatusCodes[i] == n;
      assert ts[i] == NatToString(n);
    } else {
      forall i | 0 <= i < |ts| ensures ts[i] != NatToString(n) {
        if ts[i] == NatToString(n) {
          NatToStringInjective(CommonStatusCodes[i], n);
        }
      }
    }
  }

  /** Text that is not three characters long, or that starts with '0' (such as "0404"),
      is always custom. */
  lemma OffShapeIsCustom(statusCode: string)
    requires |statusCode| != 3 || statusCode[0] == '0'
    ensures IsCustomStatus(statusCode)
  {
    var ts := StatusTexts(CommonStatusCodes);
    forall i | 0 <= i < |ts| ensures |ts[i]| == 3 && ts[i][0] != '0' {
      ThreeDigitNumeral(CommonStatusCodes[i]);
    }
  }

  function ThreeDigits(n: nat): string
    requires 100 <= n < 1000
  {
    [DigitChar(n / 100), DigitChar(n / 10 % 10), DigitChar(n % 10)]
  }

  lemma ThreeDigitNumeral(n: nat)
    requires 100 <= n < 1000
    ensures NatToString(n) == ThreeDigits(n)
  {
    assert NatToString(n / 10) == NatToString(n / 100) + [DigitChar(n / 10 % 10)];
  }

  // ---------------------------------------------------------------------------------------
  // Derived checks
  // ---------------------------------------------------------------------------------------

  /** The name error of one row: names are checked only when they are not blank. */
  function KeyError(r: Row): (e: Option<string>)
    ensures e.Some? <==> !IsBlank(r.key) && exists k :: 0 <= k < |r.key| && !IsTokenChar(r.key[k])
    ensures e.Some? ==> e.value == HeaderNameChars
  {
    if IsBlank(r.key) then None else ValidateHeaderName(r.key)
  }

  /** The `headerErrors` record: row index to name error. */
  function HeaderErrors(rows: seq<Row>): (m: map<int, string>)
    ensures forall i :: i in m <==> 0 <= i < |rows| && KeyError(rows[i]).Some?
    ensures forall i :: i in m ==> m[i] == HeaderNameChars
  {
    map i | 0 <= i < |rows| && KeyError(rows[i]).Some? :: KeyError(rows[i]).value
  }

  /** The first row, from `start`, whose name is in error, or `|rows|`. */
  function FirstKeyError(rows: seq<Row>, start: nat): (k: nat)
    requires start <= |rows|
    ensures start <= k <= |rows|
    ensures forall j :: start <= j < k ==> KeyError(rows[j]).None?
    ensures k < |rows| ==> KeyError(rows[k]).Some?
    decreases |rows| - start
  {
    if start == |rows| then start
    else if KeyError(rows[start]).Some? then start
    else FirstKeyError(rows, start + 1)
  }

  /** Integer keys of an object are listed in increasing order, so the error reported first
      is the one of the lowest-indexed row in error. */
  lemma FirstKeyErrorIsLeast(rows: seq<Row>)
    ensures var k := FirstKeyError(rows, 0);
      (k < |rows| <==> |HeaderErrors(rows)| > 0)
      && (k < |rows| ==> k in HeaderErrors(rows) && forall j :: j in HeaderErrors(rows) ==> k <= j)
  {
    var k := FirstKeyError(rows, 0);
    var m := HeaderErrors(rows);
    if |m| > 0 {
      var j :| j in m;
      assert k <= j;
    }
    if k < |rows| {
      assert k in m;
    }
  }

  /** `headers.map(h => h.key.toLowerCase()).filter(k => k)`. */
  function LoweredKeys(rows: seq<Row>): (ks: seq<string>)
    ensures forall i :: 0 <= i < |ks| ==> ks[i] != ""
  {
    if |rows| == 0 then []
    else (if Lower(rows[0].key) != "" then [Lower(rows[0].key)] else []) + LoweredKeys(rows[1..])
  }

  /** The first position, from `start`, whose key occurs earlier (`indexOf(key) !== index`),
      or `|ks|`. */
  function RepeatAt(ks: seq<string>, start: nat): (k: nat)
    requires start <= |ks|
    ensures start <= k <= |ks|
    ensures forall j :: start <= j < k ==> ks[j] !in ks[..j]
    ensures k < |ks| ==> ks[k] in ks[..k]
    decreases |ks| - start
  {
    if start == |ks| then start
    else if ks[start] in ks[..start] then start
    else RepeatAt(ks, start + 1)
  }

  /** No repeat is found exactly when all keys differ. */
  lemma RepeatAtMeansDuplicates(ks: seq<string>)
    ensures RepeatAt(ks, 0) == |ks| <==> NoDuplicates(ks)
  {
    var k := RepeatAt(ks, 0);
    if k == |ks| {
      forall i, j | 0 <= i < j < |ks| ensures ks[i] != ks[j] {
        assert ks[..j][i] == ks[i];
      }
    } else {
      var i :| 0 <= i < k && ks[..k][i] == ks[k];
      assert ks[i] == ks[k];
    }
  }

  /** A row with a blank name but a value. */
  predicate EmptyKeyWithValue(rows: seq<Row>) {
    exists i :: 0 <= i < |rows| && IsBlank(rows[i].key) && !IsBlank(rows[i].value)
  }

  /** The value of the first row named `content-type` in any case. */
  function ContentType(rows: seq<Row>): (r: Option<string>)
    ensures r.None? <==> forall i :: 0 <= i < |rows| ==> Lower(rows[i].key) != "content-type"
    ensures r.Some? ==> exists i :: 0 <= i < |rows| && Lower(rows[i].key) == "content-type" && rows[i].value == r.value
  {
    if |rows| == 0 then None
    else if Lower(rows[0].key) == "content-type" then Some(rows[0].value)
    else
      var r := ContentType(rows[1..]);
      assert r.Some? ==> exists i :: 0 <= i < |rows[1..]| && Lower(rows[1..][i].key) == "content-type" && rows[1..][i].value == r.value;
      assert forall i :: 1 <= i < |rows| ==> rows[i] == rows[1..][i - 1];
      r
  }

  /** The `jsonError` effect: the body is parsed only under a JSON content type and when
      it is not blank. */
  function JsonCheck(rows: seq<Row>, body: string, parses: string -> bool): (e: Option<string>)
    ensures e.Some? <==>
      ContentType(rows).Some? && Contains(Lower(ContentType(rows).value), "application/json")
      && !IsBlank(body) && !parses(body)
    ensures e.Some? ==> e.value == JsonError
  {
    match ContentType(rows)
    case Some(v) =>
      if Contains(Lower(v), "application/json") && !IsBlank(body) then ValidateJson(body, parses) else None
    case None => None
  }

  // ---------------------------------------------------------------------------------------
  // validateForm
  // ---------------------------------------------------------------------------------------

  /** `validateForm`: the first failing check, in the order status text, status range,
      header names, duplicate names, blank names with values, JSON body. */
  function ValidateForm(f: Form, parses: string -> bool): (r: Option<string>)
    ensures ParseInt(f.statusCode).None? ==> r == Some(StatusNotNumber)
    ensures ParseInt(f.statusCode).Some? && ValidateStatusCode(ParseInt(f.statusCode).value).Some? ==>
      r == Some(StatusRangeError)
  {
    match ParseInt(f.statusCode)
    case None => Some(StatusNotNumber)
    case Some(code) =>
      if ValidateStatusCode(code).Some? then ValidateStatusCode(code)
      else
        var k := FirstKeyError(f.rows, 0);
        if k < |f.rows| then Some(HeaderErrors(f.rows)[k])
        else
          var ks := LoweredKeys(f.rows);
          var d := RepeatAt(ks, 0);
          if d < |ks| then Some(DuplicatePrefix + ks[d])
          else if EmptyKeyWithValue(f.rows) then Some(EmptyKeyError)
          else JsonCheck(f.rows, f.body, parses)
  }

  /** Every name that is not blank is made of letters, digits and hyphens. */
  predicate NamesValid(rows: seq<Row>) {
    forall i :: 0 <= i < |rows| ==> KeyError(rows[i]).None?
  }

  /** A form passes exactly when every check passes. */
  lemma ValidateFormAccepts(f: Form, parses: string -> bool)
    ensures ValidateForm(f, parses).None? <==>
      ParseInt(f.statusCode).Some? && 100 <= ParseInt(f.statusCode).value <= 599
      && NamesValid(f.rows) && NoDuplicates(LoweredKeys(f.rows))
      && !EmptyKeyWithValue(f.rows) && JsonCheck(f.rows, f.body, parses).None?
  {
    RepeatAtMeansDuplicates(LoweredKeys(f.rows));
    var k := FirstKeyError(f.rows, 0);
    if k < |f.rows| {
      assert k in HeaderErrors(f.rows);
    }
  }

  /** Once the status passes, a bad header name is reported before a duplicate or a bad body. */
  lemma NameErrorsComeFirst(f: Form, parses: string -> bool, i: nat)
    requires ParseInt(f.statusCode).Some? && 100 <= ParseInt(f.statusCode).value <= 599
    requires i < |f.rows| && KeyError(f.rows[i]).Some?
    ensures ValidateForm(f, parses) == Some(HeaderNameChars)
  {
    var k := FirstKeyError(f.rows, 0);
    assert k <= i;
    assert k in HeaderErrors(f.rows);
  }

  /** With valid names, a repeated name (in any case) is reported by its lower-cased form,
      and the one reported is the earliest key that repeats an earlier one. */
  lemma DuplicateReported(f: Form, parses: string -> bool)
    requires ParseInt(f.statusCode).Some? && 100 <= ParseInt(f.statusCode).value <= 599
    requires NamesValid(f.rows) && !NoDuplicates(LoweredKeys(f.rows))
    ensures var ks := LoweredKeys(f.rows); var j := RepeatAt(ks, 0);
      j < |ks| && ks[j] in ks[..j] && (forall i :: 0 <= i < j ==> ks[i] !in ks[..i])
      && ValidateForm(f, parses) == Some(DuplicatePrefix + ks[j])
  {
    RepeatAtMeansDuplicates(LoweredKeys(f.rows));
    var k := FirstKeyError(f.rows, 0);
    assert k == |f.rows|;
  }

  /** Once the status, the names and their distinctness pass, a blank name with a value is
      reported whatever the JSON check would say. */
  lemma EmptyKeyBeforeJson(f: Form, parses: string -> bool)
    requires ParseInt(f.statusCode).Some? && 100 <= ParseInt(f.statusCode).value <= 599
    requires NamesValid(f.rows) && NoDuplicates(LoweredKeys(f.rows))
    requires EmptyKeyWithValue(f.rows)
    ensures ValidateForm(f, parses) == Some(EmptyKeyError)
  {
    RepeatAtMeansDuplicates(LoweredKeys(f.rows));
    var k := FirstKeyError(f.rows, 0);
    assert k == |f.rows|;
  }

  // ---------------------------------------------------------------------------------------
  // Rows and the save payload
  // ---------------------------------------------------------------------------------------

  /** `handleAddHeader`. */
  function AddRow(rows: seq<Row>): (r: seq<Row>)
    ensures |r| == |rows| + 1 && r[..|rows|] == rows && r[|rows|] == Row("", "")
  {
    rows + [Row("", "")]
  }

  /** `handleRemoveHeader`: the rows at every other index, in order. */
  function RemoveRow(rows: seq<Row>, index: nat): (r: seq<Row>)
    ensures index < |rows| ==> |r| == |rows| - 1
    ensures index >= |rows| ==> r == rows
    ensures forall j :: 0 <= j < |r| ==> r[j] == (if j < index then rows[j] else rows[j + 1])
  {
    if index < |rows| then rows[..index] + rows[index + 1..] else rows
  }

  /** Adding a row and removing it again restores the rows. */
  lemma AddThenRemove(rows: seq<Row>)
    ensures RemoveRow(AddRow(rows), |rows|) == rows
  {
  }

  /** `handleHeaderChange` on a rendered row. */
  function ChangeRow(rows: seq<Row>, index: nat, field: Field, value: string): (r: seq<Row>)
    requires index < |rows|
    ensures |r| == |rows|
    ensures forall j :: 0 <= j < |rows| && j != index ==> r[j] == rows[j]
    ensures field == KeyField ==> r[index] == rows[index].(key := value)
    ensures field == ValueField ==> r[index] == rows[index].(value := value)
  {
    rows[index := match field case KeyField => rows[index].(key := value) case ValueField => rows[index].(value := value)]
  }

  /** A row is saved when neither its name nor its value is blank. */
  predicate Filled(r: Row) {
    !IsBlank(r.key) && !IsBlank(r.value)
  }

  /** The filled rows as key/value pairs, untrimmed, in order. */
  function FilledPairs(rows: seq<Row>): (ps: Pairs<string, string>)
    ensures |ps| <= |rows|
  {
    if |rows| == 0 then []
    else (if Filled(rows[0]) then [(rows[0].key, rows[0].value)] else []) + FilledPairs(rows[1..])
  }

  /** The configuration sent to the server. */
  datatype Config = Config(enabled: bool, status: int, headers: Option<Pairs<string, string>>, body: Option<string>)

  datatype SaveOutcome = Rejected(message: string) | Submitted(config: Config)

  /** `handleSave` up to the `onSave` call: a failing form is rejected with its message;
      otherwise the filled rows are written into an object in order (a later name overwrites
      an earlier one) and the body is trimmed. */
  function Save(f: Form, parses: string -> bool): (r: SaveOutcome)
    ensures r.Rejected? <==> ValidateForm(f, parses).Some?
    ensures r.Rejected? ==> r.message == ValidateForm(f, parses).value
    ensures r.Submitted? ==> r.config.enabled == f.enabled && Some(r.config.status) == ParseInt(f.statusCode)
    ensures r.Submitted? ==> (r.config.headers.None? <==> FilledPairs(f.rows) == [])
    ensures r.Submitted? ==> (r.config.body.None? <==> IsBlank(f.body))
    ensures r.Submitted? && r.config.body.Some? ==> r.config.body.value == Trim(f.body)
  {
    match ValidateForm(f, parses)
    case Some(m) => Rejected(m)
    case None =>
      var obj := FromPairs(FilledPairs(f.rows));
      assert obj == [] <==> FilledPairs(f.rows) == [] by {
        FromPairsMeaning(FilledPairs(f.rows));
        if FilledPairs(f.rows) != [] {
          assert HasKey(FilledPairs(f.rows), FilledPairs(f.rows)[0].0);
        }
      }
      var t := Trim(f.body);
      Submitted(Config(f.enabled, ParseInt(f.statusCode).value,
        if obj == [] then None else Some(obj), if t == "" then None else Some(t)))
  }

  /** A name not blank is not empty. */
  lemma NotBlankNotEmpty(s: string)
    requires !IsBlank(s)
    ensures Lower(s) != ""
  {
  }

  /** Every name among the filled pairs shows up, lower-cased, among the checked names. */
  lemma {:induction false} FilledKeysChecked(rows: seq<Row>, k: string)
    requires HasKey(FilledPairs(rows), k)
    ensures Lower(k) in LoweredKeys(rows)
    decreases |rows|
  {
    var ps := FilledPairs(rows);
    var head := if Filled(rows[0]) then [(rows[0].key, rows[0].value)] else [];
    assert ps == head + FilledPairs(rows[1..]);
    var i :| 0 <= i < |ps| && ps[i].0 == k;
    if i < |head| {
      NotBlankNotEmpty(rows[0].key);
    } else {
      assert FilledPairs(rows[1..])[i - |head|].0 == k;
      FilledKeysChecked(rows[1..], k);
    }
  }

  lemma HeadNotRepeated<T>(x: seq<T>, t: seq<T>)
    requires NoDuplicates(x + t) && |x| <= 1
    ensures NoDuplicates(t) && (|x| == 1 ==> x[0] !in t)
  {
    forall i, j | 0 <= i < j < |t| ensures t[i] != t[j] {
      assert (x + t)[|x| + i] == t[i] && (x + t)[|x| + j] == t[j];
    }
    if |x| == 1 {
      forall j | 0 <= j < |t| ensures t[j] != x[0] {
        assert (x + t)[0] == x[0] && (x + t)[1 + j] == t[j];
      }
    }
  }

  /** Distinct checked names make the filled names distinct. */
  lemma {:induction false} FilledKeysDistinct(rows: seq<Row>)
    requires NoDuplicates(LoweredKeys(rows))
    ensures DistinctKeys(FilledPairs(rows))
    decreases |rows|
  {
    if |rows| > 0 {
      var r := rows[0];
      var lk := if Lower(r.key) != "" then [Lower(r.key)] else [];
      HeadNotRepeated(lk, LoweredKeys(rows[1..]));
      FilledKeysDistinct(rows[1..]);
      var rest := FilledPairs(rows[1..]);
      if Filled(r) {
        NotBlankNotEmpty(r.key);
        var ps := [(r.key, r.value)] + rest;
        forall i, j | 0 <= i < j < |ps| ensures ps[i].0 != ps[j].0 {
          assert ps[j] == rest[j - 1];
          if i == 0 && r.key == rest[j - 1].0 {
            assert HasKey(rest, r.key);
            FilledKeysChecked(rows[1..], r.key);
          } else if i > 0 {
            assert ps[i] == rest[i - 1];
          }
        }
      }
    }
  }

  /** After validation no two saved names coincide, so the saved headers are exactly the
      filled rows, in order, and nothing is overwritten. */
  lemma SaveKeepsEveryFilledRow(f: Form, parses: string -> bool)
    requires ValidateForm(f, parses).None?
    ensures Save(f, parses).Submitted?
    ensures FilledPairs(f.rows) != [] ==> Save(f, parses).config.headers == Some(FilledPairs(f.rows))
  {
    ValidateFormAccepts(f, parses);
    FilledKeysDistinct(f.rows);
    FromDistinctPairs(FilledPairs(f.rows));
  }
}

=== FILE: endpoint_store.dfy ===
/** The endpoint list and the current selection as the `useEndpoints` hook keeps them
    (frontend/src/hooks/useEndpoints.ts). Each API call is replaced by its outcome, a
    parameter; the queued state updaters of one call are applied in the order they were
    queued. */
module EndpointStore {
  import opened Wrappers
  import opened Seqs
  import opened FrontendTypes

  /** What a failing call throws: an `Error` with its message, or any other value. */
  datatype Thrown = ErrorObject(message: string) | OtherValue

  datatype ApiResult<T> = Success(value: T) | Failure(thrown: Thrown)

  datatype State = State(endpoints: seq<Endpoint>, loading: bool, error: Option<string>, selectedId: Option<string>)

  const Initial := State([], true, None, None)

  /** The message a failure records: the error's own, or the operation's fallback text. */
  function ErrorText(t: Thrown, fallback: string): (m: string)
    ensures t.ErrorObject? ==> m == t.message
    ensures t.OtherValue? ==> m == fallback
  {
    match t
    case ErrorObject(msg) => msg
    case OtherValue => fallback
  }

  /** `!selectedId`. */
  predicate NothingSelected(st: State) {
    st.selectedId.None? || st.selectedId.value == ""
  }

  /** `refreshEndpoints`: the list is replaced; with nothing selected, a non-empty list gets
      its first endpoint selected. */
  function Refresh(st: State, result: ApiResult<seq<Endpoint>>): (r: State)
    ensures r.loading == false
    ensures result.Success? ==> r.endpoints == result.value && r.error.None?
    ensures result.Success? && NothingSelected(st) && |result.value| > 0 ==> r.selectedId == Some(result.value[0].id)
    ensures result.Success? && !(NothingSelected(st) && |result.value| > 0) ==> r.selectedId == st.selectedId
    ensures result.Failure? ==>
      r == st.(loading := false, error := Some(ErrorText(result.thrown, "Failed to fetch endpoints")))
  {
    match result
    case Success(data) =>
      var sel := if NothingSelected(st) && |data| > 0 then Some(data[0].id) else st.selectedId;
      State(data, false, None, sel)
    case Failure(t) => st.(loading := false, error := Some(ErrorText(t, "Failed to fetch endpoints")))
  }

  /** `createEndpoint`: the new endpoint goes first and becomes the selection. */
  function Create(st: State, result: ApiResult<Endpoint>): (r: (State, Option<Endpoint>))
    ensures result.Success? ==>
      r.0 == st.(endpoints := [result.value] + st.endpoints, error := None, selectedId := Some(result.value.id))
      && r.1 == Some(result.value)
    ensures result.Failure? ==>
      r.0 == st.(error := Some(ErrorText(result.thrown, "Failed to create endpoint"))) && r.1.None?
  {
    match result
    case Success(e) => (st.(endpoints := [e] + st.endpoints, error := None, selectedId := Some(e.id)), Some(e))
    case Failure(t) => (st.(error := Some(ErrorText(t, "Failed to create endpoint"))), None)
  }

  function WithoutId(es: seq<Endpoint>, id: string): seq<Endpoint> {
    Filter(es, (e: Endpoint) => e.id != id)
  }

  /** `deleteEndpoint`: entries with that id go, in order; a deleted selection moves to the
      first endpoint left, or to nothing. */
  function Delete(st: State, id: string, result: ApiResult<()>): (r: (State, bool))
    ensures result.Success? ==> r.1 && r.0.error.None?
    ensures result.Success? ==> forall i :: 0 <= i < |r.0.endpoints| ==> r.0.endpoints[i].id != id
    ensures result.Success? ==>
      forall i :: 0 <= i < |st.endpoints| && st.endpoints[i].id != id ==> st.endpoints[i] in r.0.endpoints
    ensures result.Success? ==> IsSubseq(r.0.endpoints, st.endpoints)
    ensures result.Success? ==>
      forall x :: Count(r.0.endpoints, x) == (if x.id != id then Count(st.endpoints, x) else 0)
    ensures result.Success? && st.selectedId == Some(id) ==>
      r.0.selectedId == (if |r.0.endpoints| > 0 then Some(r.0.endpoints[0].id) else None)
    ensures result.Success? && st.selectedId != Some(id) ==> r.0.selectedId == st.selectedId
    ensures result.Failure? ==>
      r.0 == st.(error := Some(ErrorText(result.thrown, "Failed to delete endpoint"))) && !r.1
  {
    match result
    case Success(_) =>
      var left := WithoutId(st.endpoints, id);
      assert forall x :: Count(left, x) == (if x.id != id then Count(st.endpoints, x) else 0) by {
        forall x ensures Count(left, x) == (if x.id != id then Count(st.endpoints, x) else 0) {
          FilterCount(st.endpoints, (e: Endpoint) => e.id != id, x);
        }
      }
      var sel := if st.selectedId == Some(id) then (if |left| > 0 then Some(left[0].id) else None) else st.selectedId;
      (st.(endpoints := left, error := None, selectedId := sel), true)
    case Failure(t) => (st.(error := Some(ErrorText(t, "Failed to delete endpoint"))), false)
  }

  /** A deleted selection moves to the first endpoint, in the original order, whose id is
      another one: `k` is its index, or the length of the list when there is none. */
  lemma DeleteSelectsFirstLeft(st: State, id: string, k: nat)
    requires st.selectedId == Some(id) && k <= |st.endpoints|
    requires forall j :: 0 <= j < k ==> st.endpoints[j].id == id
    requires k < |st.endpoints| ==> st.endpoints[k].id != id
    ensures Delete(st, id, Success(())).0.selectedId ==
      (if k < |st.endpoints| then Some(st.endpoints[k].id) else None)
  {
    var p := (e: Endpoint) => e.id != id;
    if k < |st.endpoints| {
      FilterHead(st.endpoints, p, k);
    } else {
      FilterNone(st.endpoints, p);
    }
  }

  function ReplaceId(es: seq<Endpoint>, id: string, updated: Endpoint): (r: seq<Endpoint>)
    ensures |r| == |es|
    ensures forall i :: 0 <= i < |es| ==> r[i] == (if es[i].id == id then updated else es[i])
  {
    seq(|es|, i requires 0 <= i < |es| => if es[i].id == id then updated else es[i])
  }

  /** `updateConfig`: exactly the entries with that id are replaced by the server's copy;
      the others and the order stay. */
  function UpdateConfig(st: State, id: string, result: ApiResult<Endpoint>): (r: (State, Option<Endpoint>))
    ensures result.Success? ==>
      r.0 == st.(endpoints := ReplaceId(st.endpoints, id, result.value), error := None) && r.1 == Some(result.value)
    ensures result.Failure? ==>
      r.0 == st.(error := Some(ErrorText(result.thrown, "Failed to update endpoint"))) && r.1.None?
  {
    match result
    case Success(e) => (st.(endpoints := ReplaceId(st.endpoints, id, e), error := None), Some(e))
    case Failure(t) => (st.(error := Some(ErrorText(t, "Failed to update endpoint"))), None)
  }

  /** Every failure leaves the list and the selection as they were. */
  lemma FailuresKeepList(st: State, id: string, t: Thrown)
    ensures Refresh(st, Failure(t)).endpoints == st.endpoints && Refresh(st, Failure(t)).selectedId == st.selectedId
    ensures Create(st, Failure(t)).0.endpoints == st.endpoints && Create(st, Failure(t)).0.selectedId == st.selectedId
    ensures Delete(st, id, Failure(t)).0.endpoints == st.endpoints && Delete(st, id, Failure(t)).0.selectedId == st.selectedId
    ensures UpdateConfig(st, id, Failure(t)).0.endpoints == st.endpoints
  {
  }

  /** Creating an endpoint with a fresh id and deleting it again restores the list, and the
      selection falls back to what was first before. */
  lemma CreateThenDelete(st: State, e: Endpoint)
    requires forall i :: 0 <= i < |st.endpoints| ==> st.endpoints[i].id != e.id
    ensures var s := Create(st, Success(e)).0;
      && Delete(s, e.id, Success(())).0.endpoints == st.endpoints
      && Delete(s, e.id, Success(())).0.selectedId ==
           (if |st.endpoints| > 0 then Some(st.endpoints[0].id) else None)
  {
    var p := (x: Endpoint) => x.id != e.id;
    FilterConcat([e], st.endpoints, p);
    FilterAll(st.endpoints, p);
    assert Filter([e], p) == [];
  }

  /** An update whose reply keeps the id leaves the ids, and so the selection's meaning,
      untouched. */
  lemma UpdateKeepsIds(st: State, id: string, e: Endpoint)
    requires e.id == id
    ensures var es := UpdateConfig(st, id, Success(e)).0.endpoints;
      |es| == |st.endpoints| && forall i :: 0 <= i < |es| ==> es[i].id == st.endpoints[i].id
  {
  }
}

=== FILE: export.dfy ===
/** Turning a captured request into text (frontend/src/lib/export.ts): a curl command, the
    raw HTTP message, the highlighting language of a content type, and JSON pretty-printing.
    `window.location.origin` is the parameter `origin`; `JSON.stringify(JSON.parse(..))` is
    the parameter `reformat` (the pretty text, or nothing when the input does not parse). */
module Export {
  import opened Wrappers
  import opened Strings
  import opened FrontendTypes
  import opened Seqs

  // ---------------------------------------------------------------------------------------
  // Reading a shell word back
  // ---------------------------------------------------------------------------------------

  /** Characters a POSIX shell acts on when they stand outside quotes. */
  predicate IsShellSpecial(c: char) {
    c == ' ' || c == '\t' || c == '\n' || c == '|' || c == '&' || c == ';' || c == '<' || c == '>'
    || c == '(' || c == ')' || c == '$' || c == '`' || c == '"'
  }

  /** The text one shell word stands for, following section 2.2 of the POSIX Shell Command
      Language: outside quotes a backslash takes the next character literally (a backslash
      before a newline removes both) and a single quote opens a quoted run; inside a run every
      character, the backslash included, is literal until the next single quote. A word that
      would be split, redirected or expanded, or that leaves a quote open, reads as nothing. */
  function Unquote(w: string): Option<string>
    decreases |w|
  {
    if |w| == 0 then Some("")
    else if w[0] == '\'' then UnquoteQuoted(w[1..])
    else if w[0] == '\\' then
      if |w| == 1 then None
      else if w[1] == '\n' then Unquote(w[2..])
      else Prepend([w[1]], Unquote(w[2..]))
    else if IsShellSpecial(w[0]) then None
    else Prepend([w[0]], Unquote(w[1..]))
  }

  function UnquoteQuoted(w: string): Option<string>
    decreases |w|
  {
    if |w| == 0 then None
    else if w[0] == '\'' then Unquote(w[1..])
    else Prepend([w[0]], UnquoteQuoted(w[1..]))
  }

  function Prepend(s: string, o: Option<string>): (r: Option<string>)
    ensures r.Some? <==> o.Some?
    ensures r.Some? ==> r.value == s + o.value
  {
    match o
    case None => None
    case Some(t) => Some(s + t)
  }

  lemma PrependEmpty(o: Option<string>)
    ensures Prepend("", o) == o
  {
    if o.Some? {
      assert "" + o.value == o.value;
    }
  }

  lemma PrependPrepend(a: string, b: string, o: Option<string>)
    ensures Prepend(a, Prepend(b, o)) == Prepend(a + b, o)
  {
    if o.Some? {
      assert a + (b + o.value) == a + b + o.value;
    }
  }

  // ---------------------------------------------------------------------------------------
  // Quoting the body
  // ---------------------------------------------------------------------------------------

  /** The body word as exported: single quotes around the text, every `'` in it written `\'`. */
  function QuoteAsWritten(s: string): string {
    "'" + ReplaceChar(s, '\'', "\\'") + "'"
  }

  /** The body word with the usual POSIX idiom: every `'` closes the quoted run, is written
      as an escaped quote, and reopens the run. */
  function Quote(s: string): string {
    "'" + ReplaceChar(s, '\'', "'\\''") + "'"
  }

  /** The exported word does not read back as a lone single quote: the backslash is literal
      inside the run, the second quote closes it and the third one is left open. */
  lemma QuoteAsWrittenBreaks()
    ensures QuoteAsWritten("'") == "'\\''"
    ensures Unquote(QuoteAsWritten("'")).None?
  {
    assert ReplaceChar("'", '\'', "\\'") == "\\'" by {
      assert ReplaceChar("'"[1..], '\'', "\\'") == "";
    }
    var w := QuoteAsWritten("'");
    assert w == ['\'', '\\', '\'', '\''];
    assert w[1..][1..][1..][1..] == [];
  }

  /** Inside a quoted run, the corrected spelling of `'` reads as one `'`. */
  lemma QuoteStep(rest: string)
    ensures UnquoteQuoted("'\\''" + rest) == Prepend("'", UnquoteQuoted(rest))
  {
    var w := "'\\''" + rest;
    assert w[1..] == "\\''" + rest;
    assert w[1..][2..] == "'" + rest;
    assert w[1..][2..][1..] == rest;
    assert UnquoteQuoted(w) == Unquote(w[1..]);
    assert w[1..][0] == '\\' && w[1..][1] == '\'' && |w[1..]| > 1;
    assert Unquote(w[1..]) == Prepend([w[1..][1]], Unquote(w[1..][2..]));
    assert Unquote(w[1..][2..]) == UnquoteQuoted(rest);
  }

  lemma CharStep(c: char, rest: string)
    requires c != '\''
    ensures UnquoteQuoted([c] + rest) == Prepend([c], UnquoteQuoted(rest))
  {
    assert ([c] + rest)[1..] == rest;
  }

  lemma {:induction false} UnquoteQuotedRun(s: string, tail: string)
    ensures UnquoteQuoted(ReplaceChar(s, '\'', "'\\''") + "'" + tail) == Prepend(s, Unquote(tail))
    decreases |s|
  {
    var rep := "'\\''";
    if |s| == 0 {
      assert ReplaceChar(s, '\'', rep) + "'" + tail == "'" + tail;
      assert ("'" + tail)[1..] == tail;
      PrependEmpty(Unquote(tail));
    } else {
      var rest := ReplaceChar(s[1..], '\'', rep) + "'" + tail;
      UnquoteQuotedRun(s[1..], tail);
      var head := if s[0] == '\'' then rep else [s[0]];
      assert ReplaceChar(s, '\'', rep) + "'" + tail == head + rest;
      if s[0] == '\'' {
        QuoteStep(rest);
      } else {
        CharStep(s[0], rest);
      }
      assert s == [s[0]] + s[1..];
      PrependPrepend([s[0]], s[1..], Unquote(tail));
    }
  }

  /** The corrected word always reads back as the body itself. */
  lemma QuoteRoundTrip(s: string)
    ensures Unquote(Quote(s)) == Some(s)
  {
    var w := Quote(s);
    UnquoteQuotedRun(s, "");
    assert w[1..] == ReplaceChar(s, '\'', "'\\''") + "'" + "";
    assert s + "" == s;
  }

  /** Both quotings agree on a body without single quotes. */
  lemma QuotingsAgree(s: string)
    requires Free(s, '\'')
    ensures QuoteAsWritten(s) == Quote(s) == "'" + s + "'"
  {
    ReplaceCharAbsent(s, '\'', "\\'");
    ReplaceCharAbsent(s, '\'', "'\\''");
  }

  // ---------------------------------------------------------------------------------------
  // The curl command
  // ---------------------------------------------------------------------------------------

  /** A backslash-newline and two spaces: one command continued over several lines. */
  const Continuation := " \\\n  "

  function HeaderOption(h: (string, string)): string {
    "-H \"" + h.0 + ": " + h.1 + "\""
  }

  function HeaderOptions(hs: seq<(string, string)>): (r: seq<string>)
    ensures |r| == |hs| && forall i :: 0 <= i < |hs| ==> r[i] == HeaderOption(hs[i])
  {
    seq(|hs|, i requires 0 <= i < |hs| => HeaderOption(hs[i]))
  }

  /** The target: origin, path, and `?` with the query string when there is one. */
  function TargetUrl(origin: string, r: WebhookRequest): string {
    origin + r.path + (if r.queryString != "" then "?" + r.queryString else "")
  }

  /** `exportAsCurl` with the body quoted by `quote`. */
  function CurlWith(r: WebhookRequest, origin: string, quote: string -> string): string {
    var headers := Join(HeaderOptions(r.headers), Continuation);
    var body := if r.body != "" then "-d " + quote(r.body) else "";
    "curl -X " + r.httpMethod + Continuation + headers + (if body != "" then Continuation + body else "")
      + Continuation + "\"" + TargetUrl(origin, r) + "\""
  }

  /** `exportAsCurl` as written. */
  function ExportAsCurlAsWritten(r: WebhookRequest, origin: string): string {
    CurlWith(r, origin, QuoteAsWritten)
  }

  /** `exportAsCurl` with the corrected quoting. */
  function ExportAsCurl(r: WebhookRequest, origin: string): string {
    CurlWith(r, origin, Quote)
  }

  /** The pieces the command is made of, in order: the method, the header options, the data
      option when the body is not empty, and the quoted target. */
  function CurlParts(r: WebhookRequest, origin: string, quote: string -> string): (parts: seq<string>)
    ensures |parts| == (if r.body != "" then 4 else 3)
  {
    ["curl -X " + r.httpMethod, Join(HeaderOptions(r.headers), Continuation)]
      + (if r.body != "" then ["-d " + quote(r.body)] else [])
      + ["\"" + TargetUrl(origin, r) + "\""]
  }

  lemma Regroup<T>(a: seq<T>, b: seq<T>, c: seq<T>, d: seq<T>, e: seq<T>)
    ensures a + b + c + d + e == a + (b + c + d + e)
    ensures a + b + c + d + e == (a + b + c + d) + e
  {
  }

  /** The data option, or nothing for an empty body. */
  function DataPart(r: WebhookRequest, quote: string -> string): string {
    if r.body != "" then Continuation + "-d " + quote(r.body) else ""
  }

  lemma CurlWithIs(r: WebhookRequest, origin: string, quote: string -> string)
    ensures CurlWith(r, origin, quote) ==
      "curl -X " + r.httpMethod + Continuation + Join(HeaderOptions(r.headers), Continuation)
      + DataPart(r, quote) + (Continuation + "\"" + TargetUrl(origin, r) + "\"")
  {
  }

  /** The command starts with the method and ends with the quoted target. */
  lemma CurlEnds(r: WebhookRequest, origin: string, quote: string -> string)
    ensures StartsWith(CurlWith(r, origin, quote), "curl -X " + r.httpMethod)
    ensures EndsWith(CurlWith(r, origin, quote), "\"" + TargetUrl(origin, r) + "\"")
  {
    var m := "curl -X " + r.httpMethod;
    var h := Join(HeaderOptions(r.headers), Continuation);
    var d := DataPart(r, quote);
    var u := "\"" + TargetUrl(origin, r) + "\"";
    CurlWithIs(r, origin, quote);
    Regroup(m, Continuation, h, d, Continuation + u);
    assert CurlWith(r, origin, quote) == m + (Continuation + h + d + (Continuation + u));
    assert (m + (Continuation + h + d + (Continuation + u)))[..|m|] == m;
    var pre := m + Continuation + h + d + Continuation;
    assert CurlWith(r, origin, quote) == pre + u by {
      Regroup(m + Continuation, h, d, Continuation, u);
      SeqAssoc(m + Continuation + h + d, Continuation, u);
    }
    EndsWithConcat(pre, u);
  }

  lemma JoinFour(m: string, h: string, d: string, u: string, sep: string)
    ensures Join([m, h, d, u], sep) == m + sep + h + (sep + d) + (sep + u)
  {
    JoinCons(d, [u], sep);
    JoinCons(h, [d, u], sep);
    JoinCons(m, [h, d, u], sep);
    assert [h, d, u][1..] == [d, u];
  }

  lemma JoinThree(m: string, h: string, u: string, sep: string)
    ensures Join([m, h, u], sep) == m + sep + h + "" + (sep + u)
  {
    JoinCons(h, [u], sep);
    JoinCons(m, [h, u], sep);
    assert m + sep + h + "" == m + sep + h;
  }

  /** The command is its pieces continued over lines, with a data option exactly when there
      is a body. */
  lemma CurlShape(r: WebhookRequest, origin: string, quote: string -> string)
    ensures CurlWith(r, origin, quote) == Join(CurlParts(r, origin, quote), Continuation)
  {
    var m := "curl -X " + r.httpMethod;
    var h := Join(HeaderOptions(r.headers), Continuation);
    var u := "\"" + TargetUrl(origin, r) + "\"";
    CurlWithIs(r, origin, quote);
    if r.body != "" {
      var d := "-d " + quote(r.body);
      assert CurlParts(r, origin, quote) == [m, h, d, u];
      assert DataPart(r, quote) == Continuation + d;
      JoinFour(m, h, d, u, Continuation);
    } else {
      assert CurlParts(r, origin, quote) == [m, h, u];
      assert DataPart(r, quote) == "";
      JoinThree(m, h, u, Continuation);
    }
  }

  /** With the corrected quoting the data option carries exactly the body to curl. */
  lemma CurlDataReadsBack(r: WebhookRequest, origin: string)
    requires r.body != ""
    ensures CurlParts(r, origin, Quote)[2] == "-d " + Quote(r.body)
    ensures Unquote(Quote(r.body)) == Some(r.body)
  {
    QuoteRoundTrip(r.body);
  }

  // ---------------------------------------------------------------------------------------
  // Raw HTTP
  // ---------------------------------------------------------------------------------------

  function HeaderLine(h: (string, string)): string {
    h.0 + ": " + h.1
  }

  function HeaderLines(hs: seq<(string, string)>): (r: seq<string>)
    ensures |r| == |hs| && forall i :: 0 <= i < |hs| ==> r[i] == HeaderLine(hs[i])
  {
    seq(|hs|, i requires 0 <= i < |hs| => HeaderLine(hs[i]))
  }

  function RequestLine(r: WebhookRequest): string {
    r.httpMethod + " " + r.path + (if r.queryString != "" then "?" + r.queryString else "") + " HTTP/1.1"
  }

  /** `exportAsHTTPRaw`. */
  function ExportAsHttpRaw(r: WebhookRequest): string {
    var queryString := if r.queryString != "" then "?" + r.queryString else "";
    r.httpMethod + " " + r.path + queryString + " HTTP/1.1\n" + Join(HeaderLines(r.headers), "\n") + "\n\n" + r.body
  }

  /** The position of the first empty line, or the number of lines. */
  function FirstEmpty(lines: seq<string>): (k: nat)
    ensures k <= |lines|
    ensures forall i :: 0 <= i < k ==> lines[i] != ""
    ensures k < |lines| ==> lines[k] == ""
  {
    if |lines| == 0 || lines[0] == "" then 0 else 1 + FirstEmpty(lines[1..])
  }

  /** Reading a raw message: the first line, the lines up to the first empty one, and the
      rest as the body. */
  function ParseRaw(raw: string): (string, seq<string>, string) {
    var lines := Split(raw, '\n');
    var rest := lines[1..];
    var k := FirstEmpty(rest);
    (lines[0], rest[..k], if k < |rest| then Join(rest[k + 1..], "\n") else "")
  }

  predicate OneLine(s: string) {
    Free(s, '\n')
  }

  lemma HeaderLinesFree(hs: seq<(string, string)>)
    requires forall i :: 0 <= i < |hs| ==> OneLine(hs[i].0) && OneLine(hs[i].1)
    ensures forall i :: 0 <= i < |hs| ==> Free(HeaderLines(hs)[i], '\n') && HeaderLines(hs)[i] != ""
  {
    forall i | 0 <= i < |hs| ensures Free(HeaderLines(hs)[i], '\n') && HeaderLines(hs)[i] != "" {
      var l := HeaderLines(hs)[i];
      assert l == hs[i].0 + ": " + hs[i].1;
      forall j | 0 <= j < |l| ensures l[j] != '\n' {
        if j < |hs[i].0| { assert l[j] == hs[i].0[j]; }
        else if j >= |hs[i].0| + 2 { assert l[j] == hs[i].1[j - |hs[i].0| - 2]; }
      }
    }
  }

  /** The raw export is the request line, the header block and the body, each pair
      separated by a line break, with one more line break before the body. */
  lemma RawShape(r: WebhookRequest)
    ensures ExportAsHttpRaw(r) ==
      RequestLine(r) + ['\n'] + (Join(HeaderLines(r.headers), "\n") + ['\n'] + ("" + ['\n'] + r.body))
  {
  }

  lemma RawTailLines(h: string, body: string)
    ensures Split(h + ['\n'] + ("" + ['\n'] + body), '\n') == Split(h, '\n') + [""] + Split(body, '\n')
  {
    SplitConcat(h, "" + ['\n'] + body, '\n');
    SplitConcat("", body, '\n');
    SplitFree("", '\n');
  }

  /** The line structure of a raw message, for any request line, header lines and body. */
  lemma RawTextLines(l: string, hs: seq<string>, body: string)
    requires Free(l, '\n') && |hs| >= 1
    requires forall i :: 0 <= i < |hs| ==> Free(hs[i], '\n')
    ensures Split(l + ['\n'] + (Join(hs, "\n") + ['\n'] + ("" + ['\n'] + body)), '\n')
      == [l] + hs + [""] + Split(body, '\n')
  {
    var h := Join(hs, "\n");
    var t := h + ['\n'] + ("" + ['\n'] + body);
    var b := Split(body, '\n');
    FirstLineSplit(l, t);
    RawTailLines(h, body);
    SplitJoin(hs, '\n');
    assert Split(h, '\n') == hs;
    assert Split(t, '\n') == hs + [""] + b;
    SeqAssoc([l], hs + [""], b);
    SeqAssoc([l], hs, [""]);
  }

  lemma FirstLineSplit(l: string, t: string)
    requires Free(l, '\n')
    ensures Split(l + ['\n'] + t, '\n') == [l] + Split(t, '\n')
  {
    SplitConcat(l, t, '\n');
    SplitFree(l, '\n');
  }

  lemma RawLines(r: WebhookRequest)
    requires |r.headers| >= 1 && OneLine(RequestLine(r))
    requires forall i :: 0 <= i < |r.headers| ==> OneLine(r.headers[i].0) && OneLine(r.headers[i].1)
    ensures Split(ExportAsHttpRaw(r), '\n') == [RequestLine(r)] + HeaderLines(r.headers) + [""] + Split(r.body, '\n')
  {
    RawShape(r);
    HeaderLinesFree(r.headers);
    RawTextLines(RequestLine(r), HeaderLines(r.headers), r.body);
  }

  /** With no headers the header block is empty, so two blank lines follow the request line
      before the body. */
  lemma RawLinesNoHeaders(r: WebhookRequest)
    requires |r.headers| == 0 && OneLine(RequestLine(r))
    ensures Split(ExportAsHttpRaw(r), '\n') == [RequestLine(r), "", ""] + Split(r.body, '\n')
  {
    var l := RequestLine(r);
    var t := "" + ['\n'] + ("" + ['\n'] + r.body);
    var b := Split(r.body, '\n');
    assert ExportAsHttpRaw(r) == l + ['\n'] + t by {
      RawShape(r);
      assert Join(HeaderLines(r.headers), "\n") == "";
    }
    assert Split(t, '\n') == [""] + [""] + b by {
      RawTailLines("", r.body);
      SplitFree("", '\n');
    }
    assert Split(l + ['\n'] + t, '\n') == [l] + Split(t, '\n') by {
      FirstLineSplit(l, t);
    }
    assert [l] + ([""] + [""] + b) == [l, "", ""] + b;
  }

  /** Reading the raw export back gives the request line, every header line in order and the
      body, provided no field holds a line break and there is at least one header. */
  lemma RawRoundTrip(r: WebhookRequest)
    requires |r.headers| >= 1 && OneLine(RequestLine(r))
    requires forall i :: 0 <= i < |r.headers| ==> OneLine(r.headers[i].0) && OneLine(r.headers[i].1)
    ensures ParseRaw(ExportAsHttpRaw(r)) == (RequestLine(r), HeaderLines(r.headers), r.body)
  {
    var raw, hl, b := ExportAsHttpRaw(r), HeaderLines(r.headers), Split(r.body, '\n');
    assert Split(raw, '\n') == [RequestLine(r)] + hl + [""] + b by {
      RawLines(r);
    }
    assert forall i :: 0 <= i < |hl| ==> hl[i] != "" by {
      HeaderLinesFree(r.headers);
    }
    RawPieces(RequestLine(r), hl, b);
    assert Join(b, "\n") == r.body by {
      JoinSplit(r.body, '\n');
    }
  }

  /** Where the parser cuts the lines of a raw message. */
  lemma RawPieces(l: string, hl: seq<string>, b: seq<string>)
    requires forall i :: 0 <= i < |hl| ==> hl[i] != ""
    ensures var rest := ([l] + hl + [""] + b)[1..];
      ([l] + hl + [""] + b)[0] == l && FirstEmpty(rest) == |hl| < |rest|
      && rest[..|hl|] == hl && rest[|hl| + 1..] == b
  {
    var rest := ([l] + hl + [""] + b)[1..];
    assert rest == hl + [""] + b;
    FirstEmptyAt(rest, |hl|);
  }

  lemma FirstEmptyAt(lines: seq<string>, k: nat)
    requires k < |lines| && lines[k] == "" && forall i :: 0 <= i < k ==> lines[i] != ""
    ensures FirstEmpty(lines) == k
    decreases k
  {
    if k > 0 {
      FirstEmptyAt(lines[1..], k - 1);
    }
  }

  // ---------------------------------------------------------------------------------------
  // Highlighting language and formatting
  // ---------------------------------------------------------------------------------------

  const Languages: seq<string> := ["json", "xml", "html", "javascript", "typescript", "css", "yaml", "text"]

  /** `getLanguageFromContentType`: the first family the lower-cased type mentions. */
  function LanguageOf(contentType: Option<string>): (lang: string)
    ensures lang in Languages
  {
    if contentType.None? || contentType.value == "" then "text"
    else
      var lower := Lower(contentType.value);
      if Contains(lower, "json") then "json"
      else if Contains(lower, "xml") then "xml"
      else if Contains(lower, "html") then "html"
      else if Contains(lower, "javascript") then "javascript"
      else if Contains(lower, "typescript") then "typescript"
      else if Contains(lower, "css") then "css"
      else if Contains(lower, "yaml") || Contains(lower, "yml") then "yaml"
      else "text"
  }

  /** The families in the order they are tried, each with the words that select it. */
  const Families: seq<(seq<string>, string)> := [
    (["json"], "json"), (["xml"], "xml"), (["html"], "html"), (["javascript"], "javascript"),
    (["typescript"], "typescript"), (["css"], "css"), (["yaml", "yml"], "yaml")]

  predicate Mentions(s: string, words: seq<string>) {
    exists j :: 0 <= j < |words| && Contains(s, words[j])
  }

  /** The language of the first family whose words `s` mentions, or "text". */
  function FirstFamily(s: string, fams: seq<(seq<string>, string)>): string
    decreases |fams|
  {
    if |fams| == 0 then "text"
    else if Mentions(s, fams[0].0) then fams[0].1
    else FirstFamily(s, fams[1..])
  }

  lemma MentionsOne(s: string, w: string)
    ensures Mentions(s, [w]) <==> Contains(s, w)
  {
    if Contains(s, w) { assert [w][0] == w; }
  }

  lemma MentionsTwo(s: string, a: string, b: string)
    ensures Mentions(s, [a, b]) <==> Contains(s, a) || Contains(s, b)
  {
    if Contains(s, a) { assert [a, b][0] == a; }
    if Contains(s, b) { assert [a, b][1] == b; }
  }

  /** The language is the first matching family of the table, tried in order. */
  lemma LanguageIsFirstFamily(contentType: string)
    requires contentType != ""
    ensures LanguageOf(Some(contentType)) == FirstFamily(Lower(contentType), Families)
  {
    var s := Lower(contentType);
    MentionsOne(s, "json");
    MentionsOne(s, "xml");
    MentionsOne(s, "html");
    MentionsOne(s, "javascript");
    MentionsOne(s, "typescript");
    MentionsOne(s, "css");
    MentionsTwo(s, "yaml", "yml");
    var f := Families;
    assert f[1..][1..][1..][1..][1..][1..][1..] == [];
  }

  /** The case of the content type does not matter. */
  lemma LanguageIgnoresCase(contentType: string)
    ensures LanguageOf(Some(Upper(contentType))) == LanguageOf(Some(contentType))
  {
    var u := Upper(contentType);
    assert Lower(u) == Lower(contentType) by {
      LowerOfUpper(contentType);
    }
    assert u == "" <==> contentType == "" by {
      assert |u| == |contentType|;
    }
  }

  /** `formatBody`: only JSON is reformatted, and text that does not parse is kept. */
  function FormatBody(body: string, language: string, reformat: string -> Option<string>): (r: string)
    ensures language != "json" ==> r == body
    ensures language == "json" && reformat(body).None? ==> r == body
    ensures language == "json" && reformat(body).Some? ==> r == reformat(body).value
  {
    if language == "json" then reformat(body).GetOr(body) else body
  }
}

=== FILE: filters.dfy ===
/** The two method filters of the dashboard: the multi-select list of
    frontend/src/components/request/RequestFilters.tsx and the filter bar of
    frontend/src/components/FilterBar.tsx, which holds its selection in a `Set` and shows
    which buttons are lit. */
module Filters {
  import opened Strings
  import opened Seqs
  import opened FrontendTypes
  import opened RequestDetail

  // ---------------------------------------------------------------------------------------
  // RequestFilters
  // ---------------------------------------------------------------------------------------

  /** `METHODS`: the buttons offered, in order. */
  const FilterMethods: seq<string> := ["GET", "POST", "PUT", "PATCH", "DELETE"]

  /** Every offered method is an `HttpMethod`; HEAD and OPTIONS are not offered. */
  lemma FilterMethodsOffered()
    ensures forall i :: 0 <= i < |FilterMethods| ==> FilterMethods[i] in HttpMethods
    ensures "HEAD" !in FilterMethods && "OPTIONS" !in FilterMethods
  {
  }

  /** `toggleMethod`: a selected method is dropped, others keep their order; an unselected
      one is appended. */
  function ToggleMethod(selected: seq<string>, m: string): (r: seq<string>)
    ensures m !in selected ==> r == selected + [m]
    ensures m in selected ==> m !in r && forall x :: x != m ==> Count(r, x) == Count(selected, x)
    ensures m in selected ==> IsSubseq(r, selected)
  {
    if m in selected then
      assert forall x :: x != m ==> Count(RemoveAll(selected, m), x) == Count(selected, x) by {
        forall x ensures x != m ==> Count(RemoveAll(selected, m), x) == Count(selected, x) {
          RemoveAllCount(selected, m, x);
        }
      }
      RemoveAll(selected, m)
    else selected + [m]
  }

  /** Toggling an unselected method twice gives the selection back. */
  lemma ToggleTwice(selected: seq<string>, m: string)
    requires m !in selected
    ensures ToggleMethod(ToggleMethod(selected, m), m) == selected
  {
    RemoveAllConcat(selected, [m], m);
    RemoveAllAbsent(selected, m);
    assert RemoveAll([m], m) == [];
  }

  /** `clearFilters`. */
  function ClearFilters(): (r: seq<string>)
    ensures |r| == 0
  {
    []
  }

  /** The "Clear filters" control is shown when something is selected. */
  predicate ClearShown(selected: seq<string>) {
    |selected| > 0
  }

  /** Clearing hides the control, and toggling an unselected method shows it. */
  lemma ClearHidesControl(selected: seq<string>, m: string)
    ensures !ClearShown(ClearFilters())
    ensures m !in selected ==> ClearShown(ToggleMethod(selected, m))
  {
  }

  // ---------------------------------------------------------------------------------------
  // FilterBar
  // ---------------------------------------------------------------------------------------

  /** `HTTP_METHODS` of the filter bar, in order. */
  const BarMethods: seq<string> := ["GET", "POST", "PUT", "DELETE", "PATCH"]

  /** `hasFilters`: a method is selected or the trimmed search is not empty. */
  predicate HasFilters(selected: set<string>, query: string) {
    |selected| > 0 || !IsBlank(query)
  }

  /** `showingAll`. */
  predicate ShowingAll(selected: set<string>) {
    |selected| == 0
  }

  /** `getMethodVariant`: every button is lit while nothing is selected, otherwise only the
      selected ones. */
  function BarVariant(selected: set<string>, m: string): (v: Variant)
    ensures v == Default || v == Outline
    ensures v == Default <==> ShowingAll(selected) || m in selected
  {
    if ShowingAll(selected) || m in selected then Default else Outline
  }

  /** What the bar shows. */
  datatype Bar = Bar(
    allVariant: Variant, methodVariants: seq<Variant>,
    clearShown: bool, summaryShown: bool, searchClearShown: bool)

  function Render(selected: set<string>, query: string): (b: Bar)
    ensures |b.methodVariants| == |BarMethods|
    ensures forall i :: 0 <= i < |BarMethods| ==> b.methodVariants[i] == BarVariant(selected, BarMethods[i])
    ensures b.allVariant == Default <==> ShowingAll(selected)
    ensures b.clearShown <==> HasFilters(selected, query)
    ensures b.summaryShown <==> HasFilters(selected, query)
    ensures b.searchClearShown <==> query != ""
  {
    var has := HasFilters(selected, query);
    Bar(if ShowingAll(selected) then Default else Outline,
      seq(|BarMethods|, i requires 0 <= i < |BarMethods| => BarVariant(selected, BarMethods[i])),
      has, has, query != "")
  }

  /** A query of spaces shows the button that empties the search but counts as no filter. */
  lemma SpacesAreNoFilter()
    ensures var b := Render({}, "  ");
      b.searchClearShown && !b.clearShown && !b.summaryShown
  {
  }

  /** The methods ALL passes to `onMethodToggle`: each selected one once, in insertion
      order, and none when nothing is selected. */
  function AllClicks(selected: seq<string>): (calls: seq<string>)
    requires NoDuplicates(selected)
    ensures |selected| == 0 ==> calls == []
    ensures forall m :: Count(calls, m) == (if m in selected then 1 else 0)
  {
    DistinctCount(selected);
    selected
  }

  lemma {:induction false} DistinctCount(s: seq<string>)
    requires NoDuplicates(s)
    ensures forall m :: Count(s, m) == (if m in s then 1 else 0)
    decreases |s|
  {
    if |s| > 0 {
      assert NoDuplicates(s[1..]);
      DistinctCount(s[1..]);
      assert s[0] !in s[1..];
      assert forall m :: m in s <==> m == s[0] || m in s[1..];
    }
  }

  /** Toggling a method in a `Set`. */
  function SetToggle(s: set<string>, m: string): (r: set<string>)
    ensures m in s ==> r == s - {m}
    ensures m !in s ==> r == s + {m}
  {
    if m in s then s - {m} else s + {m}
  }

  function ApplyToggles(s: set<string>, calls: seq<string>): set<string>
    decreases |calls|
  {
    if |calls| == 0 then s else ApplyToggles(SetToggle(s, calls[0]), calls[1..])
  }

  function SetOf(s: seq<string>): (r: set<string>)
    ensures forall m :: m in r <==> m in s
  {
    set m | m in s
  }

  /** A parent that toggles its `Set` once per call ends with nothing selected after ALL. */
  lemma {:induction false} AllClearsSelection(selected: seq<string>)
    requires NoDuplicates(selected)
    ensures ApplyToggles(SetOf(selected), AllClicks(selected)) == {}
    decreases |selected|
  {
    if |selected| > 0 {
      var m := selected[0];
      var rest := selected[1..];
      assert NoDuplicates(rest);
      assert m !in rest;
      assert SetToggle(SetOf(selected), m) == SetOf(rest);
      AllClearsSelection(rest);
    }
  }
}

=== FILE: frontend_types.dfy ===
/** The records the frontend exchanges with the server. Two definitions coexist in the
    frontend: frontend/src/lib/types.ts (numeric request ids) and frontend/src/types/index.ts
    (string request ids, used by the endpoint page). Header objects are insertion-ordered
    key/value lists. */
module FrontendTypes {
  import opened Wrappers

  /** `Endpoint` of frontend/src/lib/types.ts. */
  datatype Endpoint = Endpoint(
    id: string,
    createdAt: string,
    customResponseEnabled: bool,
    responseStatus: int,
    responseHeaders: seq<(string, string)>,
    responseBody: string,
    forwardUrl: Option<string>,
    maxRequests: int,
    rateLimitPerMinute: int)

  /** `WebhookRequest` of frontend/src/lib/types.ts. */
  datatype WebhookRequest = WebhookRequest(
    id: int,
    endpointId: string,
    httpMethod: string,
    path: string,
    queryString: string,
    headers: seq<(string, string)>,
    body: string,
    contentType: string,
    receivedAt: string,
    ipAddress: string)

  /** `Request` of frontend/src/types/index.ts. `headers` and `queryParams` list the members
      of a parsed JSON object, so no name occurs twice in either. */
  datatype Request = Request(
    id: string,
    endpointId: string,
    httpMethod: string,
    headers: seq<(string, string)>,
    body: Option<string>,
    queryParams: seq<(string, string)>,
    receivedAt: string)

  /** The HTTP methods the frontend names (`HttpMethod`). */
  const HttpMethods: seq<string> := ["GET", "POST", "PUT", "PATCH", "DELETE", "HEAD", "OPTIONS"]
}

=== FILE: headers_tab.dfy ===
/** The headers tab of the request detail (frontend/src/components/detail/HeadersTab.tsx):
    the name filter, the count line, the copy-all text and the collapsed display of long
    values. */
module HeadersTab {
  import opened Wrappers
  import opened Strings
  import opened Seqs
  import opened Assoc
  import opened RequestDetail

  /** An entry is kept when its lower-cased name contains the lower-cased filter. */
  predicate NameMatches(h: (string, string), filter: string) {
    Contains(Lower(h.0), Lower(filter))
  }

  /** `filteredHeaders`. */
  function FilterHeaders(headers: Pairs<string, string>, filter: string): (r: Pairs<string, string>)
    ensures forall i :: 0 <= i < |r| ==> NameMatches(r[i], filter) && r[i] in headers
    ensures forall i :: 0 <= i < |headers| && NameMatches(headers[i], filter) ==> headers[i] in r
    ensures IsSubseq(r, headers)
    ensures forall h :: Count(r, h) == (if NameMatches(h, filter) then Count(headers, h) else 0)
  {
    var p := (h: (string, string)) => NameMatches(h, filter);
    assert forall h :: Count(Filter(headers, p), h) == (if NameMatches(h, filter) then Count(headers, h) else 0) by {
      forall h ensures Count(Filter(headers, p), h) == (if NameMatches(h, filter) then Count(headers, h) else 0) {
        FilterCount(headers, p, h);
      }
    }
    Filter(headers, p)
  }

  /** An empty filter keeps every entry, in order. */
  lemma EmptyFilterKeepsAll(headers: Pairs<string, string>)
    ensures FilterHeaders(headers, "") == headers
  {
    forall i | 0 <= i < |headers| ensures NameMatches(headers[i], "") {
      ContainsEmpty(Lower(headers[i].0));
    }
    FilterAll(headers, (h: (string, string)) => NameMatches(h, ""));
  }

  /** The filter ignores case. */
  lemma FilterIgnoresCase(headers: Pairs<string, string>, filter: string)
    ensures FilterHeaders(headers, Upper(filter)) == FilterHeaders(headers, filter)
  {
    LowerOfUpper(filter);
    var p := (h: (string, string)) => NameMatches(h, Upper(filter));
    var q := (h: (string, string)) => NameMatches(h, filter);
    FilterSameTest(headers, p, q);
  }

  /** The count line: "N header" for exactly one entry, "N headers" otherwise, then the
      filter quoted when one is typed. */
  function CountLine(shown: nat, filter: string): string {
    NatToString(shown) + " " + (if shown == 1 then "header" else "headers")
      + (if filter != "" then " matching \"" + filter + "\"" else "")
  }

  /** The plural is used exactly when the count is not 1. */
  lemma CountLineSingular(shown: nat)
    ensures EndsWith(CountLine(shown, ""), "headers") <==> shown != 1
  {
    var a := NatToString(shown);
    if shown == 1 {
      assert a == [DigitChar(1)] && DigitChar(1) == '1';
      assert CountLine(shown, "") == "1" + " " + "header" + "";
      assert "1" + " " + "header" + "" == "1 header";
    } else {
      assert CountLine(shown, "") == (a + " ") + "headers";
      EndsWithConcat(a + " ", "headers");
    }
  }

  /** The copy-all button: every header, whatever the filter, when there is at least one. */
  function CopyAll(headers: Pairs<string, string>): (text: Option<string>)
    ensures text.Some? <==> |headers| > 0
    ensures text.Some? ==> text.value == HeadersText(headers)
  {
    if |headers| > 0 then Some(HeadersText(headers)) else None
  }

  const Limit := 100

  /** `HeaderRow`: a value over 100 characters shows its first 100 and an ellipsis until it
      is expanded; the toggle is offered only for such values. */
  function DisplayValue(value: string, expanded: bool): (d: string)
    ensures |value| <= Limit ==> d == value
    ensures expanded ==> d == value
    ensures |value| > Limit && !expanded ==> |d| == Limit + 3 && IsPrefix(d[..Limit], value) && d[Limit..] == "..."
  {
    if |value| > Limit && !expanded then value[..Limit] + "..." else value
  }

  predicate ToggleOffered(value: string) {
    |value| > Limit
  }

  /** What is displayed is always a prefix of the value, possibly followed by the ellipsis. */
  lemma DisplayIsPrefix(value: string, expanded: bool)
    ensures var d := DisplayValue(value, expanded);
      d == value || (ToggleOffered(value) && d == value[..Limit] + "...")
  {
  }
}

=== FILE: keyboard.dfy ===
/** Keyboard shortcuts (frontend/src/hooks/useKeyboard.ts): which shortcut, if any, a
    key press triggers. A shortcut's handler is named by a number; an optional modifier flag
    that is left out counts as `false`. */
module Keyboard {
  import opened Wrappers
  import opened Strings

  datatype Shortcut = Shortcut(
    key: string, ctrl: bool, shift: bool, meta: bool, alt: bool, handler: nat, description: string)

  /** The parts of a `keydown` event the hook reads, with the target element's tag. */
  datatype KeyPress = KeyPress(
    key: string, ctrl: bool, shift: bool, meta: bool, alt: bool, targetTag: string, targetEditable: bool)

  /** Presses aimed at a text field are left alone. */
  predicate Typing(e: KeyPress) {
    e.targetTag == "INPUT" || e.targetTag == "TEXTAREA" || e.targetEditable
  }

  /** The hook's test: same key ignoring case, each required modifier pressed and no other
      modifier pressed. */
  predicate Matches(s: Shortcut, e: KeyPress) {
    var keyMatch := Lower(e.key) == Lower(s.key);
    var ctrlMatch := !s.ctrl || e.ctrl;
    var shiftMatch := !s.shift || e.shift;
    var metaMatch := !s.meta || e.meta;
    var altMatch := !s.alt || e.alt;
    var noExtraCtrl := s.ctrl || !e.ctrl;
    var noExtraShift := s.shift || !e.shift;
    var noExtraMeta := s.meta || !e.meta;
    var noExtraAlt := s.alt || !e.alt;
    keyMatch && ctrlMatch && shiftMatch && metaMatch && altMatch
      && noExtraCtrl && noExtraShift && noExtraMeta && noExtraAlt
  }

  /** The test amounts to: the key agrees up to case and every modifier is pressed exactly
      when the shortcut asks for it. */
  lemma MatchesExactly(s: Shortcut, e: KeyPress)
    ensures Matches(s, e) <==>
      Lower(e.key) == Lower(s.key) && e.ctrl == s.ctrl && e.shift == s.shift && e.meta == s.meta && e.alt == s.alt
  {
  }

  /** The case of the pressed key never matters. */
  lemma MatchIgnoresCase(s: Shortcut, e: KeyPress)
    ensures Matches(s, e.(key := Upper(e.key))) == Matches(s, e)
  {
    LowerOfUpper(e.key);
  }

  /** `handleKeyDown`: the first matching shortcut, in list order, runs and the browser's
      default is prevented; with no match nothing runs and nothing is prevented. */
  method HandleKeyDown(shortcuts: seq<Shortcut>, e: KeyPress) returns (ran: Option<nat>, prevented: bool)
    ensures prevented <==> ran.Some?
    ensures Typing(e) ==> ran.None?
    ensures ran.Some? ==>
      ran.value < |shortcuts| && Matches(shortcuts[ran.value], e)
      && forall j :: 0 <= j < ran.value ==> !Matches(shortcuts[j], e)
    ensures ran.None? && !Typing(e) ==> forall j :: 0 <= j < |shortcuts| ==> !Matches(shortcuts[j], e)
    ensures ran == Triggered(shortcuts, e, true)
  {
    if Typing(e) {
      return None, false;
    }
    var i := 0;
    while i < |shortcuts|
      invariant 0 <= i <= |shortcuts|
      invariant forall j :: 0 <= j < i ==> !Matches(shortcuts[j], e)
    {
      if Matches(shortcuts[i], e) {
        return Some(i), true;
      }
      i := i + 1;
    }
    return None, false;
  }

  /** The handler a press triggers when the hook is on: the same first match, as a function. */
  function FirstMatch(shortcuts: seq<Shortcut>, e: KeyPress): (k: nat)
    ensures k <= |shortcuts|
    ensures forall j :: 0 <= j < k ==> !Matches(shortcuts[j], e)
    ensures k < |shortcuts| ==> Matches(shortcuts[k], e)
  {
    if |shortcuts| == 0 || Matches(shortcuts[0], e) then 0 else 1 + FirstMatch(shortcuts[1..], e)
  }

  /** With the hook disabled no listener exists, so no press triggers anything. */
  function Triggered(shortcuts: seq<Shortcut>, e: KeyPress, enabled: bool): (r: Option<nat>)
    ensures !enabled || Typing(e) ==> r.None?
    ensures r.Some? ==> r.value < |shortcuts| && Matches(shortcuts[r.value], e)
  {
    if !enabled || Typing(e) then None
    else
      var k := FirstMatch(shortcuts, e);
      if k < |shortcuts| then Some(k) else None
  }

  /** `KEYBOARD_SHORTCUTS`: handlers 0 to 5 stand for the placeholders callers override. */
  const Defaults: seq<Shortcut> := [
    Shortcut("n", false, false, false, false, 0, "Create new endpoint"),
    Shortcut("c", false, false, false, false, 1, "Copy selected request as cURL"),
    Shortcut("e", false, false, false, false, 2, "Export selected request"),
    Shortcut("Escape", false, false, false, false, 3, "Close detail panel"),
    Shortcut("/", false, false, false, false, 4, "Focus search"),
    Shortcut("?", false, true, false, false, 5, "Show keyboard shortcuts")]

  predicate NeedsModifier(s: Shortcut) {
    s.ctrl || s.shift || s.meta || s.alt
  }

  /** Among the defaults only the help shortcut needs a modifier, and that is Shift. */
  lemma OnlyHelpNeedsShift()
    ensures forall i :: 0 <= i < |Defaults| ==> (NeedsModifier(Defaults[i]) <==> Defaults[i].key == "?")
    ensures Defaults[5].shift && !Defaults[5].ctrl && !Defaults[5].meta && !Defaults[5].alt
  {
  }
}

=== FILE: live_feed.dfy ===
/** The endpoint page's live request list (frontend/src/pages/EndpointView.tsx): requests
    pushed over the WebSocket are prepended to a live list, and what the page shows is the
    live list followed by the fetched one, with one entry per request id as a JavaScript
    `Map` keyed by id keeps them. */
module LiveFeed {
  import opened Wrappers
  import opened Assoc
  import opened Strings
  import opened FrontendTypes
  import WsClient
  import Seqs

  /** A frame as the page reads it: its `type` tag and its payload. */
  datatype LiveMessage = LiveMessage(kind: string, data: Request)

  /** The handler the page subscribes: only `new_request` frames change the list, each by
      putting its request in front. */
  function OnLiveMessage(live: seq<Request>, m: LiveMessage): (r: seq<Request>)
    ensures m.kind == "new_request" ==> r == [m.data] + live
    ensures m.kind != "new_request" ==> r == live
  {
    if m.kind == "new_request" then [m.data] + live else live
  }

  function Ids(rs: seq<Request>): (ids: seq<string>)
    ensures |ids| == |rs| && forall i :: 0 <= i < |rs| ==> ids[i] == rs[i].id
  {
    seq(|rs|, i requires 0 <= i < |rs| => rs[i].id)
  }

  /** `allRequests.map((r) => [r.id, r])`. */
  function Entries(rs: seq<Request>): (ps: Pairs<string, Request>)
    ensures |ps| == |rs| && forall i :: 0 <= i < |rs| ==> ps[i] == (rs[i].id, rs[i])
  {
    seq(|rs|, i requires 0 <= i < |rs| => (rs[i].id, rs[i]))
  }

  /** Every value is filed under its own id. */
  predicate Keyed(ps: Pairs<string, Request>) {
    forall i :: 0 <= i < |ps| ==> ps[i].1.id == ps[i].0
  }

  /** The shown list: live requests, then the fetched ones (none before the fetch completes),
      with repeated ids merged. */
  function Shown(live: seq<Request>, fetched: Option<seq<Request>>): seq<Request> {
    Values(FromPairs(Entries(live + fetched.GetOr([]))))
  }

  lemma ShownIsKeyed(all: seq<Request>)
    ensures Keyed(FromPairs(Entries(all)))
    ensures Ids(Values(FromPairs(Entries(all)))) == Keys(FromPairs(Entries(all)))
  {
    var ps := Entries(all);
    FromPairsDrawn(ps);
    var m := FromPairs(ps);
    forall i | 0 <= i < |m| ensures m[i].1.id == m[i].0 {
      var j :| 0 <= j < |ps| && ps[j] == m[i];
    }
  }

  /** Each id of the combined list appears once, at the place of its first occurrence;
      nothing is re-sorted. */
  lemma ShownOrder(live: seq<Request>, fetched: Option<seq<Request>>)
    ensures Ids(Shown(live, fetched)) == FirstOccurrences(Ids(live + fetched.GetOr([])))
  {
    var all := live + fetched.GetOr([]);
    ShownIsKeyed(all);
    FromPairsKeys(Entries(all));
    assert Keys(Entries(all)) == Ids(all);
  }

  /** The record shown for an id is the last one with that id in the combined list, so a
      fetched copy wins over a live one. */
  lemma ShownKeepsLast(live: seq<Request>, fetched: Option<seq<Request>>, i: nat)
    requires i < |Shown(live, fetched)|
    ensures Lookup(Entries(live + fetched.GetOr([])), Shown(live, fetched)[i].id) == Some(Shown(live, fetched)[i])
  {
    var all := live + fetched.GetOr([]);
    var m := FromPairs(Entries(all));
    ShownIsKeyed(all);
    FromPairsMeaning(Entries(all));
    LookupAt(m, i);
  }

  /** When no id repeats, the page shows exactly the live list followed by the fetched one. */
  lemma ShownWithoutRepeats(live: seq<Request>, fetched: Option<seq<Request>>)
    requires var all := live + fetched.GetOr([]);
      forall i, j :: 0 <= i < j < |all| ==> all[i].id != all[j].id
    ensures Shown(live, fetched) == live + fetched.GetOr([])
  {
    var all := live + fetched.GetOr([]);
    var ps := Entries(all);
    assert DistinctKeys(ps) by {
      forall i, j | 0 <= i < j < |ps| ensures ps[i].0 != ps[j].0 {
        assert ps[i].0 == all[i].id && ps[j].0 == all[j].id;
      }
    }
    FromDistinctPairs(ps);
    assert Values(ps) == all;
  }

  /** The count line under the list title. */
  function CountLabel(n: nat): string {
    NatToString(n) + " request" + (if n != 1 then "s received" else " received")
  }

  /** The plural form is used for every count but one. */
  lemma CountLabelPlural(n: nat)
    ensures EndsWith(CountLabel(n), "requests received") <==> n != 1
  {
    var text := CountLabel(n);
    if n != 1 {
      assert text == (NatToString(n) + " ") + "requests received";
      EndsWithConcat(NatToString(n) + " ", "requests received");
    } else {
      assert NatToString(1) == "1";
      assert text == "1 request received";
      assert text[|text| - 17..][0] == ' ';
    }
  }

  /** The page's effect for an endpoint id: a client exists only for a non-empty id; it is
      connected and the page's handler subscribed. */
  function Mount(id: string, created: bool, handler: WsClient.HandlerId): (c: Option<WsClient.Client>)
    ensures id == "" <==> c.None?
    ensures c.Some? ==> c.value.handlers == [handler] && c.value.endpointId == id
    ensures c.Some? ==> c.value.attempts == 0 && c.value.timers == []
    ensures c.Some? ==> (created <==> c.value.ws.Some?)
  {
    if id == "" then None
    else Some(WsClient.Subscribe(WsClient.Connect(WsClient.New(id), created), handler))
  }

  /** The effect's cleanup: the handler is removed first, then the socket is dropped. */
  function Cleanup(c: WsClient.Client, handler: WsClient.HandlerId): (r: WsClient.Client)
    ensures handler !in r.handlers && r.ws.None?
    ensures r.attempts == c.attempts && r.timers == c.timers
  {
    WsClient.Disconnect(WsClient.Unsubscribe(c, handler))
  }

  /** Cleaning up after mounting leaves a client with no handler and no socket. */
  lemma MountThenCleanup(id: string, created: bool, handler: WsClient.HandlerId)
    requires id != ""
    ensures Cleanup(Mount(id, created, handler).value, handler).handlers == []
    ensures Cleanup(Mount(id, created, handler).value, handler).ws.None?
  {
    var c := Mount(id, created, handler).value;
    assert c.handlers == [handler];
    assert Seqs.RemoveAll([handler], handler) == [];
  }
}

=== FILE: method_badge.dfy ===
/** The method badge (frontend/src/components/ui/MethodBadge.tsx): its label and its class
    list, chosen on the upper-cased method. A class list is written as the classes joined by
    single spaces, which is how the component spells its template strings. */
module MethodBadge {
  import opened Strings

  /** The colour variable a badge is tinted with. */
  datatype Tint = Blue | Green | Orange | Purple | Red | Yellow | Muted

  function TintOf(verb: string): (t: Tint)
    ensures t == Yellow <==> Upper(verb) == "HEAD" || Upper(verb) == "OPTIONS"
    ensures t == Muted <==> Upper(verb) !in {"GET", "POST", "PUT", "PATCH", "DELETE", "HEAD", "OPTIONS"}
  {
    match Upper(verb)
    case "GET" => Blue
    case "POST" => Green
    case "PUT" => Orange
    case "PATCH" => Purple
    case "DELETE" => Red
    case "HEAD" => Yellow
    case "OPTIONS" => Yellow
    case _ => Muted
  }

  /** The CSS variable behind a tint. */
  function TintVariable(t: Tint): string {
    match t
    case Blue => "accent-blue"
    case Green => "accent-green"
    case Orange => "accent-orange"
    case Purple => "accent-purple"
    case Red => "accent-red"
    case Yellow => "accent-yellow"
    case Muted => "text-secondary"
  }

  /** `baseStyles`, class by class. */
  const BaseClasses: seq<string> := ["inline-flex", "items-center", "px-2", "py-1", "text-xs", "font-semibold", "border", "rounded"]

  /** Background, text and border classes of a tint. */
  function TintClasses(t: Tint): seq<string> {
    var v := TintVariable(t);
    ["bg-(--" + v + ")/10", "text-(--" + v + ")", "border-(--" + v + ")/20"]
  }

  /** The classes of the badge, the caller's `className` last. */
  function Classes(verb: string, className: string): seq<string> {
    BaseClasses + TintClasses(TintOf(verb)) + [className]
  }

  /** The badge: its `className` attribute and its text. */
  datatype Badge = Badge(classAttr: string, text: string)

  function Render(verb: string, className: string): (b: Badge)
    ensures b.text == Upper(verb)
  {
    Badge(Join(Classes(verb, className), " "), Upper(verb))
  }

  lemma {:induction false} TintClassesFree(t: Tint)
    ensures forall i :: 0 <= i < |TintClasses(t)| ==> Free(TintClasses(t)[i], ' ')
  {
    var v := TintVariable(t);
    assert Free(v, ' ');
    var cs := TintClasses(t);
    forall i | 0 <= i < 3 ensures Free(cs[i], ' ') {
      var pre := if i == 0 then "bg-(--" else if i == 1 then "text-(--" else "border-(--";
      var post := if i == 0 then ")/10" else if i == 1 then ")" else ")/20";
      assert cs[i] == pre + v + post;
      forall j | 0 <= j < |cs[i]| ensures cs[i][j] != ' ' {
        if j < |pre| { assert cs[i][j] == pre[j]; }
        else if j < |pre| + |v| { assert cs[i][j] == v[j - |pre|]; }
        else { assert cs[i][j] == post[j - |pre| - |v|]; }
      }
    }
  }

  /** Read back as a class list, the attribute holds the base classes, then the tint's
      classes, then the caller's class (a class name has no space in it). */
  lemma ClassListOf(verb: string, className: string)
    requires Free(className, ' ')
    ensures Split(Render(verb, className).classAttr, ' ') == Classes(verb, className)
  {
    TintClassesFree(TintOf(verb));
    var cs := Classes(verb, className);
    assert forall i :: 0 <= i < |BaseClasses| ==> Free(BaseClasses[i], ' ');
    forall i | 0 <= i < |cs| ensures Free(cs[i], ' ') {
      if i < |BaseClasses| {
        assert cs[i] == BaseClasses[i];
      } else if i < |BaseClasses| + 3 {
        assert cs[i] == TintClasses(TintOf(verb))[i - |BaseClasses|];
      }
    }
    SplitJoin(cs, ' ');
  }

  /** The tints the component's tests expect: GET blue, POST green, PUT orange, PATCH
      purple, DELETE red, HEAD and OPTIONS yellow, and anything else muted; lower-case input
      gets the same badge as upper-case. */
  lemma TintTable(verb: string)
    ensures TintOf("GET") == Blue && TintOf("POST") == Green && TintOf("PUT") == Orange
    ensures TintOf("PATCH") == Purple && TintOf("DELETE") == Red
    ensures TintOf("HEAD") == Yellow && TintOf("OPTIONS") == Yellow && TintOf("CUSTOM") == Muted
    ensures Render(Lower(verb), "") == Render(verb, "")
  {
    assert Upper("GET") == "GET" && Upper("POST") == "POST" && Upper("PUT") == "PUT";
    assert Upper("PATCH") == "PATCH" && Upper("DELETE") == "DELETE";
    assert Upper("HEAD") == "HEAD" && Upper("OPTIONS") == "OPTIONS" && Upper("CUSTOM") == "CUSTOM";
    UpperOfLower(verb);
  }
}

=== FILE: migrations.dfy ===
/** The statement splitter of `run_migrations` (src/db/mod.rs): the migration script is read
    line by line into a pending buffer, and the buffer is handed to SQLite whenever a line
    ends with ';'. The script's text enters as its lines (what `str::lines` yields), and
    SQLite enters as `accept`, which says whether a statement succeeds after the earlier
    ones have run. */
module Migrations {
  import opened Wrappers
  import opened Strings
  import opened Seqs

  // -------------------------------------------------------------------------------------
  // Text helpers
  // -------------------------------------------------------------------------------------

  /** `trim_end_matches(';')`: every trailing ';' removed. */
  function TrimSemicolons(s: string): (r: string)
    ensures |r| <= |s| && r == s[..|r|]
    ensures forall i :: |r| <= i < |s| ==> s[i] == ';'
    ensures |r| == 0 || r[|r| - 1] != ';'
  {
    s[..|s| - TrailingSemicolons(s)]
  }

  /** How many ';' `s` ends with. */
  function TrailingSemicolons(s: string): (n: nat)
    ensures n <= |s|
    ensures forall i :: |s| - n <= i < |s| ==> s[i] == ';'
    ensures n == |s| || s[|s| - n - 1] != ';'
  {
    if |s| > 0 && s[|s| - 1] == ';' then 1 + TrailingSemicolons(s[..|s| - 1]) else 0
  }

  /** What a flush hands to SQLite: the buffer trimmed, stripped of trailing ';', trimmed
      again. */
  function Statement(text: string): (r: string)
    ensures |r| == 0 || (!IsSpace(r[0]) && !IsSpace(r[|r| - 1]))
  {
    Trim(TrimSemicolons(Trim(text)))
  }

  /** How the loop sees a line, from its trimmed form: blank, a comment (trimmed form
      starts with "--") or code, and for the last two whether the trimmed form ends with
      ';'. */
  datatype Kind = Blank | Comment(ends: bool) | Code(ends: bool)

  function Classify(line: string): (k: Kind)
    ensures k.Blank? <==> IsBlank(line)
  {
    var t := Trim(line);
    if |t| == 0 then Blank
    else if |t| >= 2 && t[0] == '-' && t[1] == '-' then Comment(t[|t| - 1] == ';')
    else Code(t[|t| - 1] == ';')
  }

  /** The last character of `s` that is not white space. */
  function LastSolid(s: string): (r: Option<char>)
    ensures r.None? <==> IsBlank(s)
  {
    if |s| == 0 then None
    else if !IsSpace(s[|s| - 1]) then Some(s[|s| - 1])
    else LastSolid(s[..|s| - 1])
  }

  // -------------------------------------------------------------------------------------
  // The loop
  // -------------------------------------------------------------------------------------

  /** A statement SQLite receives: non-empty, with no white space at either end. */
  predicate Clean(stmt: string) {
    |stmt| > 0 && !IsSpace(stmt[0]) && !IsSpace(stmt[|stmt| - 1])
  }

  /** The loop's state: `current_statement`, and the statements flushed so far. */
  datatype Splitter = Splitter(buffer: string, statements: seq<string>)

  const Start := Splitter("", [])

  /** `after` is `before` with at most one statement added at the end. */
  predicate Grows(before: seq<string>, after: seq<string>) {
    |before| <= |after| <= |before| + 1 && after[..|before|] == before
  }

  /** Hands the buffer to SQLite, when its statement is not empty, and clears it. */
  function Flush(st: Splitter, buffer: string): (r: Splitter)
    ensures Grows(st.statements, r.statements)
    ensures forall i :: |st.statements| <= i < |r.statements| ==> Clean(r.statements[i])
  {
    var stmt := Statement(buffer);
    Splitter("", st.statements + (if |stmt| == 0 then [] else [stmt]))
  }

  /** One iteration of the loop over the lines. */
  function Step(st: Splitter, line: string): (r: Splitter)
    ensures Classify(line).Blank? || (Classify(line).Comment? && |st.buffer| == 0) ==> r == st
    ensures Classify(line).Comment? && !Classify(line).ends ==> r == st
    ensures Classify(line) == Code(false) ==> r == Splitter(st.buffer + line + "\n", st.statements)
    ensures Classify(line) == Code(true) ==> r == Flush(st, st.buffer + line + "\n")
    ensures Classify(line) == Comment(true) && |st.buffer| > 0 ==> r == Flush(st, st.buffer)
    ensures Grows(st.statements, r.statements)
    ensures |r.statements| > |st.statements| ==> |r.buffer| == 0
    ensures forall i :: |st.statements| <= i < |r.statements| ==> Clean(r.statements[i])
  {
    match Classify(line)
    case Blank => st
    case Comment(ends) => if |st.buffer| == 0 || !ends then st else Flush(st, st.buffer)
    case Code(ends) =>
      var buffer := st.buffer + line + "\n";
      if ends then Flush(st, buffer) else Splitter(buffer, st.statements)
  }

  /** The state after the loop has consumed `lines`, starting from `st`. */
  function Run(st: Splitter, lines: seq<string>): Splitter
    decreases |lines|
  {
    if |lines| == 0 then st else Run(Step(st, lines[0]), lines[1..])
  }

  /** The state after the whole script. */
  function Fold(lines: seq<string>): Splitter {
    Run(Start, lines)
  }

  /** The statements the script runs, in order: the flushed ones, then the leftover buffer
      when it is not blank. */
  function Statements(lines: seq<string>): seq<string> {
    var st := Fold(lines);
    st.statements + (if IsBlank(st.buffer) then [] else [Statement(st.buffer)])
  }

  // -------------------------------------------------------------------------------------
  // What the splitter guarantees
  // -------------------------------------------------------------------------------------

  /** A pending buffer is empty, or ends with a line break after text whose last
      non-white-space character is not ';'. */
  predicate PendingOk(buffer: string) {
    |buffer| == 0 || (buffer[|buffer| - 1] == '\n' && LastSolid(buffer).Some? && LastSolid(buffer).value != ';')
  }

  lemma {:induction false} LastSolidConcat(a: string, b: string)
    ensures LastSolid(a + b) == if LastSolid(b).Some? then LastSolid(b) else LastSolid(a)
    decreases |b|
  {
    if |b| == 0 {
      assert a + b == a;
    } else {
      assert (a + b)[..|a + b| - 1] == a + b[..|b| - 1];
      LastSolidConcat(a, b[..|b| - 1]);
    }
  }

  /** The last non-white-space character sits at `k` when everything after `k` is space. */
  lemma {:induction false} LastSolidAt(s: string, k: nat)
    requires k < |s| && !IsSpace(s[k])
    requires forall j :: k < j < |s| ==> IsSpace(s[j])
    ensures LastSolid(s) == Some(s[k])
    decreases |s|
  {
    if k < |s| - 1 {
      LastSolidAt(s[..|s| - 1], k);
    }
  }

  /** The trimmed text of a non-blank line ends with the line's last non-white-space
      character. */
  lemma TrimEndsWithLastSolid(s: string)
    requires !IsBlank(s)
    ensures |Trim(s)| > 0 && LastSolid(s) == Some(Trim(s)[|Trim(s)| - 1])
  {
    var r := Trim(s);
    TrimShape(s);
    var k := TrimOffset(s) + |r| - 1;
    assert s[k] == r[|r| - 1];
    LastSolidAt(s, k);
  }

  /** A well-formed leftover buffer is run as its trimmed text, which is clean. */
  lemma {:induction false} LeftoverStatement(buffer: string)
    requires PendingOk(buffer) && |buffer| > 0
    ensures !IsBlank(buffer)
    ensures Statement(buffer) == Trim(buffer) && Clean(Statement(buffer))
  {
    TrimEndsWithLastSolid(buffer);
    var t := Trim(buffer);
    assert TrimSemicolons(t) == t;
    TrimOfTrimmed(t);
  }

  /** Appending a line that does not end a statement keeps the buffer well formed. */
  lemma AppendKeepsPending(buffer: string, line: string)
    requires PendingOk(buffer) && Classify(line) == Code(false)
    ensures PendingOk(buffer + line + "\n")
  {
    TrimEndsWithLastSolid(line);
    LastSolidConcat(buffer + line, "\n");
    LastSolidConcat(buffer, line);
  }

  /** The loop invariant: the buffer is well formed and every flushed statement is clean. */
  predicate Invariant(st: Splitter) {
    PendingOk(st.buffer) && forall i :: 0 <= i < |st.statements| ==> Clean(st.statements[i])
  }

  lemma StepKeepsInvariant(st: Splitter, line: string)
    requires Invariant(st)
    ensures Invariant(Step(st, line))
  {
    if Classify(line) == Code(false) {
      AppendKeepsPending(st.buffer, line);
    }
  }

  lemma {:induction false} RunInvariant(st: Splitter, lines: seq<string>)
    requires Invariant(st)
    ensures Invariant(Run(st, lines))
    decreases |lines|
  {
    if |lines| > 0 {
      StepKeepsInvariant(st, lines[0]);
      RunInvariant(Step(st, lines[0]), lines[1..]);
    }
  }

  /** SQLite never receives an empty statement, nor one with white space at either end; the
      leftover statement is exactly the trimmed buffer. */
  lemma StatementsAreClean(lines: seq<string>)
    ensures var st := Fold(lines);
      && (forall i :: 0 <= i < |Statements(lines)| ==> Clean(Statements(lines)[i]))
      && (!IsBlank(st.buffer) ==> Statements(lines) == st.statements + [Trim(st.buffer)])
  {
    RunInvariant(Start, lines);
    var st := Fold(lines);
    if |st.buffer| > 0 {
      LeftoverStatement(st.buffer);
    }
  }

  /** A line the loop can never act on: blank, or a comment that does not end with ';'. */
  predicate Inert(line: string) {
    Classify(line).Blank? || Classify(line) == Comment(false)
  }

  function ActiveTest(): string -> bool {
    (line: string) => !Inert(line)
  }

  /** Blank lines and comments that do not end with ';' add nothing: removing them from the
      script leaves the state after every line the same. */
  lemma {:induction false} InertLinesAddNothing(st: Splitter, lines: seq<string>)
    ensures Run(st, Filter(lines, ActiveTest())) == Run(st, lines)
    decreases |lines|
  {
    if |lines| > 0 {
      var rest := Filter(lines[1..], ActiveTest());
      if Inert(lines[0]) {
        assert Step(st, lines[0]) == st;
        assert Filter(lines, ActiveTest()) == rest;
        InertLinesAddNothing(st, lines[1..]);
      } else {
        assert Filter(lines, ActiveTest()) == [lines[0]] + rest;
        assert ([lines[0]] + rest)[1..] == rest;
        InertLinesAddNothing(Step(st, lines[0]), lines[1..]);
      }
    }
  }

  /** A line with no white space at either end is classified by its own text. */
  lemma ClassifyClean(line: string)
    requires Clean(line)
    ensures Classify(line) == if |line| >= 2 && line[0] == '-' && line[1] == '-'
                              then Comment(line[|line| - 1] == ';') else Code(line[|line| - 1] == ';')
  {
    TrimOfTrimmed(line);
  }

  /** A buffer holding one clean line trims to that line. */
  lemma TrimNewline(line: string)
    requires Clean(line)
    ensures Trim(line + "\n") == line
  {
    var b := line + "\n";
    assert b[0] == line[0];
    assert LeadingSpaces(b) == 0;
    assert b[..|b| - 1] == line;
    assert TrailingSpaces(line) == 0;
    assert TrailingSpaces(b) == 1;
    assert b[0..|b| - 1] == line;
  }

  /** The terminating ';' of a statement that does not end with ';' itself is dropped. */
  lemma DropSemicolon(stmt: string)
    requires |stmt| > 0 && stmt[|stmt| - 1] != ';'
    ensures TrimSemicolons(stmt + ";") == stmt
  {
    var line := stmt + ";";
    assert line[..|line| - 1] == stmt;
    assert TrailingSemicolons(stmt) == 0;
    assert TrailingSemicolons(line) == 1;
  }

  // -------------------------------------------------------------------------------------
  // A script of one-line statements
  // -------------------------------------------------------------------------------------

  /** A statement that fits on one line of the script and is written back unchanged. */
  predicate OneLiner(stmt: string) {
    Clean(stmt) && stmt[|stmt| - 1] != ';' && !StartsWith(stmt, "--")
  }

  /** Each statement on its own line, terminated by ';'. */
  function Render(stmts: seq<string>): (lines: seq<string>)
    ensures |lines| == |stmts|
  {
    seq(|stmts|, i requires 0 <= i < |stmts| => stmts[i] + ";")
  }

  /** A one-line statement with its ';' is code that ends a statement. */
  lemma OneLinerClass(stmt: string)
    requires OneLiner(stmt)
    ensures Classify(stmt + ";") == Code(true)
  {
    var line := stmt + ";";
    assert line[0] == stmt[0];
    ClassifyClean(line);
    if |stmt| >= 2 {
      assert line[..2] == stmt[..2];
    }
  }

  /** A one-line statement with its ';' and line break is flushed as the statement. */
  lemma OneLinerStatement(stmt: string)
    requires OneLiner(stmt)
    ensures Statement(stmt + ";" + "\n") == stmt
  {
    var line := stmt + ";";
    assert line[0] == stmt[0];
    TrimNewline(line);
    DropSemicolon(stmt);
    TrimOfTrimmed(stmt);
  }

  lemma OneLineFlush(st: Splitter, stmt: string)
    requires |st.buffer| == 0 && OneLiner(stmt)
    ensures Step(st, stmt + ";") == Splitter("", st.statements + [stmt])
  {
    OneLinerClass(stmt);
    OneLinerStatement(stmt);
    assert st.buffer + (stmt + ";") + "\n" == stmt + ";" + "\n";
  }

  /** The first rendered line flushes its statement. */
  lemma RenderStep(done: seq<string>, stmts: seq<string>)
    requires |stmts| > 0 && forall i :: 0 <= i < |stmts| ==> OneLiner(stmts[i])
    ensures Run(Splitter("", done), Render(stmts)) == Run(Splitter("", done + [stmts[0]]), Render(stmts[1..]))
  {
    var lines := Render(stmts);
    assert lines[0] == stmts[0] + ";";
    OneLineFlush(Splitter("", done), stmts[0]);
    assert lines[1..] == Render(stmts[1..]);
  }

  /** Splitting a rendered script gives the statements back, after whatever was flushed
      before. */
  lemma {:induction false} RenderRoundTrip(done: seq<string>, stmts: seq<string>)
    requires forall i :: 0 <= i < |stmts| ==> OneLiner(stmts[i])
    ensures Run(Splitter("", done), Render(stmts)) == Splitter("", done + stmts)
    decreases |stmts|
  {
    if |stmts| == 0 {
      assert done + stmts == done;
    } else {
      RenderStep(done, stmts);
      RenderRoundTrip(done + [stmts[0]], stmts[1..]);
      HeadAcross(done, stmts);
    }
  }

  /** A script of one-line statements runs exactly those statements. */
  lemma RenderedScript(stmts: seq<string>)
    requires forall i :: 0 <= i < |stmts| ==> OneLiner(stmts[i])
    ensures Statements(Render(stmts)) == stmts
  {
    RenderRoundTrip([], stmts);
    assert [] + stmts == stmts;
  }

  // -------------------------------------------------------------------------------------
  // Execution
  // -------------------------------------------------------------------------------------

  /** What running the statements `all` one after another, stopping at the first failure,
      leaves behind: `executed` is a prefix of `all` whose statements before the last one
      all succeeded; `ok` holds exactly when every statement of `all` ran and succeeded, and
      otherwise the last one executed is the one that failed. */
  predicate Outcome(all: seq<string>, accept: (seq<string>, string) -> bool, executed: seq<string>, ok: bool) {
    && |executed| <= |all| && executed == all[..|executed|]
    && (forall i :: 0 <= i < |executed| - 1 ==> accept(executed[..i], executed[i]))
    && (ok <==> executed == all && AllAccepted(executed, accept))
    && (!ok ==> |executed| > 0 && !accept(executed[..|executed| - 1], executed[|executed| - 1]))
  }

  /** Every statement succeeded after the ones before it. */
  predicate AllAccepted(executed: seq<string>, accept: (seq<string>, string) -> bool) {
    forall i :: 0 <= i < |executed| ==> accept(executed[..i], executed[i])
  }

  /** `run_migrations` with the query execution as `accept(earlier, stmt)`: statements run
      in order as they are flushed, and the first failure returns at once. `executed` is
      what SQLite received. */
  method RunMigrations(lines: seq<string>, accept: (seq<string>, string) -> bool)
    returns (executed: seq<string>, ok: bool)
    ensures Outcome(Statements(lines), accept, executed, ok)
  {
    var st, failed;
    st, executed, failed := RunLines(lines, accept);
    if failed {
      return executed, false;
    }
    ok := true;
    if !IsBlank(st.buffer) {
      var stmt := Statement(st.buffer);
      ok := accept(executed, stmt);
      executed := executed + [stmt];
    }
    Leftover(lines, accept, executed, ok);
  }

  /** What the final flush of a non-blank buffer leaves behind. */
  lemma Leftover(lines: seq<string>, accept: (seq<string>, string) -> bool, executed: seq<string>, ok: bool)
    requires var st := Fold(lines);
      AllAccepted(st.statements, accept)
      && (IsBlank(st.buffer) ==> executed == st.statements && ok)
      && (!IsBlank(st.buffer) ==> executed == st.statements + [Statement(st.buffer)]
                                  && ok == accept(st.statements, Statement(st.buffer)))
    ensures Outcome(Statements(lines), accept, executed, ok)
  {
    var st := Fold(lines);
    if IsBlank(st.buffer) {
      Finish(Statements(lines), executed, accept);
    } else if ok {
      Extend(st.statements, Statement(st.buffer), accept);
      Finish(Statements(lines), executed, accept);
    } else {
      StopAt(Statements(lines), st.statements, Statement(st.buffer), accept);
    }
  }

  /** The loop over the lines: it stops at the first statement that fails, and otherwise
      ends in the splitter's final state having run everything it flushed. */
  method RunLines(lines: seq<string>, accept: (seq<string>, string) -> bool)
    returns (st: Splitter, executed: seq<string>, failed: bool)
    ensures !failed ==> st == Fold(lines) && executed == st.statements && AllAccepted(executed, accept)
    ensures failed ==> Outcome(Statements(lines), accept, executed, false)
  {
    st := Start;
    executed := [];
    var i := 0;
    RunFrom(Start, lines, 0);
    while i < |lines|
      invariant 0 <= i <= |lines|
      invariant Run(st, lines[i..]) == Fold(lines)
      invariant executed == st.statements
      invariant AllAccepted(executed, accept)
    {
      var next := Step(st, lines[i]);
      RunFrom(st, lines, i);
      if |next.statements| > |st.statements| {
        var stmt := next.statements[|next.statements| - 1];
        GrowByOne(executed, next.statements);
        if !accept(executed, stmt) {
          StopInLoop(next, lines[i + 1..], lines, accept);
          return next, executed + [stmt], true;
        }
        Extend(executed, stmt, accept);
        executed := executed + [stmt];
      }
      st := next;
      i := i + 1;
    }
    RunFrom(st, lines, i);
    failed := false;
  }

  /** A statement flushed in the middle of the script fails. */
  lemma StopInLoop(next: Splitter, rest: seq<string>, lines: seq<string>, accept: (seq<string>, string) -> bool)
    requires Run(next, rest) == Fold(lines) && |next.statements| > 0
    requires var e := next.statements[..|next.statements| - 1];
      AllAccepted(e, accept) && !accept(e, next.statements[|e|])
    ensures Outcome(Statements(lines), accept, next.statements, false)
  {
    RunGrows(next, rest);
    FlushedFirst(lines);
    PrefixTrans(next.statements, Fold(lines).statements, Statements(lines));
    StopAtLast(Statements(lines), next.statements, accept);
  }

  /** The statements flushed inside the loop come before the leftover one. */
  lemma FlushedFirst(lines: seq<string>)
    ensures IsPrefix(Fold(lines).statements, Statements(lines))
  {
    var st := Fold(lines);
    PrefixOfAppend(st.statements, if IsBlank(st.buffer) then [] else [Statement(st.buffer)], |st.statements|);
  }

  /** The last statement executed is the first one that failed. */
  lemma StopAtLast(all: seq<string>, executed: seq<string>, accept: (seq<string>, string) -> bool)
    requires IsPrefix(executed, all) && |executed| > 0
    requires var e := executed[..|executed| - 1];
      AllAccepted(e, accept) && !accept(e, executed[|e|])
    ensures Outcome(all, accept, executed, false)
  {
    var e := executed[..|executed| - 1];
    forall i | 0 <= i < |e| ensures executed[..i] == e[..i] && executed[i] == e[i] {
    }
  }

  lemma Extend(executed: seq<string>, stmt: string, accept: (seq<string>, string) -> bool)
    requires AllAccepted(executed, accept) && accept(executed, stmt)
    ensures AllAccepted(executed + [stmt], accept)
  {
    var e := executed + [stmt];
    assert e[..|executed|] == executed;
    forall i | 0 <= i < |executed| ensures e[..i] == executed[..i] && e[i] == executed[i] {
    }
  }

  /** A failure right after a run of successes. */
  lemma StopAt(all: seq<string>, executed: seq<string>, stmt: string, accept: (seq<string>, string) -> bool)
    requires AllAccepted(executed, accept) && !accept(executed, stmt)
    requires |executed| < |all| && all[..|executed| + 1] == executed + [stmt]
    ensures Outcome(all, accept, executed + [stmt], false)
  {
    var e := executed + [stmt];
    assert e[..|executed|] == executed;
    forall i | 0 <= i < |executed| ensures e[..i] == executed[..i] && e[i] == executed[i] {
    }
  }

  lemma Finish(all: seq<string>, executed: seq<string>, accept: (seq<string>, string) -> bool)
    requires AllAccepted(executed, accept) && executed == all
    ensures Outcome(all, accept, executed, true)
  {
  }

  /** One turn of the loop: the rest of the script from slot `i` is line `i`, then the rest
      from slot `i + 1`; past the end nothing is left to run. */
  lemma RunFrom(st: Splitter, lines: seq<string>, i: nat)
    requires i <= |lines|
    ensures i == 0 ==> Run(st, lines[i..]) == Run(st, lines)
    ensures i < |lines| ==> Run(st, lines[i..]) == Run(Step(st, lines[i]), lines[i + 1..])
    ensures i == |lines| ==> Run(st, lines[i..]) == st
  {
    if i == 0 {
      assert lines[i..] == lines;
    }
    if i < |lines| {
      assert lines[i..][1..] == lines[i + 1..];
    }
  }

  /** Later lines only add statements. */
  lemma {:induction false} RunGrows(st: Splitter, lines: seq<string>)
    ensures IsPrefix(st.statements, Run(st, lines).statements)
    decreases |lines|
  {
    if |lines| > 0 {
      var next := Step(st, lines[0]);
      RunGrows(next, lines[1..]);
      assert IsPrefix(st.statements, next.statements);
      PrefixTrans(st.statements, next.statements, Run(st, lines).statements);
    }
  }
}

=== FILE: registry.dfy ===
/** The WebSocket connection manager of the server (src/websocket/manager.rs): which live
    client channels listen to which endpoint, and what a broadcast or a heartbeat sends.

    A client channel is named by a `ClientId`; two handles with the same id are the same
    channel, which is what `same_channel` compares. Whether a send succeeds (the receiving
    half still exists) is a parameter `open`. The read/write lock, logging and the async
    runtime are not modelled. */
module Registry {
  import opened Wrappers
  import opened Seqs
  import opened Strings

  /** The `new_request` payload. */
  datatype RequestData = RequestData(
    id: int,
    httpMethod: string,
    path: string,
    queryString: Option<string>,
    headers: string,
    contentType: Option<string>,
    receivedAt: string,
    ipAddress: Option<string>)

  datatype Message = NewRequest(data: RequestData) | Ping | Pong

  /** The `type` field each message is serialised with. */
  function TypeTag(m: Message): string {
    match m
    case NewRequest(_) => "new_request"
    case Ping => "ping"
    case Pong => "pong"
  }

  /** Reading a `type` field back: which variant it selects, or nothing for an unknown tag. */
  function VariantOfTag(tag: string): (r: Option<nat>)
    ensures r.Some? ==> r.value < 3
  {
    if tag == "new_request" then Some(0)
    else if tag == "ping" then Some(1)
    else if tag == "pong" then Some(2)
    else None
  }

  function VariantIndex(m: Message): nat {
    match m
    case NewRequest(_) => 0
    case Ping => 1
    case Pong => 2
  }

  /** Tags identify variants: every message's tag reads back to its own variant, and a tag
      that reads back to a variant is that variant's tag. */
  lemma TagRoundTrip(m: Message, tag: string)
    ensures VariantOfTag(TypeTag(m)) == Some(VariantIndex(m))
    ensures VariantOfTag(tag) == Some(VariantIndex(m)) ==> tag == TypeTag(m)
  {
  }

  type ClientId = nat

  /** `connections`: endpoint id to the channels registered for it, in registration order. */
  datatype Manager = Manager(connections: map<string, seq<ClientId>>)

  /** The manager never keeps an endpoint entry without clients. */
  ghost predicate Valid(m: Manager) {
    forall e :: e in m.connections ==> |m.connections[e]| > 0
  }

  function New(): (r: Manager)
    ensures Valid(r) && r.connections == map[]
  {
    Manager(map[])
  }

  function Clients(m: Manager, e: string): seq<ClientId> {
    if e in m.connections then m.connections[e] else []
  }

  /** `register_client`: the channel is appended to the endpoint's list, created if absent. */
  function Register(m: Manager, e: string, c: ClientId): (r: Manager)
    ensures Valid(m) ==> Valid(r)
    ensures Clients(r, e) == Clients(m, e) + [c]
    ensures forall e' :: e' != e ==> Clients(r, e') == Clients(m, e')
    ensures r.connections.Keys == m.connections.Keys + {e}
  {
    Manager(m.connections[e := Clients(m, e) + [c]])
  }

  /** `unregister_client`: every handle of the channel is dropped from the endpoint's list,
      and an entry left empty is removed. An unknown endpoint changes nothing. */
  function Unregister(m: Manager, e: string, c: ClientId): (r: Manager)
    ensures Valid(m) ==> Valid(r)
    ensures e !in m.connections ==> r == m
    ensures c !in Clients(r, e)
    ensures forall x :: x != c ==> (x in Clients(r, e) <==> x in Clients(m, e))
    ensures forall x :: x != c ==> Count(Clients(r, e), x) == Count(Clients(m, e), x)
    ensures IsSubseq(Clients(r, e), Clients(m, e))
    ensures forall e' :: e' != e ==> Clients(r, e') == Clients(m, e')
    ensures e in r.connections <==> exists i :: 0 <= i < |Clients(m, e)| && Clients(m, e)[i] != c
  {
    if e !in m.connections then m
    else
      var cs := m.connections[e];
      var rest := RemoveAll(cs, c);
      assert forall x :: x != c ==> Count(rest, x) == Count(cs, x) by {
        forall x ensures x != c ==> Count(rest, x) == Count(cs, x) {
          RemoveAllCount(cs, c, x);
        }
      }
      assert forall x :: x != c ==> (x in rest <==> x in cs);
      assert |rest| > 0 ==> rest[0] in cs && rest[0] != c;
      assert (exists i :: 0 <= i < |cs| && cs[i] != c) ==> |rest| > 0;
      if |rest| == 0 then Manager(m.connections - {e})
      else Manager(m.connections[e := rest])
  }

  /** `client_count`. */
  function ClientCount(m: Manager, e: string): nat {
    |Clients(m, e)|
  }

  /** `total_connections`: the lengths of all lists added up. */
  ghost function TotalConnections(m: Manager): nat {
    SumLengths(m.connections)
  }

  ghost function SumLengths(cs: map<string, seq<ClientId>>): nat
    decreases |cs|
  {
    if |cs| == 0 then 0
    else
      var e := SomeKey(cs);
      |cs[e]| + SumLengths(cs - {e})
  }

  ghost function SomeKey(cs: map<string, seq<ClientId>>): (e: string)
    requires |cs| > 0
    ensures e in cs
  {
    var e :| e in cs; e
  }

  /** The sum does not depend on which entry is taken out first. */
  lemma {:induction false} SumLengthsRemove(cs: map<string, seq<ClientId>>, e: string)
    requires e in cs
    ensures SumLengths(cs) == |cs[e]| + SumLengths(cs - {e})
    decreases |cs|
  {
    var e' := SomeKey(cs);
    if e' != e {
      assert e in cs - {e'} && e' in cs - {e};
      SumLengthsRemove(cs - {e'}, e);
      SumLengthsRemove(cs - {e}, e');
      assert cs - {e'} - {e} == cs - {e} - {e'};
    }
  }

  /** Registering adds exactly one connection. */
  lemma RegisterTotal(m: Manager, e: string, c: ClientId)
    ensures TotalConnections(Register(m, e, c)) == TotalConnections(m) + 1
  {
    var r := Register(m, e, c);
    SumLengthsRemove(r.connections, e);
    assert r.connections - {e} == m.connections - {e};
    if e in m.connections {
      SumLengthsRemove(m.connections, e);
    } else {
      assert m.connections - {e} == m.connections;
    }
  }

  /** Unregistering removes as many connections as the endpoint held handles of the channel. */
  lemma UnregisterTotal(m: Manager, e: string, c: ClientId)
    ensures TotalConnections(Unregister(m, e, c)) == TotalConnections(m) - Count(Clients(m, e), c)
    ensures Count(Clients(m, e), c) <= TotalConnections(m)
  {
    if e in m.connections {
      var r := Unregister(m, e, c);
      SumLengthsRemove(m.connections, e);
      if e in r.connections {
        SumLengthsRemove(r.connections, e);
        assert r.connections - {e} == m.connections - {e};
      } else {
        assert r.connections == m.connections - {e};
      }
    }
  }

  /** The two in-file tests: one registration and its removal, two registrations. */
  lemma RegisterScenarios(c1: ClientId, c2: ClientId)
    requires c1 != c2
    ensures ClientCount(Register(New(), "endpoint1", c1), "endpoint1") == 1
    ensures ClientCount(Unregister(Register(New(), "endpoint1", c1), "endpoint1", c1), "endpoint1") == 0
    ensures var m := Register(Register(New(), "endpoint1", c1), "endpoint1", c2);
      ClientCount(m, "endpoint1") == 2 && TotalConnections(m) == 2
  {
    var m1 := Register(New(), "endpoint1", c1);
    RegisterTotal(New(), "endpoint1", c1);
    RegisterTotal(m1, "endpoint1", c2);
    assert TotalConnections(New()) == 0;
  }

  lemma RegisterAllFromNew(regs: seq<(string, ClientId)>)
    ensures TotalConnections(RegisterAll(New(), regs)) == |regs|
  {
    RegisterAllTotal(New(), regs);
    assert TotalConnections(New()) == 0;
  }

  /** The receiving side of a client handle: whether its receiver still exists, and the
      messages queued for it so far. */
  datatype Channel = Channel(open: bool, outbox: seq<Message>)

  type Channels = map<ClientId, Channel>

  /** A handle whose channel is missing from `chs` counts as closed. */
  predicate IsOpen(chs: Channels, c: ClientId) {
    c in chs && chs[c].open
  }

  /** `IsOpen` as a test on handles, and its negation. */
  function OpenTest(chs: Channels): ClientId -> bool {
    (c: ClientId) => IsOpen(chs, c)
  }

  function ClosedTest(chs: Channels): ClientId -> bool {
    (c: ClientId) => !IsOpen(chs, c)
  }

  /** One `tx.send(msg)` per listed handle, in order: an open channel queues the message,
      a closed one is left as it is. */
  function Send(chs: Channels, cs: seq<ClientId>, msg: Message): (r: Channels)
    ensures r.Keys == chs.Keys
    ensures forall c :: c in chs ==> r[c].open == chs[c].open
    ensures forall c :: c in chs ==>
      r[c].outbox == chs[c].outbox + (if chs[c].open then Repeat(msg, Count(cs, c)) else [])
  {
    if |cs| == 0 then chs
    else
      var c := cs[0];
      var next := if IsOpen(chs, c) then chs[c := Channel(true, chs[c].outbox + [msg])] else chs;
      var r := Send(next, cs[1..], msg);
      assert forall x :: x in chs ==>
        r[x].outbox == chs[x].outbox + (if chs[x].open then Repeat(msg, Count(cs, x)) else []) by {
        forall x | x in chs
          ensures r[x].outbox == chs[x].outbox + (if chs[x].open then Repeat(msg, Count(cs, x)) else [])
        {
          if x == c && chs[x].open {
            RepeatCons(msg, Count(cs[1..], x));
          }
        }
      }
      r
  }

  lemma RepeatCons(x: Message, n: nat)
    ensures [x] + Repeat(x, n) == Repeat(x, n + 1)
  {
  }

  /** What a broadcast did: nothing when no entry exists, otherwise the channels that
      received the message, in list order, and how many sends failed. */
  datatype BroadcastOutcome = NoClients | Sent(delivered: seq<ClientId>, failedCount: nat)

  /** `broadcast`: one send per handle of the endpoint, in registration order. A send to a
      closed channel fails and is counted, and neither stops the loop nor unregisters the
      handle: the registry itself is only read. */
  function Broadcast(m: Manager, chs: Channels, e: string, msg: Message): (r: (Channels, BroadcastOutcome))
    ensures r.1.NoClients? <==> e !in m.connections
    ensures r.1.NoClients? ==> r.0 == chs
    ensures r.0.Keys == chs.Keys
    ensures forall c :: c in chs ==> r.0[c].open == chs[c].open
    ensures forall c :: c in chs ==>
      r.0[c].outbox == chs[c].outbox + (if chs[c].open then Repeat(msg, Count(Clients(m, e), c)) else [])
    ensures r.1.Sent? ==> r.1.delivered == Filter(Clients(m, e), OpenTest(chs))
    ensures r.1.Sent? ==> |r.1.delivered| + r.1.failedCount == ClientCount(m, e)
  {
    if e !in m.connections then (chs, NoClients)
    else
      var cs := m.connections[e];
      CountIfIsFilterLength(cs, OpenTest(chs));
      CountIfSplit(cs, OpenTest(chs), ClosedTest(chs));
      (Send(chs, cs, msg), Sent(Filter(cs, OpenTest(chs)), CountIf(cs, ClosedTest(chs))))
  }

  /** A client registered once on an endpoint and still open receives two successive
      broadcasts in the order they were sent; clients of other endpoints receive nothing. */
  lemma BroadcastsInOrder(m: Manager, chs: Channels, e: string, m1: Message, m2: Message, c: ClientId)
    requires c in chs
    ensures var chs2 := Broadcast(m, Broadcast(m, chs, e, m1).0, e, m2).0;
      (chs[c].open && Count(Clients(m, e), c) == 1 ==> chs2[c].outbox == chs[c].outbox + [m1, m2])
      && (c !in Clients(m, e) ==> chs2[c] == chs[c])
  {
    var chs1 := Broadcast(m, chs, e, m1).0;
    if c !in Clients(m, e) {
      CountAbsent(Clients(m, e), c);
    }
    BroadcastAt(m, chs, e, m1, c);
    BroadcastAt(m, chs1, e, m2, c);
  }

  /** What one broadcast does to one channel, for a client listed once or not at all. */
  lemma BroadcastAt(m: Manager, chs: Channels, e: string, msg: Message, c: ClientId)
    requires c in chs
    ensures var r := Broadcast(m, chs, e, msg).0;
      c in r && r[c].open == chs[c].open
      && (chs[c].open && Count(Clients(m, e), c) == 1 ==> r[c].outbox == chs[c].outbox + [msg])
      && (Count(Clients(m, e), c) == 0 ==> r[c] == chs[c])
  {
    assert Repeat(msg, 1) == [msg];
  }

  lemma {:induction false} CountAbsent(s: seq<ClientId>, x: ClientId)
    requires x !in s
    ensures Count(s, x) == 0
  {
    if |s| > 0 {
      assert x !in s[1..];
      CountAbsent(s[1..], x);
    }
  }

  /** `send_heartbeat`: a ping to every handle of every endpoint. The map's iteration
      order is the parameter `order`, any listing of the endpoints without repeats;
      `pinged` lists the handles in the order they were pinged. */
  method SendHeartbeat(m: Manager, chs: Channels, order: seq<string>)
    returns (after: Channels, sent: nat, failed: nat, pinged: seq<ClientId>)
    requires NoDuplicates(order)
    requires forall e :: e in m.connections <==> e in order
    ensures sent + failed == |pinged| == TotalConnections(m)
    ensures sent == CountIf(pinged, OpenTest(chs))
    ensures forall e, c :: e in m.connections && c in m.connections[e] ==> c in pinged
    ensures pinged == Flatten(ListsOf(m, order))
    ensures after == Send(chs, pinged, Ping)
  {
    sent, failed, pinged := PingEndpoints(m, order, OpenTest(chs));
    after := Send(chs, pinged, Ping);
  }

  /** The outer loop of the heartbeat, over the endpoints in iteration order. */
  method PingEndpoints(m: Manager, order: seq<string>, open: ClientId -> bool)
    returns (sent: nat, failed: nat, pinged: seq<ClientId>)
    requires NoDuplicates(order)
    requires forall e :: e in m.connections <==> e in order
    ensures sent + failed == |pinged| == TotalConnections(m)
    ensures sent == CountIf(pinged, open)
    ensures forall e, c :: e in m.connections && c in m.connections[e] ==> c in pinged
    ensures pinged == Flatten(ListsOf(m, order))
  {
    sent, failed, pinged := 0, 0, [];
    RemoveNoKeys(m.connections, order);
    var k := 0;
    while k < |order|
      invariant 0 <= k <= |order|
      invariant sent + failed == |pinged|
      invariant sent == CountIf(pinged, open)
      invariant |pinged| + SumLengths(RemoveKeys(m.connections, order[..k])) == TotalConnections(m)
      invariant pinged == Flatten(ListsOf(m, order[..k]))
    {
      var clients := m.connections[order[k]];
      sent, failed, pinged := PingAll(clients, open, sent, failed, pinged);
      RemoveNextKey(m.connections, order, k);
      ListsOfNext(m, order, k);
      k := k + 1;
    }
    RemoveKeysGone(m.connections, order);
    assert order[..k] == order;
    EveryClientListed(m, order);
  }

  /** Every registered handle is in the flattened lists of an order that lists every
      endpoint. */
  lemma EveryClientListed(m: Manager, order: seq<string>)
    requires forall e :: e in m.connections <==> e in order
    ensures forall e, c :: e in m.connections && c in m.connections[e] ==> c in Flatten(ListsOf(m, order))
  {
    forall e, c | e in m.connections && c in m.connections[e]
      ensures c in Flatten(ListsOf(m, order))
    {
      var j :| 0 <= j < |order| && order[j] == e;
      InFlatten(ListsOf(m, order), j, c);
    }
  }

  /** The client lists of the given endpoints, in that order. */
  function ListsOf(m: Manager, ks: seq<string>): (r: seq<seq<ClientId>>)
    ensures |r| == |ks| && forall j :: 0 <= j < |ks| ==> r[j] == Clients(m, ks[j])
  {
    seq(|ks|, j requires 0 <= j < |ks| => Clients(m, ks[j]))
  }

  lemma ListsOfNext(m: Manager, order: seq<string>, k: nat)
    requires k < |order|
    ensures Flatten(ListsOf(m, order[..k + 1])) == Flatten(ListsOf(m, order[..k])) + Clients(m, order[k])
  {
    assert ListsOf(m, order[..k + 1]) == ListsOf(m, order[..k]) + [Clients(m, order[k])];
    FlattenAppend(ListsOf(m, order[..k]), Clients(m, order[k]));
  }

  /** Registering a sequence of (endpoint, channel) pairs one after another. */
  function RegisterAll(m: Manager, regs: seq<(string, ClientId)>): Manager
    decreases |regs|
  {
    if |regs| == 0 then m else RegisterAll(Register(m, regs[0].0, regs[0].1), regs[1..])
  }

  /** n registrations, on any endpoints in any order, give n connections. */
  lemma {:induction false} RegisterAllTotal(m: Manager, regs: seq<(string, ClientId)>)
    ensures TotalConnections(RegisterAll(m, regs)) == TotalConnections(m) + |regs|
    ensures Valid(m) ==> Valid(RegisterAll(m, regs))
    decreases |regs|
  {
    if |regs| > 0 {
      RegisterTotal(m, regs[0].0, regs[0].1);
      RegisterAllTotal(Register(m, regs[0].0, regs[0].1), regs[1..]);
    }
  }

  lemma RemoveNoKeys(cs: map<string, seq<ClientId>>, order: seq<string>)
    ensures SumLengths(RemoveKeys(cs, order[..0])) == SumLengths(cs)
  {
    assert RemoveKeys(cs, order[..0]) == cs;
  }

  /** The inner loop of the heartbeat: one ping per handle of one endpoint. */
  method PingAll(clients: seq<ClientId>, open: ClientId -> bool, sent0: nat, failed0: nat, pinged0: seq<ClientId>)
    returns (sent: nat, failed: nat, pinged: seq<ClientId>)
    requires sent0 + failed0 == |pinged0| && sent0 == CountIf(pinged0, open)
    ensures pinged == pinged0 + clients
    ensures sent + failed == |pinged| && sent == CountIf(pinged, open)
  {
    sent, failed, pinged := sent0, failed0, pinged0;
    var i := 0;
    while i < |clients|
      invariant 0 <= i <= |clients|
      invariant pinged == pinged0 + clients[..i]
      invariant sent + failed == |pinged|
      invariant sent == CountIf(pinged, open)
    {
      CountIfConcat(pinged, [clients[i]], open);
      if open(clients[i]) {
        sent := sent + 1;
      } else {
        failed := failed + 1;
      }
      pinged := pinged + [clients[i]];
      assert clients[..i + 1] == clients[..i] + [clients[i]];
      i := i + 1;
    }
    assert clients[..i] == clients;
  }

  /** The map without the listed keys. */
  ghost function RemoveKeys(cs: map<string, seq<ClientId>>, ks: seq<string>): map<string, seq<ClientId>>
  {
    map e | e in cs && e !in ks :: cs[e]
  }

  lemma RemoveNextKey(cs: map<string, seq<ClientId>>, order: seq<string>, k: nat)
    requires NoDuplicates(order) && k < |order| && order[k] in cs
    ensures SumLengths(RemoveKeys(cs, order[..k]))
         == |cs[order[k]]| + SumLengths(RemoveKeys(cs, order[..k + 1]))
  {
    var a := RemoveKeys(cs, order[..k]);
    assert order[k] !in order[..k] by {
      forall j | 0 <= j < k ensures order[..k][j] != order[k] {
        assert order[..k][j] == order[j];
      }
    }
    assert order[k] in a;
    SumLengthsRemove(a, order[k]);
    assert order[..k + 1] == order[..k] + [order[k]];
    assert a - {order[k]} == RemoveKeys(cs, order[..k + 1]);
  }

  lemma RemoveKeysGone(cs: map<string, seq<ClientId>>, order: seq<string>)
    requires forall e :: e in cs ==> e in order
    ensures SumLengths(RemoveKeys(cs, order[..|order|])) == 0
  {
    assert order[..|order|] == order;
    assert RemoveKeys(cs, order) == map[];
  }
}

=== FILE: relative_time.dfy ===
/** The relative time label (frontend/src/components/ui/RelativeTimestamp.tsx): the age in
    whole seconds is put into one of four buckets. Reading the clock and parsing the date
    are left to the caller, which passes both instants in milliseconds. */
module RelativeTime {
  import opened Strings

  datatype Unit = Seconds | Minutes | Hours | Days

  function UnitSuffix(u: Unit): string {
    match u
    case Seconds => "s ago"
    case Minutes => "m ago"
    case Hours => "h ago"
    case Days => "d ago"
  }

  function UnitLength(u: Unit): nat {
    match u
    case Seconds => 1
    case Minutes => 60
    case Hours => 3600
    case Days => 86400
  }

  /** `Math.floor((now - then) / 1000)`: the division rounds towards minus infinity, as
      Dafny's division by a positive number does. */
  function AgeSeconds(nowMs: int, thenMs: int): int {
    (nowMs - thenMs) / 1000
  }

  /** The bucket of an age and the count shown in it. */
  function Bucket(diff: int): (r: (Unit, int))
    ensures r.0 == Seconds <==> diff < 60
    ensures r.0 == Minutes <==> 60 <= diff < 3600
    ensures r.0 == Hours <==> 3600 <= diff < 86400
    ensures r.0 == Days <==> 86400 <= diff
  {
    if diff < 60 then (Seconds, diff)
    else if diff < 3600 then (Minutes, diff / 60)
    else if diff < 86400 then (Hours, diff / 3600)
    else (Days, diff / 86400)
  }

  /** The count is the number of whole units in the age: below 60 the age itself (negative
      for a date in the future); otherwise at least 1, below the next unit's size, and the
      age lies in [count·unit, (count+1)·unit). */
  lemma BucketCount(diff: int)
    ensures var (u, n) := Bucket(diff);
      (u == Seconds ==> n == diff)
      && (u != Seconds ==> 1 <= n && n * UnitLength(u) <= diff < (n + 1) * UnitLength(u))
      && (u == Minutes ==> n < 60) && (u == Hours ==> n < 24)
  {
  }

  /** `updateTime`'s label. */
  function Label(diff: int): string {
    var (u, n) := Bucket(diff);
    IntToString(n) + UnitSuffix(u)
  }

  /** Examples at the bucket edges: 59 seconds, one minute, one hour, one day, and a date
      two seconds ahead. */
  lemma LabelEdges()
    ensures Label(59) == "59s ago" && Label(60) == "1m ago" && Label(3599) == "59m ago"
    ensures Label(3600) == "1h ago" && Label(86400) == "1d ago" && Label(-2) == "-2s ago"
  {
    assert NatToString(59) == "59" by { assert NatToString(5) == "5"; }
    assert NatToString(1) == "1";
    assert NatToString(2) == "2";
  }
}

=== FILE: request_detail.dfy ===
/** The request dialog (frontend/src/components/RequestDetail.tsx): the badge variant of a
    method, how the body is classified and formatted, where the content type is read and
    the copy-all text of the headers. `JSON.parse` followed by two-space
    `JSON.stringify` is the parameter `pretty`: the printed text, or `None` when the body
    does not parse. */
module RequestDetail {
  import opened Wrappers
  import opened Strings
  import opened Assoc
  import opened Export

  /** The `Badge` variants. */
  datatype Variant = Default | Secondary | Destructive | Outline

  /** `getMethodColor`, on the upper-cased method. The request list has the same table. */
  function MethodVariant(verb: string): (v: Variant)
    ensures v == Default <==> Upper(verb) == "GET"
    ensures v == Secondary <==> Upper(verb) == "POST"
    ensures v == Destructive <==> Upper(verb) == "DELETE"
    ensures v == Outline <==> Upper(verb) !in {"GET", "POST", "DELETE"}
  {
    match Upper(verb)
    case "GET" => Default
    case "POST" => Secondary
    case "PUT" => Outline
    case "PATCH" => Outline
    case "DELETE" => Destructive
    case _ => Outline
  }

  /** The case of the method never matters. */
  lemma MethodVariantIgnoresCase(verb: string)
    ensures MethodVariant(Lower(verb)) == MethodVariant(verb)
  {
    UpperOfLower(verb);
  }

  datatype Language = Json | Xml | Text

  /** A formatted body and the language it is highlighted as. */
  datatype Shown = Shown(formatted: string, language: Language)

  /** `tryFormatJson`. */
  function TryFormatJson(text: string, pretty: string -> Option<string>): (r: Shown)
    ensures r.language == Json <==> pretty(text).Some?
    ensures r.language == Json ==> r.formatted == pretty(text).value
    ensures r.language != Json ==> r == Shown(text, Text)
  {
    match pretty(text)
    case Some(p) => Shown(p, Json)
    case None => Shown(text, Text)
  }

  /** What `tryFormatXml` looks for: the trimmed text is wrapped in angle brackets. */
  predicate LooksLikeXml(text: string) {
    StartsWith(Trim(text), "<") && EndsWith(Trim(text), ">")
  }

  /** `tryFormatXml`: a label only; the text is never changed. */
  function TryFormatXml(text: string): (r: Shown)
    ensures r.formatted == text
    ensures r.language == Xml <==> LooksLikeXml(text)
    ensures r.language != Json
  {
    if LooksLikeXml(text) then Shown(text, Xml) else Shown(text, Text)
  }

  /** The trimmed body opens like a JSON object or array. */
  predicate OpensLikeJson(body: string) {
    StartsWith(Trim(body), "{") || StartsWith(Trim(body), "[")
  }

  /** `detectContentType`: an empty body shows nothing; a content type mentioning
      `application/json` (case-sensitively) decides for JSON; one mentioning
      `application/xml` or `text/xml` for the XML check; otherwise JSON is tried when the body
      opens like it, then the XML check, then plain text. */
  function DetectContentType(contentType: Option<string>, body: Option<string>, pretty: string -> Option<string>): (r: Shown)
    ensures body.None? || body.value == "" ==> r == Shown("", Text)
    ensures r.language != Json ==> r.formatted == body.GetOr("")
  {
    if body.None? || body.value == "" then Shown("", Text)
    else
      var b := body.value;
      if contentType.Some? && Contains(contentType.value, "application/json") then TryFormatJson(b, pretty)
      else if contentType.Some? && (Contains(contentType.value, "application/xml") || Contains(contentType.value, "text/xml")) then
        TryFormatXml(b)
      else if OpensLikeJson(b) && pretty(b).Some? then TryFormatJson(b, pretty)
      else if LooksLikeXml(b) then TryFormatXml(b)
      else Shown(b, Text)
  }

  predicate DeclaresJson(contentType: Option<string>) {
    contentType.Some? && Contains(contentType.value, "application/json")
  }

  predicate DeclaresXml(contentType: Option<string>) {
    contentType.Some? && (Contains(contentType.value, "application/xml") || Contains(contentType.value, "text/xml"))
  }

  /** When a body is shown as JSON, and when as XML, in terms of the three paths. */
  lemma DetectMeaning(contentType: Option<string>, b: string, pretty: string -> Option<string>)
    requires b != ""
    ensures DetectContentType(contentType, Some(b), pretty).language == Json <==>
      pretty(b).Some? && (DeclaresJson(contentType) || (!DeclaresXml(contentType) && OpensLikeJson(b)))
    ensures DetectContentType(contentType, Some(b), pretty).language == Xml <==>
      !DeclaresJson(contentType) && LooksLikeXml(b)
      && (DeclaresXml(contentType) || !OpensLikeJson(b) || pretty(b).None?)
  {
  }

  /** A declared JSON type is obeyed even for a body that does not open like JSON, and only
      when written in lower case: the same parseable body is plain text under the upper-case
      spelling. */
  lemma DeclaredTypeIsCaseSensitive(pretty: string -> Option<string>)
    requires pretty("123").Some?
    ensures DetectContentType(Some("application/json"), Some("123"), pretty).language == Json
    ensures DetectContentType(Some("APPLICATION/JSON"), Some("123"), pretty).language == Text
  {
    var up := "APPLICATION/JSON";
    assert StartsWith("application/json"[0..], "application/json");
    MissingCharNotContained(up, "application/json", 0);
    MissingCharNotContained(up, "application/xml", 0);
    MissingCharNotContained(up, "text/xml", 0);
    TrimOfTrimmed("123");
  }

  /** `headers['content-type'] || headers['Content-Type']`: the lower-case name wins unless
      its value is missing or empty. */
  function ContentTypeOf(headers: Pairs<string, string>): (r: Option<string>)
    ensures Lookup(headers, "content-type").Some? && Lookup(headers, "content-type").value != "" ==>
      r == Lookup(headers, "content-type")
    ensures !(Lookup(headers, "content-type").Some? && Lookup(headers, "content-type").value != "") ==>
      r == Lookup(headers, "Content-Type")
  {
    match Lookup(headers, "content-type")
    case Some(v) => if v != "" then Some(v) else Lookup(headers, "Content-Type")
    case None => Lookup(headers, "Content-Type")
  }

  /** `allHeadersText`: the `name: value` lines joined by newlines. */
  function HeadersText(headers: Pairs<string, string>): string {
    Join(HeaderLines(headers), "\n")
  }

  /** With no newline in any name or value, the copied text splits back into one
      `name: value` line per header, in order. */
  lemma HeadersTextLines(headers: Pairs<string, string>)
    requires |headers| >= 1
    requires forall i :: 0 <= i < |headers| ==> OneLine(headers[i].0) && OneLine(headers[i].1)
    ensures Split(HeadersText(headers), '\n') == HeaderLines(headers)
  {
    HeaderLinesFree(headers);
    SplitJoin(HeaderLines(headers), '\n');
  }
}

=== FILE: request_list.dfy ===
/** The request table (frontend/src/components/RequestList.tsx): the expanded-row set, the
    "new" flags and banner, and the empty state. Its method badge uses the same table as the
    request dialog, `RequestDetail.MethodVariant`. Dates, byte sizes and the dialog itself
    are not modelled. */
module RequestList {
  import opened Wrappers
  import opened Strings
  import opened FrontendTypes
  import opened RequestDetail
  import opened Filters
  import opened Seqs

  /** `toggleRow`: an id leaves the expanded set if it is there and joins it otherwise. */
  function ToggleRow(expanded: set<string>, requestId: string): (r: set<string>)
    ensures requestId in r <==> requestId !in expanded
    ensures forall x :: x != requestId ==> (x in r <==> x in expanded)
  {
    SetToggle(expanded, requestId)
  }

  /** Toggling a row twice restores the set. */
  lemma ToggleRowTwice(expanded: set<string>, requestId: string)
    ensures ToggleRow(ToggleRow(expanded, requestId), requestId) == expanded
  {
  }

  /** The banner over the table, if any. */
  function Banner(newCount: int): (text: Option<string>)
    ensures text.Some? <==> newCount > 0
  {
    if newCount > 0 then
      Some(NatToString(newCount) + " new request" + (if newCount != 1 then "s" else "") + " received")
    else None
  }

  /** The banner says "requests" exactly when the count is not 1. */
  lemma BannerPlural(newCount: int)
    requires newCount > 0
    ensures newCount == 1 ==> Banner(newCount) == Some("1 new request received")
    ensures newCount != 1 ==> EndsWith(Banner(newCount).value, "requests received")
  {
    var a := NatToString(newCount);
    if newCount != 1 {
      assert Banner(newCount).value == a + " new request" + "s received";
      assert " new request" + "s received" == " new " + "requests received";
      SeqAssoc(a, " new request", "s received");
      SeqAssoc(a, " new ", "requests received");
      EndsWithConcat(a + " new ", "requests received");
    } else {
      assert a == [DigitChar(1)] && DigitChar(1) == '1';
      assert a == "1";
      assert Banner(newCount).value == "1" + " new request" + "" + " received";
      assert "1" + " new request" + "" + " received" == "1 new request received";
    }
  }

  datatype RowView = RowView(id: string, variant: Variant, isNew: bool, expanded: bool, headerCount: nat)

  /** What the component renders: only the empty state for no requests, otherwise the
      banner and one row per request, in order. A row's header count is
      `Object.keys(headers).length`, which is the length of the list because a request's
      header names are distinct. */
  datatype ListView = EmptyState | Table(banner: Option<string>, rows: seq<RowView>)

  function Render(requests: seq<Request>, expanded: set<string>, newCount: int): (v: ListView)
    ensures v.EmptyState? <==> |requests| == 0
    ensures v.Table? ==> v.banner == Banner(newCount) && |v.rows| == |requests|
    ensures v.Table? ==> forall i :: 0 <= i < |requests| ==>
      v.rows[i].id == requests[i].id && v.rows[i].variant == MethodVariant(requests[i].httpMethod)
      && (v.rows[i].isNew <==> i < newCount) && (v.rows[i].expanded <==> requests[i].id in expanded)
      && v.rows[i].headerCount == |requests[i].headers|
  {
    if |requests| == 0 then EmptyState
    else Table(Banner(newCount), seq(|requests|, i requires 0 <= i < |requests| =>
      RowView(requests[i].id, MethodVariant(requests[i].httpMethod), i < newCount,
        requests[i].id in expanded, |requests[i].headers|)))
  }
}

=== FILE: request_store.dfy ===
/** The request list of an endpoint as the `useRequests` hook keeps it
    (frontend/src/hooks/useRequests.ts). Each asynchronous API call is replaced by its
    outcome, a parameter: the data on success or the error message on failure. React's
    batched state updates are applied in order; `console.error` is not modelled. */
module RequestStore {
  import opened Wrappers
  import opened Seqs
  import opened FrontendTypes

  datatype ApiResult<T> = Success(value: T) | Failure(message: string)

  datatype State = State(requests: seq<WebhookRequest>, loading: bool, error: Option<string>)

  /** The state after a call, and the error it rethrows, if any. */
  datatype Outcome = Outcome(state: State, thrown: Option<string>)

  /** `!endpointId`: null and the empty string both count as "no endpoint". */
  predicate NoEndpoint(endpointId: Option<string>) {
    endpointId.None? || endpointId.value == ""
  }

  const Initial := State([], false, None)

  /** `loadRequests`: without an endpoint the list is emptied and nothing is fetched; with
      one, a success replaces the list wholesale and a failure keeps it and records the
      error. Loading ends either way. */
  function Load(st: State, endpointId: Option<string>, result: ApiResult<seq<WebhookRequest>>): (r: State)
    ensures NoEndpoint(endpointId) ==> r == st.(requests := [])
    ensures !NoEndpoint(endpointId) && result.Success? ==> r == State(result.value, false, None)
    ensures !NoEndpoint(endpointId) && result.Failure? ==>
      r == State(st.requests, false, Some(result.message))
  {
    if NoEndpoint(endpointId) then st.(requests := [])
    else
      match result
      case Success(data) => State(data, false, None)
      case Failure(m) => State(st.requests, false, Some(m))
  }

  /** Without an endpoint the fetch outcome plays no part: nothing was fetched. */
  lemma LoadWithoutEndpoint(st: State, endpointId: Option<string>, a: ApiResult<seq<WebhookRequest>>, b: ApiResult<seq<WebhookRequest>>)
    requires NoEndpoint(endpointId)
    ensures Load(st, endpointId, a) == Load(st, endpointId, b)
    ensures Load(st, endpointId, a).requests == []
  {
  }

  /** `clearRequests`: the list is emptied only once the server has cleared it; on failure
      the list stays, the error is recorded and rethrown. */
  function Clear(st: State, endpointId: Option<string>, result: ApiResult<()>): (r: Outcome)
    ensures NoEndpoint(endpointId) ==> r == Outcome(st, None)
    ensures !NoEndpoint(endpointId) && result.Success? ==> r == Outcome(st.(requests := [], error := None), None)
    ensures !NoEndpoint(endpointId) && result.Failure? ==>
      r.state.requests == st.requests && r.state.error == Some(result.message) && r.thrown == r.state.error
  {
    if NoEndpoint(endpointId) then Outcome(st, None)
    else
      match result
      case Success(_) => Outcome(st.(requests := [], error := None), None)
      case Failure(m) => Outcome(st.(error := Some(m)), Some(m))
  }

  function WithoutId(rs: seq<WebhookRequest>, requestId: int): seq<WebhookRequest> {
    Filter(rs, (r: WebhookRequest) => r.id != requestId)
  }

  /** `deleteRequest`: once the server confirms, every entry with that id is dropped and the
      others keep their order; on failure nothing but the error changes and it is rethrown. */
  function Delete(st: State, endpointId: Option<string>, requestId: int, result: ApiResult<()>): (r: Outcome)
    ensures NoEndpoint(endpointId) ==> r == Outcome(st, None)
    ensures !NoEndpoint(endpointId) && result.Success? ==>
      r.thrown.None? && r.state.error.None? &&
      (forall i :: 0 <= i < |r.state.requests| ==> r.state.requests[i].id != requestId) &&
      (forall i :: 0 <= i < |st.requests| && st.requests[i].id != requestId ==> st.requests[i] in r.state.requests) &&
      IsSubseq(r.state.requests, st.requests) &&
      (forall x :: Count(r.state.requests, x) == (if x.id != requestId then Count(st.requests, x) else 0))
    ensures !NoEndpoint(endpointId) && result.Failure? ==>
      r.state.requests == st.requests && r.state.error == Some(result.message) && r.thrown == r.state.error
  {
    if NoEndpoint(endpointId) then Outcome(st, None)
    else
      match result
      case Success(_) =>
        assert forall x :: Count(WithoutId(st.requests, requestId), x) == (if x.id != requestId then Count(st.requests, x) else 0) by {
          forall x ensures Count(WithoutId(st.requests, requestId), x) == (if x.id != requestId then Count(st.requests, x) else 0) {
            FilterCount(st.requests, (r: WebhookRequest) => r.id != requestId, x);
          }
        }
        Outcome(st.(requests := WithoutId(st.requests, requestId), error := None), None)
      case Failure(m) => Outcome(st.(error := Some(m)), Some(m))
  }

  /** Deleting an id nobody has leaves the list as it was. */
  lemma DeleteAbsent(st: State, endpointId: Option<string>, requestId: int)
    requires !NoEndpoint(endpointId)
    requires forall i :: 0 <= i < |st.requests| ==> st.requests[i].id != requestId
    ensures Delete(st, endpointId, requestId, Success(())).state.requests == st.requests
  {
    FilterAll(st.requests, (r: WebhookRequest) => r.id != requestId);
  }

  /** `addRequest`: the pushed request goes in front, with no check for an existing copy. */
  function Add(st: State, request: WebhookRequest): (r: State)
    ensures r.requests == [request] + st.requests
    ensures r.loading == st.loading && r.error == st.error
  {
    st.(requests := [request] + st.requests)
  }

  /** A request delivered twice is listed twice. */
  lemma AddNeverDedups(st: State, request: WebhookRequest)
    ensures Count(Add(Add(st, request), request).requests, request) == Count(st.requests, request) + 2
  {
    var a := Add(st, request).requests;
    assert a[1..] == st.requests;
    assert ([request] + a)[1..] == a;
  }

  /** Adding a request with a fresh id and then deleting that id restores the list. */
  lemma AddThenDelete(st: State, endpointId: Option<string>, request: WebhookRequest)
    requires !NoEndpoint(endpointId)
    requires forall i :: 0 <= i < |st.requests| ==> st.requests[i].id != request.id
    ensures Delete(Add(st, request), endpointId, request.id, Success(())).state.requests == st.requests
  {
    var p := (r: WebhookRequest) => r.id != request.id;
    FilterConcat([request], st.requests, p);
    FilterAll(st.requests, p);
    assert Filter([request], p) == [];
  }
}

=== FILE: requests_api.dfy ===
/** The management API handlers of the server (src/handlers/api.rs): the paginated,
    method-filtered request listing, endpoint deletion and the custom-response update,
    over an in-memory picture of the two database tables. */
module RequestsApi {
  import opened Wrappers
  import opened Strings
  import opened Seqs
  import opened Bytes

  /** A row of the `endpoints` table. */
  datatype Endpoint = Endpoint(
    id: string,
    createdAt: string,
    customResponseEnabled: bool,
    responseStatus: int,
    responseHeaders: Option<string>,
    responseBody: Option<string>,
    requestCount: int)

  /** A row of the `requests` table. */
  datatype Request = Request(
    id: int,
    endpointId: string,
    httpMethod: string,
    path: string,
    queryString: Option<string>,
    headers: string,
    body: Option<seq<byte>>,
    contentType: Option<string>,
    receivedAt: string,
    ipAddress: Option<string>)

  /** The database: endpoints by id, and the request rows listed in the order
      `ORDER BY received_at DESC` returns them. */
  datatype Db = Db(endpoints: map<string, Endpoint>, requests: seq<Request>)

  datatype QueryParams = QueryParams(page: int, limit: int, methods: Option<string>)

  datatype ListResponse = ListResponse(requests: seq<Request>, total: int, page: int, limit: int)

  /** A handler's answer: a body with 200, or a bare status code. */
  datatype Answer<T> = Ok(value: T) | Status(code: int)

  const MaxLimit := 100

  function EffectivePage(page: int): (r: int)
    ensures r >= 1 && (page >= 1 ==> r == page) && (page < 1 ==> r == 1)
  {
    if page < 1 then 1 else page
  }

  /** `limit.min(100).max(1)`. */
  function EffectiveLimit(limit: int): (r: int)
    ensures 1 <= r <= MaxLimit
    ensures 1 <= limit <= MaxLimit ==> r == limit
    ensures limit > MaxLimit ==> r == MaxLimit
    ensures limit < 1 ==> r == 1
  {
    var capped := if limit < MaxLimit then limit else MaxLimit;
    if capped < 1 then 1 else capped
  }

  /** The rows skipped before the page starts. */
  function Offset(page: int, limit: int): (r: nat)
    requires page >= 1 && limit >= 1
    ensures r == (page - 1) * limit
  {
    (page - 1) * limit
  }

  /** The `method` parameter split on ',' with each piece trimmed; empty pieces stay. */
  function MethodList(methods: string): (r: seq<string>)
    ensures |r| == CountChar(methods, ',') + 1 == |Split(methods, ',')|
    ensures forall i :: 0 <= i < |r| ==> r[i] == Trim(Split(methods, ',')[i])
  {
    SplitCount(methods, ',');
    var pieces := Split(methods, ',');
    seq(|pieces|, i requires 0 <= i < |pieces| => Trim(pieces[i]))
  }

  /** Listing already-trimmed method names joined with "," gives those names back. */
  lemma MethodListOfJoin(ms: seq<string>)
    requires |ms| >= 1
    requires forall i :: 0 <= i < |ms| ==> Free(ms[i], ',')
    requires forall i :: 0 <= i < |ms| ==> ms[i] == [] || (!IsSpace(ms[i][0]) && !IsSpace(ms[i][|ms[i]| - 1]))
    ensures MethodList(Join(ms, ",")) == ms
  {
    SplitJoin(ms, ',');
    var r := MethodList(Join(ms, ","));
    forall i | 0 <= i < |ms| ensures r[i] == ms[i] {
      TrimOfTrimmed(ms[i]);
    }
  }

  /** The text on each side of a comma is listed on its own. */
  lemma MethodListConcat(a: string, b: string)
    ensures MethodList(a + "," + b) == MethodList(a) + MethodList(b)
  {
    var pa, pb := Split(a, ','), Split(b, ',');
    assert Split(a + "," + b, ',') == pa + pb by { SplitConcat(a, b, ','); }
    var r, ra, rb := MethodList(a + "," + b), MethodList(a), MethodList(b);
    assert |r| == |ra| + |rb|;
    forall i | 0 <= i < |r| ensures r[i] == (ra + rb)[i] {
      if i < |ra| {
        assert (pa + pb)[i] == pa[i];
      } else {
        assert (pa + pb)[i] == pb[i - |ra|];
      }
    }
  }

  /** One "?" per listed method, joined with ",". */
  function Placeholders(n: nat): string
  {
    Join(Repeat("?", n), ",")
  }

  /** The placeholder list has exactly `n` question marks, `n - 1` commas and nothing else. */
  lemma {:induction false} PlaceholdersShape(n: nat)
    requires n >= 1
    ensures CountChar(Placeholders(n), '?') == n
    ensures CountChar(Placeholders(n), ',') == n - 1
    ensures |Placeholders(n)| == 2 * n - 1
  {
    if n > 1 {
      PlaceholdersShape(n - 1);
      assert Repeat("?", n) == Repeat("?", n - 1) + ["?"];
      JoinAppend(Repeat("?", n - 1), "?", ",");
      var p := Placeholders(n - 1);
      assert Placeholders(n) == p + "," + "?";
      CountCharConcat(p + ",", "?", '?');
      CountCharConcat(p, ",", '?');
      CountCharConcat(p + ",", "?", ',');
      CountCharConcat(p, ",", ',');
    } else {
      assert Repeat("?", 1) == ["?"];
    }
  }

  /** Which rows the WHERE clause selects. */
  predicate Matches(r: Request, e: string, methods: Option<string>) {
    r.endpointId == e && (methods.None? || r.httpMethod in MethodList(methods.value))
  }

  function MatchTest(e: string, methods: Option<string>): Request -> bool {
    r => Matches(r, e, methods)
  }

  /** The rows `s[from..from + count]`, cut short at the end of `s`: `LIMIT count OFFSET from`. */
  function Window<T>(s: seq<T>, from: nat, count: nat): (r: seq<T>)
    ensures |r| == if from >= |s| then 0 else if |s| - from < count then |s| - from else count
    ensures from < |s| ==> r == s[from..from + |r|]
  {
    if from >= |s| then []
    else if |s| - from < count then s[from..]
    else s[from..from + count]
  }

  /** `get_endpoint_requests`. */
  function GetEndpointRequests(db: Db, e: string, params: QueryParams): (r: Answer<ListResponse>)
    ensures e !in db.endpoints <==> r == Status(404)
    ensures r.Ok? ==>
      var page := EffectivePage(params.page);
      var limit := EffectiveLimit(params.limit);
      var selected := Filter(db.requests, MatchTest(e, params.methods));
      && r.value.page == page && r.value.limit == limit
      && r.value.total == |selected|
      && r.value.requests == Window(selected, Offset(page, limit), limit)
  {
    if e !in db.endpoints then Status(404)
    else
      var page := EffectivePage(params.page);
      var limit := EffectiveLimit(params.limit);
      var selected := Filter(db.requests, MatchTest(e, params.methods));
      Ok(ListResponse(Window(selected, Offset(page, limit), limit), |selected|, page, limit))
  }

  /** A page holds `min(limit, max(0, total - offset))` rows, each of the endpoint and, with
      a filter, of one of the listed methods; the total is the same whichever page is asked. */
  lemma ListingFacts(db: Db, e: string, params: QueryParams, otherPage: int)
    requires e in db.endpoints
    ensures var r := GetEndpointRequests(db, e, params).value;
      var offset := Offset(r.page, r.limit);
      && |r.requests| == (if r.total - offset < 0 then 0 else if r.total - offset < r.limit then r.total - offset else r.limit)
      && (forall i :: 0 <= i < |r.requests| ==> r.requests[i].endpointId == e)
      && (params.methods.Some? ==> forall i :: 0 <= i < |r.requests| ==>
            r.requests[i].httpMethod in MethodList(params.methods.value))
      && r.total == GetEndpointRequests(db, e, params.(page := otherPage)).value.total
  {
    var r := GetEndpointRequests(db, e, params).value;
    var selected := Filter(db.requests, MatchTest(e, params.methods));
    forall i | 0 <= i < |r.requests|
      ensures Matches(r.requests[i], e, params.methods)
    {
      var offset := Offset(r.page, r.limit);
      assert r.requests[i] == selected[offset + i];
      assert MatchTest(e, params.methods)(selected[offset + i]);
    }
  }

  /** Filtering by a method no row carries gives an empty page and a total of 0. */
  lemma UnusedMethod(db: Db, e: string, params: QueryParams, m: string)
    requires e in db.endpoints && params.methods == Some(m)
    requires forall i :: 0 <= i < |db.requests| ==> db.requests[i].httpMethod !in MethodList(m)
    ensures GetEndpointRequests(db, e, params).value.total == 0
    ensures GetEndpointRequests(db, e, params).value.requests == []
  {
    FilterNone(db.requests, MatchTest(e, params.methods));
  }

  /** Consecutive pages partition the selected rows: page p + 1 starts where page p ends. */
  lemma PagesAreConsecutive(db: Db, e: string, params: QueryParams)
    requires e in db.endpoints && params.page >= 1 && 1 <= params.limit <= MaxLimit
    ensures var p1 := GetEndpointRequests(db, e, params).value;
      var p2 := GetEndpointRequests(db, e, params.(page := params.page + 1)).value;
      var selected := Filter(db.requests, MatchTest(e, params.methods));
      |p1.requests| == params.limit ==>
        p1.requests + p2.requests == Window(selected, (params.page - 1) * params.limit, 2 * params.limit)
  {
    var selected := Filter(db.requests, MatchTest(e, params.methods));
    var limit := params.limit;
    var offset := Offset(params.page, limit);
    assert Offset(params.page + 1, limit) == offset + limit by {
      assert params.page * limit == (params.page - 1) * limit + limit;
    }
    var p1 := GetEndpointRequests(db, e, params).value;
    var p2 := GetEndpointRequests(db, e, params.(page := params.page + 1)).value;
    assert p1.requests == Window(selected, offset, limit);
    assert p2.requests == Window(selected, offset + limit, limit);
    if |p1.requests| == limit {
      WindowAdjacent(selected, offset, limit);
    }
  }

  /** Two windows of `n` rows side by side make one window of `2n` rows, when the first
      one is full. */
  lemma WindowAdjacent<T>(s: seq<T>, from: nat, n: nat)
    requires |Window(s, from, n)| == n
    ensures Window(s, from, n) + Window(s, from + n, n) == Window(s, from, 2 * n)
  {
    if n > 0 {
      assert s[from..from + n] + Window(s, from + n, n) == Window(s, from, 2 * n);
    }
  }

  /** `delete_endpoint`: 404 for an unknown id, otherwise the endpoint row is removed and 204
      is answered. */
  function DeleteEndpoint(db: Db, e: string): (r: (Db, int))
    ensures e !in db.endpoints <==> r.1 == 404
    ensures e !in db.endpoints ==> r.0 == db
    ensures e in db.endpoints ==> r.1 == 204 && r.0.endpoints == db.endpoints - {e}
    ensures r.0.requests == db.requests
  {
    if e !in db.endpoints then (db, 404)
    else (db.(endpoints := db.endpoints - {e}), 204)
  }

  /** After a deletion the endpoint's requests can no longer be listed. */
  lemma DeleteThenList(db: Db, e: string, params: QueryParams)
    ensures GetEndpointRequests(DeleteEndpoint(db, e).0, e, params) == Status(404)
  {
  }

  datatype ResponseConfig = ResponseConfig(
    enabled: bool,
    status: int,
    headers: Option<string>,
    body: Option<string>)

  /** A rejected update: status code and message. */
  datatype UpdateError = UpdateError(code: int, message: string)

  /** `update_endpoint_response`. Whether a text is valid JSON is decided by `isJson`
      (`serde_json::from_str`). The checks run in order: status range, headers JSON, then
      the endpoint's existence. */
  function UpdateEndpointResponse(db: Db, e: string, config: ResponseConfig, isJson: string -> bool)
    : (r: Result2)
    ensures !(100 <= config.status <= 599) <==>
      r == Failed(UpdateError(400, "Status code must be between 100 and 599"))
    ensures 100 <= config.status <= 599 && config.headers.Some? && !isJson(config.headers.value) <==>
      r == Failed(UpdateError(400, "Headers must be valid JSON"))
    ensures r == Failed(UpdateError(404, "Endpoint not found")) <==>
      100 <= config.status <= 599 && (config.headers.None? || isJson(config.headers.value))
      && e !in db.endpoints
    ensures r.Updated? <==>
      100 <= config.status <= 599 && (config.headers.None? || isJson(config.headers.value))
      && e in db.endpoints
    ensures r.Updated? ==>
      && r.db.requests == db.requests
      && r.db.endpoints.Keys == db.endpoints.Keys
      && (forall e' :: e' in db.endpoints && e' != e ==> r.db.endpoints[e'] == db.endpoints[e'])
      && (var row := r.db.endpoints[e];
          row.customResponseEnabled == config.enabled && row.responseStatus == config.status
          && row.responseHeaders == config.headers && row.responseBody == config.body
          && row.id == db.endpoints[e].id && row.createdAt == db.endpoints[e].createdAt
          && row.requestCount == db.endpoints[e].requestCount)
  {
    if !(100 <= config.status <= 599) then
      Failed(UpdateError(400, "Status code must be between 100 and 599"))
    else if config.headers.Some? && !isJson(config.headers.value) then
      Failed(UpdateError(400, "Headers must be valid JSON"))
    else if e !in db.endpoints then
      Failed(UpdateError(404, "Endpoint not found"))
    else
      var old_ := db.endpoints[e];
      var row := old_.(customResponseEnabled := config.enabled, responseStatus := config.status,
                       responseHeaders := config.headers, responseBody := config.body);
      Updated(db.(endpoints := db.endpoints[e := row]))
  }

  /** The update's outcome: 204 with the new database, or a rejection. */
  datatype Result2 = Updated(db: Db) | Failed(error: UpdateError)
}

=== FILE: response_config.dfy ===
/** The response editor of the endpoint page (frontend/src/components/ResponseConfig.tsx):
    the header rows and their edits, the three validators, the save payload and the preview.
    `JSON.parse` of the stored header text is the parameter `parseHeaders` (`None` for any
    text it rejects or whose entries cannot be listed); `JSON.parse` of the body is the
    parameter `parses`; `Date.now()` is the parameter `now`. */
module ResponseConfig {
  import opened Wrappers
  import opened Strings
  import opened Seqs
  import opened Assoc

  datatype Row = Row(id: string, key: string, value: string)

  datatype Field = KeyField | ValueField

  /** The messages the editor shows; `None` where there is none. */
  datatype Errors = Errors(status: Option<string>, headers: Option<string>, body: Option<string>)

  const NoErrors := Errors(None, None, None)

  const StatusError := "Status code must be between 100 and 599"
  const HeaderValueError := "Header value cannot be empty"
  const BodyError := "Invalid JSON format"
  const SaveFailed := "Failed to save configuration"
  const EmptyPreview := "(empty)"

  const BlankRow := Row("header-0", "", "")

  function RowId(index: nat): string {
    "header-" + NatToString(index)
  }

  /** One row per parsed entry, numbered from 0. */
  function RowsOf(entries: Pairs<string, string>): (rows: seq<Row>)
    ensures |rows| == |entries|
    ensures forall i :: 0 <= i < |rows| ==> rows[i] == Row(RowId(i), entries[i].0, entries[i].1)
  {
    seq(|entries|, i requires 0 <= i < |entries| => Row(RowId(i), entries[i].0, entries[i].1))
  }

  /** The rows the editor starts from: the stored entries, or one blank row when there is no
      stored text, it does not parse, or it holds no entry. */
  function InitialRows(stored: Option<string>, parseHeaders: string -> Option<Pairs<string, string>>): (rows: seq<Row>)
    ensures |rows| >= 1
    ensures rows == [BlankRow] <==>
      stored.None? || stored.value == "" || parseHeaders(stored.value).None? || parseHeaders(stored.value).value == []
      || (|parseHeaders(stored.value).value| == 1 && parseHeaders(stored.value).value[0] == ("", ""))
    ensures rows != [BlankRow] ==> Keys(parseHeaders(stored.value).value) == seq(|rows|, i requires 0 <= i < |rows| => rows[i].key)
  {
    if stored.None? || stored.value == "" then [BlankRow]
    else
      match parseHeaders(stored.value)
      case None => [BlankRow]
      case Some(entries) =>
        var rows := RowsOf(entries);
        assert |rows| == 1 ==> RowId(0) == "header-0";
        if |rows| > 0 then rows else [BlankRow]
  }

  // ---------------------------------------------------------------------------------------
  // Row edits
  // ---------------------------------------------------------------------------------------

  /** `handleHeaderChange`: the named field of every row with that id. */
  function ChangeRow(rows: seq<Row>, id: string, field: Field, value: string): (r: seq<Row>)
    ensures |r| == |rows|
    ensures forall i :: 0 <= i < |rows| && rows[i].id != id ==> r[i] == rows[i]
    ensures forall i :: 0 <= i < |rows| && rows[i].id == id && field == KeyField ==> r[i] == rows[i].(key := value)
    ensures forall i :: 0 <= i < |rows| && rows[i].id == id && field == ValueField ==> r[i] == rows[i].(value := value)
  {
    seq(|rows|, i requires 0 <= i < |rows| =>
      if rows[i].id != id then rows[i]
      else match field case KeyField => rows[i].(key := value) case ValueField => rows[i].(value := value))
  }

  /** Edits never change the ids, so later edits find the same rows. */
  lemma ChangeKeepsIds(rows: seq<Row>, id: string, field: Field, value: string)
    ensures var r := ChangeRow(rows, id, field, value);
      forall i :: 0 <= i < |rows| ==> r[i].id == rows[i].id
  {
  }

  /** `addHeader`: one blank row at the end, named after the clock. */
  function AddRow(rows: seq<Row>, now: nat): (r: seq<Row>)
    ensures |r| == |rows| + 1 && r[..|rows|] == rows
    ensures r[|rows|].key == "" && r[|rows|].value == ""
  {
    rows + [Row("header-" + NatToString(now), "", "")]
  }

  /** `removeHeader`: a single row is reset to the blank row; otherwise every row with that
      id goes. */
  function RemoveRow(rows: seq<Row>, id: string): (r: seq<Row>)
    ensures |rows| == 1 ==> r == [BlankRow]
    ensures |rows| != 1 ==> r == Filter(rows, (x: Row) => x.id != id)
  {
    if |rows| == 1 then [BlankRow] else Filter(rows, (x: Row) => x.id != id)
  }

  predicate DistinctIds(rows: seq<Row>) {
    forall i, j :: 0 <= i < j < |rows| ==> rows[i].id != rows[j].id
  }

  /** With distinct ids, at most the one named row goes. */
  lemma {:induction false} FilterDropsAtMostOne(rows: seq<Row>, id: string)
    requires DistinctIds(rows)
    ensures |Filter(rows, (x: Row) => x.id != id)| >= |rows| - 1
    ensures (forall i :: 0 <= i < |rows| ==> rows[i].id != id) ==> Filter(rows, (x: Row) => x.id != id) == rows
    decreases |rows|
  {
    var p := (x: Row) => x.id != id;
    if forall i :: 0 <= i < |rows| ==> rows[i].id != id {
      FilterAll(rows, p);
    } else if |rows| > 0 {
      var rest := Filter(rows[1..], p);
      assert |rest| >= |rows| - 2 by {
        assert DistinctIds(rows[1..]);
        FilterDropsAtMostOne(rows[1..], id);
      }
      assert Filter(rows, p) == (if p(rows[0]) then [rows[0]] + rest else rest);
      if rows[0].id == id {
        assert rest == rows[1..] by {
          forall i | 0 <= i < |rows[1..]| ensures p(rows[1..][i]) {
            assert rows[1..][i] == rows[i + 1];
          }
          FilterAll(rows[1..], p);
        }
      }
    }
  }

  /** The editor never runs out of rows: removing from a non-empty list of distinct ids
      leaves at least one row. */
  lemma RemoveKeepsARow(rows: seq<Row>, id: string)
    requires |rows| >= 1 && DistinctIds(rows)
    ensures |RemoveRow(rows, id)| >= 1
  {
    if |rows| != 1 {
      FilterDropsAtMostOne(rows, id);
    }
  }

  // ---------------------------------------------------------------------------------------
  // Validators
  // ---------------------------------------------------------------------------------------

  /** `validateStatus`: the text must start with a decimal number in [100, 599]. */
  function StatusValid(status: string): (ok: bool)
    ensures ok <==> exists n :: ParseIntDecimal(status) == Some(n) && 100 <= n <= 599
  {
    match ParseIntDecimal(status)
    case None => false
    case Some(n) => 100 <= n <= 599
  }

  /** `validateHeaders`: a named row needs a value. */
  function HeadersValid(rows: seq<Row>): (ok: bool)
    ensures ok <==> forall i :: 0 <= i < |rows| && !IsBlank(rows[i].key) ==> !IsBlank(rows[i].value)
  {
    if |rows| == 0 then true
    else if !IsBlank(rows[0].key) && IsBlank(rows[0].value) then false
    else
      assert forall i :: 1 <= i < |rows| ==> rows[i] == rows[1..][i - 1];
      HeadersValid(rows[1..])
  }

  /** A row declaring a JSON body: `content-type` in any case, with a value whose lower-cased
      form mentions `application/json`. */
  predicate DeclaresJson(r: Row) {
    Lower(r.key) == "content-type" && Contains(Lower(r.value), "application/json")
  }

  /** `validateBody`: the body is parsed only under a JSON content type and when not blank. */
  function BodyValid(rows: seq<Row>, body: string, parses: string -> bool): (ok: bool)
    ensures !ok <==> (exists i :: 0 <= i < |rows| && DeclaresJson(rows[i])) && !IsBlank(body) && !parses(body)
  {
    if (exists i :: 0 <= i < |rows| && DeclaresJson(rows[i])) && !IsBlank(body) then parses(body) else true
  }

  // ---------------------------------------------------------------------------------------
  // Headers object, save and preview
  // ---------------------------------------------------------------------------------------

  /** The one name an assignment on a plain object does not store: the `__proto__` accessor
      inherited from `Object.prototype` ignores a value that is not an object, and every value
      here is a string. */
  const ProtoKey := "__proto__"

  /** Row `r` stores an entry: its name is not blank, and trimmed it is not `__proto__`. */
  predicate Stores(r: Row) {
    !IsBlank(r.key) && Trim(r.key) != ProtoKey
  }

  /** The rows that store an entry, with name and value trimmed, in order. */
  function TrimmedPairs(rows: seq<Row>): (ps: Pairs<string, string>)
    ensures |ps| <= |rows|
  {
    if |rows| == 0 then []
    else (if Stores(rows[0]) then [(Trim(rows[0].key), Trim(rows[0].value))] else []) + TrimmedPairs(rows[1..])
  }

  /** Row `r` writes name `k`. */
  predicate Names(r: Row, k: string) {
    Stores(r) && Trim(r.key) == k
  }

  lemma TrimmedPairsCons(rows: seq<Row>)
    requires |rows| > 0
    ensures TrimmedPairs(rows) ==
      (if Stores(rows[0]) then [(Trim(rows[0].key), Trim(rows[0].value))] else []) + TrimmedPairs(rows[1..])
  {
  }

  /** Every name written is the trimmed name of some row. */
  lemma {:induction false} TrimmedPairsDrawn(rows: seq<Row>, k: string)
    requires HasKey(TrimmedPairs(rows), k)
    ensures exists i :: 0 <= i < |rows| && Names(rows[i], k)
    decreases |rows|
  {
    TrimmedPairsCons(rows);
    var head: Pairs<string, string> := if Stores(rows[0]) then [(Trim(rows[0].key), Trim(rows[0].value))] else [];
    var tail := TrimmedPairs(rows[1..]);
    var j :| 0 <= j < |head + tail| && (head + tail)[j].0 == k;
    if j < |head| {
      assert Names(rows[0], k);
    } else {
      assert tail[j - |head|].0 == k;
      TrimmedPairsDrawn(rows[1..], k);
      var i :| 0 <= i < |rows[1..]| && Names(rows[1..][i], k);
      assert rows[i + 1] == rows[1..][i];
    }
  }

  /** Every row with a name that is not blank writes its trimmed name. */
  lemma {:induction false} TrimmedPairsCover(rows: seq<Row>, i: nat, k: string)
    requires i < |rows| && Names(rows[i], k)
    ensures HasKey(TrimmedPairs(rows), k)
    decreases |rows|
  {
    TrimmedPairsCons(rows);
    var head: Pairs<string, string> := if Stores(rows[0]) then [(Trim(rows[0].key), Trim(rows[0].value))] else [];
    var tail := TrimmedPairs(rows[1..]);
    if i == 0 {
      assert (head + tail)[0].0 == k;
    } else {
      assert rows[1..][i - 1] == rows[i];
      TrimmedPairsCover(rows[1..], i - 1, k);
      var j :| 0 <= j < |tail| && tail[j].0 == k;
      assert (head + tail)[|head| + j] == tail[j];
    }
  }

  /** The object the loop `headersObj[key.trim()] = value.trim()` builds. */
  function HeadersObject(rows: seq<Row>): Pairs<string, string> {
    FromPairs(TrimmedPairs(rows))
  }

  /** The object holds each trimmed non-blank name once, with the value of its last row. */
  lemma HeadersObjectMeaning(rows: seq<Row>)
    ensures DistinctKeys(HeadersObject(rows))
    ensures forall k :: HasKey(HeadersObject(rows), k) <==> exists i :: 0 <= i < |rows| && Names(rows[i], k)
    ensures forall k :: Lookup(HeadersObject(rows), k) == Lookup(TrimmedPairs(rows), k)
  {
    FromPairsMeaning(TrimmedPairs(rows));
    forall k ensures HasKey(TrimmedPairs(rows), k) <==> exists i :: 0 <= i < |rows| && Names(rows[i], k) {
      if HasKey(TrimmedPairs(rows), k) {
        TrimmedPairsDrawn(rows, k);
      }
      if exists i :: 0 <= i < |rows| && Names(rows[i], k) {
        var i :| 0 <= i < |rows| && Names(rows[i], k);
        TrimmedPairsCover(rows, i, k);
      }
    }
  }

  /** The object is empty exactly when no row stores an entry, so rows named only `__proto__`
      send no headers at all. */
  lemma HeadersObjectEmpty(rows: seq<Row>)
    ensures HeadersObject(rows) == [] <==> forall i :: 0 <= i < |rows| ==> !Stores(rows[i])
  {
    HeadersObjectMeaning(rows);
    var obj := HeadersObject(rows);
    if i :| 0 <= i < |rows| && Stores(rows[i]) {
      assert Names(rows[i], Trim(rows[i].key));
      assert HasKey(obj, Trim(rows[i].key));
    }
    if obj != [] {
      assert HasKey(obj, obj[0].0);
    }
  }

  /** A later row with the same trimmed name overwrites an earlier one; under `__proto__`
      neither is stored. */
  lemma LaterRowWins(a: Row, b: Row)
    requires !IsBlank(a.key) && Trim(a.key) == Trim(b.key)
    ensures Lookup(HeadersObject([a, b]), Trim(a.key)) ==
      (if Trim(a.key) == ProtoKey then None else Some(Trim(b.value)))
  {
    assert !IsBlank(b.key);
    if Trim(a.key) == ProtoKey {
      HeadersObjectEmpty([a, b]);
      return;
    }
    HeadersObjectMeaning([a, b]);
    var ps := TrimmedPairs([a, b]);
    TrimmedPairsCons([a, b]);
    assert [a, b][1..] == [b];
    TrimmedPairsCons([b]);
    assert [b][1..] == [];
    assert ps == [(Trim(a.key), Trim(a.value)), (Trim(b.key), Trim(b.value))];
  }

  /** What the `PUT` request carries. */
  datatype Payload = Payload(enabled: bool, status: Option<int>, headers: Option<Pairs<string, string>>, body: Option<string>)

  /** The editor's state. */
  datatype Editor = Editor(enabled: bool, status: string, rows: seq<Row>, body: string)

  /** `handleSave` up to the request: all three validators run and record their verdicts;
      the request is built only when all three pass. */
  function Save(ed: Editor, parses: string -> bool): (r: (Errors, Option<Payload>))
    ensures r.0.status.None? <==> StatusValid(ed.status)
    ensures r.0.headers.None? <==> HeadersValid(ed.rows)
    ensures r.0.body.None? <==> BodyValid(ed.rows, ed.body, parses)
    ensures r.1.Some? <==> r.0 == NoErrors
    ensures r.1.Some? ==> r.1.value.enabled == ed.enabled && r.1.value.status == ParseIntDecimal(ed.status)
    ensures r.1.Some? ==> (r.1.value.headers.None? <==> HeadersObject(ed.rows) == [])
    ensures r.1.Some? ==> (r.1.value.body.None? <==> IsBlank(ed.body))
  {
    var errors := Errors(
      if StatusValid(ed.status) then None else Some(StatusError),
      if HeadersValid(ed.rows) then None else Some(HeaderValueError),
      if BodyValid(ed.rows, ed.body, parses) then None else Some(BodyError));
    if errors != NoErrors then (errors, None)
    else
      var obj := HeadersObject(ed.rows);
      var t := Trim(ed.body);
      (errors, Some(Payload(ed.enabled, ParseIntDecimal(ed.status),
        if obj == [] then None else Some(obj), if t == "" then None else Some(t))))
  }

  /** A rejected request leaves its message on the status field. */
  function AfterSend(errors: Errors, ok: bool): (r: Errors)
    ensures ok ==> r == errors
    ensures !ok ==> r.status == Some(SaveFailed) && r.headers == errors.headers && r.body == errors.body
  {
    if ok then errors else errors.(status := Some(SaveFailed))
  }

  /** What the preview panel shows of a response. */
  datatype Preview = Preview(status: int, headers: Pairs<string, string>, body: string)

  /** The preview: the status falls back to 200 for text that does not start with a number
      and for 0 (no range check); the body shows a placeholder when blank. */
  function PreviewOf(ed: Editor): (p: Preview)
    ensures p.headers == HeadersObject(ed.rows)
    ensures IsBlank(ed.body) ==> p.body == EmptyPreview
    ensures !IsBlank(ed.body) ==> p.body == Trim(ed.body)
    ensures p.status != 0
    ensures ParseIntDecimal(ed.status).None? || ParseIntDecimal(ed.status).value == 0 ==> p.status == 200
    ensures ParseIntDecimal(ed.status).Some? && ParseIntDecimal(ed.status).value != 0 ==> p.status == ParseIntDecimal(ed.status).value
  {
    var n := ParseIntDecimal(ed.status);
    var t := Trim(ed.body);
    Preview(if n.None? || n.value == 0 then 200 else n.value, HeadersObject(ed.rows), if t == "" then EmptyPreview else t)
  }

  /** What the preview promises is what a successful save sends, whenever the status is valid. */
  lemma PreviewMatchesSave(ed: Editor, parses: string -> bool)
    requires Save(ed, parses).1.Some?
    ensures var p := Save(ed, parses).1.value;
      Some(PreviewOf(ed).status) == p.status
      && (p.headers.None? ==> PreviewOf(ed).headers == [])
      && (p.headers.Some? ==> PreviewOf(ed).headers == p.headers.value)
      && (p.body.Some? ==> PreviewOf(ed).body == p.body.value)
  {
  }
}

=== FILE: seqs.dfy ===
/** Sequence helpers: `Array.prototype.filter`, `Vec::retain`, counting and summing. */
module Seqs {

  /** `r` is `s` with some elements left out: the elements of `r` occur in `s` in the same
      order. */
  predicate IsSubseq<T(==)>(r: seq<T>, s: seq<T>)
    decreases |s|
  {
    if |r| == 0 then true
    else if |s| == 0 then false
    else (r[0] == s[0] && IsSubseq(r[1..], s[1..])) || IsSubseq(r, s[1..])
  }

  /** `s.filter(p)`: the elements satisfying `p`, in their original order, each with all of
      its copies. */
  function Filter<T(==,!new)>(s: seq<T>, p: T -> bool): (r: seq<T>)
    ensures |r| <= |s|
    ensures forall i :: 0 <= i < |r| ==> p(r[i])
    ensures forall i :: 0 <= i < |r| ==> r[i] in s
    ensures forall i :: 0 <= i < |s| && p(s[i]) ==> s[i] in r
    ensures IsSubseq(r, s)
  {
    if |s| == 0 then []
    else
      var rest := Filter(s[1..], p);
      if p(s[0]) then
        assert ([s[0]] + rest)[1..] == rest;
        [s[0]] + rest
      else
        rest
  }

  /** Nothing passes, nothing is kept. */
  lemma {:induction false} FilterNone<T(!new)>(s: seq<T>, p: T -> bool)
    requires forall i :: 0 <= i < |s| ==> !p(s[i])
    ensures Filter(s, p) == []
  {
    if |s| > 0 {
      FilterNone(s[1..], p);
    }
  }

  lemma {:induction false} FilterConcat<T(!new)>(a: seq<T>, b: seq<T>, p: T -> bool)
    ensures Filter(a + b, p) == Filter(a, p) + Filter(b, p)
  {
    if |a| == 0 {
      assert a + b == b;
    } else {
      assert (a + b)[1..] == a[1..] + b;
      FilterConcat(a[1..], b, p);
    }
  }

  /** Two tests that agree on every element keep the same elements. */
  lemma {:induction false} FilterSameTest<T(!new)>(s: seq<T>, p: T -> bool, q: T -> bool)
    requires forall i :: 0 <= i < |s| ==> p(s[i]) == q(s[i])
    ensures Filter(s, p) == Filter(s, q)
  {
    if |s| > 0 {
      FilterSameTest(s[1..], p, q);
    }
  }

  /** Filtering with a test every element passes changes nothing. */
  lemma {:induction false} FilterAll<T(!new)>(s: seq<T>, p: T -> bool)
    requires forall i :: 0 <= i < |s| ==> p(s[i])
    ensures Filter(s, p) == s
  {
    if |s| > 0 {
      FilterAll(s[1..], p);
    }
  }

  /** The first element kept is the first element that passes. */
  lemma {:induction false} FilterHead<T(!new)>(s: seq<T>, p: T -> bool, k: nat)
    requires k < |s| && p(s[k])
    requires forall j :: 0 <= j < k ==> !p(s[j])
    ensures |Filter(s, p)| > 0 && Filter(s, p)[0] == s[k]
  {
    if k > 0 {
      assert Filter(s, p) == Filter(s[1..], p);
      forall j | 0 <= j < k - 1 ensures !p(s[1..][j]) {
        assert s[1..][j] == s[j + 1];
      }
      FilterHead(s[1..], p, k - 1);
    }
  }

  /** How many elements of `s` are equal to `x`. */
  function Count<T(==)>(s: seq<T>, x: T): nat
  {
    if |s| == 0 then 0 else (if s[0] == x then 1 else 0) + Count(s[1..], x)
  }

  lemma {:induction false} CountConcat<T>(a: seq<T>, b: seq<T>, x: T)
    ensures Count(a + b, x) == Count(a, x) + Count(b, x)
  {
    if |a| == 0 {
      assert a + b == b;
    } else {
      assert (a + b)[1..] == a[1..] + b;
      CountConcat(a[1..], b, x);
    }
  }

  /** `v.retain(|y| y != x)`: every copy of `x` dropped, the rest kept in order with all of
      their copies. */
  function RemoveAll<T(==,!new)>(s: seq<T>, x: T): (r: seq<T>)
    ensures |r| == |s| - Count(s, x)
    ensures x !in r
    ensures forall i :: 0 <= i < |r| ==> r[i] in s
    ensures forall i :: 0 <= i < |s| && s[i] != x ==> s[i] in r
    ensures IsSubseq(r, s)
  {
    if |s| == 0 then []
    else
      var rest := RemoveAll(s[1..], x);
      if s[0] == x then
        rest
      else
        assert ([s[0]] + rest)[1..] == rest;
        [s[0]] + rest
  }

  /** Every element that passes keeps all of its copies; one that fails keeps none. */
  lemma {:induction false} FilterCount<T(!new)>(s: seq<T>, p: T -> bool, x: T)
    ensures Count(Filter(s, p), x) == (if p(x) then Count(s, x) else 0)
  {
    if |s| > 0 {
      var rest := Filter(s[1..], p);
      FilterCount(s[1..], p, x);
      if p(s[0]) {
        assert ([s[0]] + rest)[1..] == rest;
      }
    }
  }

  /** Every other element keeps all of its copies. */
  lemma {:induction false} RemoveAllCount<T(!new)>(s: seq<T>, x: T, y: T)
    ensures Count(RemoveAll(s, x), y) == (if y == x then 0 else Count(s, y))
  {
    if |s| > 0 {
      var rest := RemoveAll(s[1..], x);
      RemoveAllCount(s[1..], x, y);
      if s[0] != x {
        assert ([s[0]] + rest)[1..] == rest;
      }
    }
  }

  /** Removing an element that is not there changes nothing. */
  lemma {:induction false} RemoveAllAbsent<T(!new)>(s: seq<T>, x: T)
    requires x !in s
    ensures RemoveAll(s, x) == s
  {
    if |s| > 0 {
      assert x !in s[1..];
      RemoveAllAbsent(s[1..], x);
    }
  }

  lemma {:induction false} RemoveAllConcat<T(!new)>(a: seq<T>, b: seq<T>, x: T)
    ensures RemoveAll(a + b, x) == RemoveAll(a, x) + RemoveAll(b, x)
  {
    if |a| == 0 {
      assert a + b == b;
    } else {
      assert (a + b)[1..] == a[1..] + b;
      RemoveAllConcat(a[1..], b, x);
    }
  }

  /** Every other element keeps its number of copies. */
  lemma {:induction false} RemoveAllKeepsOthers<T(!new)>(s: seq<T>, x: T, y: T)
    requires y != x
    ensures Count(RemoveAll(s, x), y) == Count(s, y)
  {
    if |s| > 0 {
      RemoveAllKeepsOthers(s[1..], x, y);
      var head: seq<T> := if s[0] == x then [] else [s[0]];
      CountConcat(head, RemoveAll(s[1..], x), y);
      if s[0] != x {
        assert head[1..] == [];
      }
    }
  }

  /** How many elements satisfy `p`. */
  function CountIf<T>(s: seq<T>, p: T -> bool): nat
  {
    if |s| == 0 then 0 else (if p(s[0]) then 1 else 0) + CountIf(s[1..], p)
  }

  lemma {:induction false} CountIfIsFilterLength<T(!new)>(s: seq<T>, p: T -> bool)
    ensures CountIf(s, p) == |Filter(s, p)|
  {
    if |s| > 0 {
      CountIfIsFilterLength(s[1..], p);
    }
  }

  lemma {:induction false} CountIfConcat<T>(a: seq<T>, b: seq<T>, p: T -> bool)
    ensures CountIf(a + b, p) == CountIf(a, p) + CountIf(b, p)
  {
    if |a| == 0 {
      assert a + b == b;
    } else {
      assert (a + b)[1..] == a[1..] + b;
      CountIfConcat(a[1..], b, p);
    }
  }

  /** Every element satisfies `p` or its negation, never both. */
  lemma {:induction false} CountIfSplit<T>(s: seq<T>, p: T -> bool, q: T -> bool)
    requires forall x :: q(x) == !p(x)
    ensures CountIf(s, p) + CountIf(s, q) == |s|
  {
    if |s| > 0 {
      CountIfSplit(s[1..], p, q);
    }
  }

  /** The concatenation of a sequence of sequences. */
  function Flatten<T>(ss: seq<seq<T>>): seq<T>
  {
    if |ss| == 0 then [] else ss[0] + Flatten(ss[1..])
  }

  lemma {:induction false} FlattenAppend<T>(ss: seq<seq<T>>, s: seq<T>)
    ensures Flatten(ss + [s]) == Flatten(ss) + s
  {
    if |ss| == 0 {
      assert ss + [s] == [s];
    } else {
      assert (ss + [s])[1..] == ss[1..] + [s];
      FlattenAppend(ss[1..], s);
    }
  }

  /** An element of one of the parts is an element of the whole. */
  lemma {:induction false} InFlatten<T>(ss: seq<seq<T>>, j: nat, x: T)
    requires j < |ss| && x in ss[j]
    ensures x in Flatten(ss)
  {
    if j > 0 {
      InFlatten(ss[1..], j - 1, x);
    }
  }

  /** No element occurs twice. */
  predicate NoDuplicates<T(==)>(s: seq<T>) {
    forall i, j :: 0 <= i < j < |s| ==> s[i] != s[j]
  }

  /** Moving the head of `s` across a concatenation. */
  lemma HeadAcross<T>(a: seq<T>, s: seq<T>)
    requires |s| > 0
    ensures a + [s[0]] + s[1..] == a + s
  {
    assert [s[0]] + s[1..] == s;
  }

  /** A sequence one longer than a prefix of it is that prefix plus its last element. */
  lemma GrowByOne<T>(a: seq<T>, b: seq<T>)
    requires |b| == |a| + 1 && b[..|a|] == a
    ensures b == a + [b[|a|]]
  {
  }

  /** `a` is where `b` starts. */
  predicate IsPrefix<T(==)>(a: seq<T>, b: seq<T>) {
    |a| <= |b| && b[..|a|] == a
  }

  lemma PrefixTrans<T>(a: seq<T>, b: seq<T>, c: seq<T>)
    requires IsPrefix(a, b) && IsPrefix(b, c)
    ensures IsPrefix(a, c)
  {
    assert c[..|a|] == c[..|b|][..|a|];
  }

  /** A prefix of `a` is a prefix of anything `a` starts. */
  lemma PrefixOfAppend<T>(a: seq<T>, b: seq<T>, n: nat)
    requires n <= |a|
    ensures (a + b)[..n] == a[..n]
  {
  }

  lemma SliceConcat<T>(s: seq<T>, i: nat, j: nat, k: nat)
    requires i <= j <= k <= |s|
    ensures s[i..j] + s[j..k] == s[i..k]
  {
  }

  lemma SeqAssoc<T>(x: seq<T>, y: seq<T>, z: seq<T>)
    ensures x + y + z == x + (y + z)
  {
  }
}

=== FILE: static_files.dfy ===
/** Serving the embedded single-page frontend (src/static_files.rs).

    The embedded `frontend/dist` directory is a map from relative file path to contents.
    `mime_guess::from_path(..).first()` is a parameter `guess` (a path to a MIME type, or
    nothing); the axum response builder becomes a plain `Response` value. */
module StaticFiles {
  import opened Wrappers
  import opened Bytes
  import opened Strings

  type Dir = map<string, seq<byte>>

  datatype Body = FileBody(bytes: seq<byte>) | TextBody(text: string)

  datatype Response = Response(status: nat, headers: seq<(string, string)>, body: Body)

  const IndexFile := "index.html"
  const OctetStream := "application/octet-stream"
  const CacheForever := "public, max-age=31536000"
  const NotFoundText := "404 Not Found"

  /** `trim_start_matches('/')`: every leading slash goes, nothing else does. */
  function StripSlashes(p: string): (r: string)
    ensures r == [] || r[0] != '/'
    ensures |r| <= |p| && r == p[|p| - |r|..]
    decreases |p|
  {
    if |p| > 0 && p[0] == '/' then StripSlashes(p[1..]) else p
  }

  /** Stripping takes away exactly a run of slashes in front of the remaining path. */
  lemma {:induction false} StripSlashesOf(k: nat, q: string)
    requires q == [] || q[0] != '/'
    ensures StripSlashes(Repeat('/', k) + q) == q
  {
    if k > 0 {
      assert (Repeat('/', k) + q)[1..] == Repeat('/', k - 1) + q;
      StripSlashesOf(k - 1, q);
    } else {
      assert Repeat('/', k) + q == q;
    }
  }

  lemma StripSlashesIdempotent(p: string)
    ensures StripSlashes(StripSlashes(p)) == StripSlashes(p)
  {
    StripSlashesOf(0, StripSlashes(p));
  }

  /** Prefixes that belong to the server's own routes and never fall back to the app. */
  predicate Reserved(path: string) {
    StartsWith(path, "api/") || StartsWith(path, "webhook/") || StartsWith(path, "ws/")
  }

  /** `serve_file`: 200 with the guessed content type and a one-year public cache lifetime. */
  function ServeFile(path: string, contents: seq<byte>, guess: string -> Option<string>): (r: Response)
  {
    Response(200, [("content-type", guess(path).GetOr(OctetStream)), ("cache-control", CacheForever)], FileBody(contents))
  }

  function NotFound(): Response {
    Response(404, [("content-type", "text/plain; charset=utf-8")], TextBody(NotFoundText))
  }

  /** `serve_static_file`: the file itself, else the app shell for non-server paths, else 404. */
  function Serve(dir: Dir, uriPath: string, guess: string -> Option<string>): (r: Response)
    ensures var path := StripSlashes(uriPath);
      && (r.status == 200 <==> path in dir || (!Reserved(path) && IndexFile in dir))
      && (r.status != 200 ==> r == NotFound())
      && (path in dir ==> r.body == FileBody(dir[path]))
      && (path !in dir && r.status == 200 ==> r.body == FileBody(dir[IndexFile]))
  {
    var path := StripSlashes(uriPath);
    if path in dir then ServeFile(path, dir[path], guess)
    else if !Reserved(path) && IndexFile in dir then ServeFile(IndexFile, dir[IndexFile], guess)
    else NotFound()
  }

  /** `is_embedded`. */
  function IsEmbedded(dir: Dir): bool {
    IndexFile in dir
  }

  /** Whatever is served successfully carries the long-lived cache header. */
  lemma ServedIsCached(dir: Dir, uriPath: string, guess: string -> Option<string>)
    ensures Serve(dir, uriPath, guess).status == 200 ==>
      ("cache-control", CacheForever) in Serve(dir, uriPath, guess).headers
  {
    var r := Serve(dir, uriPath, guess);
    if r.status == 200 {
      assert r.headers[1] == ("cache-control", CacheForever);
    }
  }

  /** Leading slashes never change the answer. */
  lemma SlashesIrrelevant(dir: Dir, k: nat, q: string, guess: string -> Option<string>)
    requires q == [] || q[0] != '/'
    ensures Serve(dir, Repeat('/', k) + q, guess) == Serve(dir, q, guess)
  {
    StripSlashesOf(k, q);
    StripSlashesOf(0, q);
    assert Repeat('/', 0) + q == q;
  }

  /** With the app shell embedded every path outside the server's routes is answered with
      200; without it, only the exact files are, and everything else is 404. */
  lemma EmbeddedMeansFallback(dir: Dir, uriPath: string, guess: string -> Option<string>)
    ensures IsEmbedded(dir) && !Reserved(StripSlashes(uriPath)) ==> Serve(dir, uriPath, guess).status == 200
    ensures !IsEmbedded(dir) ==>
      (Serve(dir, uriPath, guess).status == 200 <==> StripSlashes(uriPath) in dir)
  {
  }
}

=== FILE: strings.dfy ===
/** Text helpers shared by the server and the dashboard models: the parts of Rust's `str`
    and JavaScript's `String` that the modelled code relies on (trim, case mapping,
    prefix/suffix/infix tests, split/join, decimal printing and JavaScript's `parseInt`). */
module Strings {
  import opened Wrappers
  import opened Seqs

  // ---------------------------------------------------------------------------------------
  // White space and trimming
  // ---------------------------------------------------------------------------------------

  /** ASCII white space: space, tab, line feed, vertical tab, form feed, carriage return. */
  predicate IsSpace(c: char) {
    c == ' ' || '\t' <= c <= '\r'
  }

  /** `!s.trim()` in JavaScript, `s.trim().is_empty()` in Rust. */
  predicate IsBlank(s: string) {
    forall i :: 0 <= i < |s| ==> IsSpace(s[i])
  }

  /** How many white-space characters `s` starts with. */
  function LeadingSpaces(s: string): (n: nat)
    ensures n <= |s|
  {
    if |s| > 0 && IsSpace(s[0]) then 1 + LeadingSpaces(s[1..]) else 0
  }

  /** The leading run is white space and stops at the first other character. */
  lemma {:induction false} LeadingSpacesRun(s: string)
    ensures forall i :: 0 <= i < LeadingSpaces(s) ==> IsSpace(s[i])
    ensures LeadingSpaces(s) == |s| || !IsSpace(s[LeadingSpaces(s)])
    decreases |s|
  {
    if |s| > 0 && IsSpace(s[0]) {
      LeadingSpacesRun(s[1..]);
    }
  }

  /** How many white-space characters `s` ends with. */
  function TrailingSpaces(s: string): (n: nat)
    ensures n <= |s|
  {
    if |s| > 0 && IsSpace(s[|s| - 1]) then 1 + TrailingSpaces(s[..|s| - 1]) else 0
  }

  /** The trailing run is white space and stops at the last other character. */
  lemma {:induction false} TrailingSpacesRun(s: string)
    ensures forall i :: |s| - TrailingSpaces(s) <= i < |s| ==> IsSpace(s[i])
    ensures TrailingSpaces(s) == |s| || !IsSpace(s[|s| - TrailingSpaces(s) - 1])
    decreases |s|
  {
    if |s| > 0 && IsSpace(s[|s| - 1]) {
      TrailingSpacesRun(s[..|s| - 1]);
    }
  }

  /** `trimStart()`: the leading white space removed. */
  function TrimStart(s: string): (r: string)
    ensures |r| <= |s|
    ensures r == [] || !IsSpace(r[0])
  {
    LeadingSpacesRun(s);
    s[LeadingSpaces(s)..]
  }

  /** Text that does not start with white space is its own `trimStart()`. */
  lemma TrimStartUnchanged(s: string)
    requires s == [] || !IsSpace(s[0])
    ensures TrimStart(s) == s
  {
    assert LeadingSpaces(s) == 0;
  }

  /** Where the trimmed text starts inside `s`. */
  function TrimOffset(s: string): nat
    ensures TrimOffset(s) <= |s|
  {
    LeadingSpaces(s)
  }

  /** `s.trim()`: the longest infix of `s` that neither starts nor ends with white space. */
  function Trim(s: string): (r: string)
    ensures |r| <= |s|
    ensures r == [] <==> IsBlank(s)
    ensures r == [] || (!IsSpace(r[0]) && !IsSpace(r[|r| - 1]))
  {
    LeadingSpacesRun(s);
    TrailingSpacesRun(s);
    var a := LeadingSpaces(s);
    if a == |s| then []
    else
      var b := TrailingSpaces(s);
      assert !IsSpace(s[a]);
      s[a..|s| - b]
  }

  /** The trimmed text sits at `TrimOffset(s)` inside `s`, with only white space around it. */
  lemma TrimShape(s: string)
    ensures TrimOffset(s) + |Trim(s)| <= |s|
    ensures forall i :: 0 <= i < |Trim(s)| ==> Trim(s)[i] == s[TrimOffset(s) + i]
    ensures forall i :: 0 <= i < TrimOffset(s) ==> IsSpace(s[i])
    ensures forall i :: TrimOffset(s) + |Trim(s)| <= i < |s| ==> IsSpace(s[i])
  {
    LeadingSpacesRun(s);
    TrailingSpacesRun(s);
    if LeadingSpaces(s) < |s| {
      assert !IsSpace(s[LeadingSpaces(s)]);
    }
  }

  lemma TrimOfTrimmed(s: string)
    requires s == [] || (!IsSpace(s[0]) && !IsSpace(s[|s| - 1]))
    ensures Trim(s) == s
  {
    if |s| > 0 {
      assert LeadingSpaces(s) == 0;
      assert TrailingSpaces(s) == 0;
      assert s[0..|s|] == s;
    }
  }

  // ---------------------------------------------------------------------------------------
  // ASCII case mapping
  // ---------------------------------------------------------------------------------------

  function LowerChar(c: char): char {
    if 'A' <= c <= 'Z' then (c as int + 32) as char else c
  }

  function UpperChar(c: char): char {
    if 'a' <= c <= 'z' then (c as int - 32) as char else c
  }

  /** `toLowerCase()` on ASCII letters. */
  function Lower(s: string): (r: string)
    ensures |r| == |s|
    ensures forall i :: 0 <= i < |s| ==> r[i] == LowerChar(s[i])
  {
    seq(|s|, i requires 0 <= i < |s| => LowerChar(s[i]))
  }

  /** `toUpperCase()` on ASCII letters. */
  function Upper(s: string): (r: string)
    ensures |r| == |s|
    ensures forall i :: 0 <= i < |s| ==> r[i] == UpperChar(s[i])
  {
    seq(|s|, i requires 0 <= i < |s| => UpperChar(s[i]))
  }

  lemma LowerIdempotent(s: string)
    ensures Lower(Lower(s)) == Lower(s)
  {
  }

  lemma UpperIdempotent(s: string)
    ensures Upper(Upper(s)) == Upper(s)
  {
  }

  /** Upper-casing forgets the case of the input, so `s` and its lower-cased form agree. */
  lemma UpperOfLower(s: string)
    ensures Upper(Lower(s)) == Upper(s)
  {
  }

  lemma LowerOfUpper(s: string)
    ensures Lower(Upper(s)) == Lower(s)
  {
  }

  lemma LowerConcat(a: string, b: string)
    ensures Lower(a + b) == Lower(a) + Lower(b)
  {
  }

  lemma UpperConcat(a: string, b: string)
    ensures Upper(a + b) == Upper(a) + Upper(b)
  {
  }

  // ---------------------------------------------------------------------------------------
  // Prefix, suffix and infix tests
  // ---------------------------------------------------------------------------------------

  predicate StartsWith(s: string, p: string) {
    |p| <= |s| && s[..|p|] == p
  }

  predicate EndsWith(s: string, p: string) {
    |p| <= |s| && s[|s| - |p|..] == p
  }

  lemma EndsWithConcat(a: string, b: string)
    ensures EndsWith(a + b, b)
  {
    assert (a + b)[|a + b| - |b|..] == b;
  }

  /** `s.includes(sub)` / `s.contains(sub)`. */
  predicate Contains(s: string, sub: string) {
    exists i :: 0 <= i <= |s| && StartsWith(s[i..], sub)
  }

  /** A text cannot contain a piece holding a character the text lacks. */
  lemma MissingCharNotContained(s: string, sub: string, j: nat)
    requires j < |sub| && forall i :: 0 <= i < |s| ==> s[i] != sub[j]
    ensures !Contains(s, sub)
  {
    forall i | 0 <= i <= |s| ensures !StartsWith(s[i..], sub) {
      if |sub| <= |s[i..]| {
        assert s[i..][..|sub|][j] == s[i + j];
      }
    }
  }

  lemma ContainsEmpty(s: string)
    ensures Contains(s, "")
  {
    assert StartsWith(s[0..], "");
  }

  lemma ContainsSelf(s: string)
    ensures Contains(s, s)
  {
    assert StartsWith(s[0..], s);
  }

  /** An infix of an infix is an infix. */
  lemma ContainsInInfix(s: string, i: nat, j: nat, sub: string)
    requires i <= j <= |s|
    requires Contains(s[i..j], sub)
    ensures Contains(s, sub)
  {
    var t := s[i..j];
    var k :| 0 <= k <= |t| && StartsWith(t[k..], sub);
    assert s[i + k..][..|sub|] == t[k..][..|sub|];
    assert StartsWith(s[i + k..], sub);
  }

  lemma ContainsLeft(a: string, b: string, sub: string)
    requires Contains(a, sub)
    ensures Contains(a + b, sub)
  {
    assert (a + b)[0..|a|] == a;
    ContainsInInfix(a + b, 0, |a|, sub);
  }

  lemma ContainsRight(a: string, b: string, sub: string)
    requires Contains(b, sub)
    ensures Contains(a + b, sub)
  {
    assert (a + b)[|a|..|a| + |b|] == b;
    ContainsInInfix(a + b, |a|, |a| + |b|, sub);
  }

  // ---------------------------------------------------------------------------------------
  // Split and join
  // ---------------------------------------------------------------------------------------

  /** `parts.join(sep)`. */
  function Join(parts: seq<string>, sep: string): string
  {
    if |parts| == 0 then ""
    else if |parts| == 1 then parts[0]
    else parts[0] + sep + Join(parts[1..], sep)
  }

  lemma JoinAppend(parts: seq<string>, last: string, sep: string)
    requires |parts| >= 1
    ensures Join(parts + [last], sep) == Join(parts, sep) + sep + last
  {
    if |parts| == 1 {
      assert parts + [last] == [parts[0], last];
    } else {
      assert (parts + [last])[1..] == parts[1..] + [last];
      JoinAppend(parts[1..], last, sep);
    }
  }

  /** `s` holds no `c`. */
  predicate Free(s: string, c: char) {
    forall i :: 0 <= i < |s| ==> s[i] != c
  }

  /** The position of the first `c` in `s`, or `|s|` when there is none. */
  function Find(s: string, c: char): (k: nat)
    ensures k <= |s|
    ensures forall i :: 0 <= i < k ==> s[i] != c
    ensures k < |s| ==> s[k] == c
  {
    if |s| == 0 || s[0] == c then 0 else 1 + Find(s[1..], c)
  }

  /** The first occurrence is the only position with no `c` before it and `c` at it. */
  lemma FindIs(s: string, c: char, k: nat)
    requires k <= |s| && (forall i :: 0 <= i < k ==> s[i] != c) && (k < |s| ==> s[k] == c)
    ensures Find(s, c) == k
  {
  }

  /** Rust's `s.split(c)`: every piece, empty ones included; never an empty list. */
  function Split(s: string, c: char): (r: seq<string>)
    ensures |r| >= 1
    ensures forall i :: 0 <= i < |r| ==> Free(r[i], c)
    decreases |s|
  {
    var k := Find(s, c);
    if k == |s| then [s] else [s[..k]] + Split(s[k + 1..], c)
  }

  /** The first piece, then the pieces of what follows the first separator. */
  lemma SplitAt(s: string, c: char, k: nat)
    requires k < |s| && (forall i :: 0 <= i < k ==> s[i] != c) && s[k] == c
    ensures Split(s, c) == [s[..k]] + Split(s[k + 1..], c)
  {
    FindIs(s, c, k);
  }

  lemma SplitFree(s: string, c: char)
    requires Free(s, c)
    ensures Split(s, c) == [s]
  {
    FindIs(s, c, |s|);
  }

  lemma JoinCons(x: string, rest: seq<string>, sep: string)
    requires |rest| >= 1
    ensures Join([x] + rest, sep) == x + sep + Join(rest, sep)
  {
    assert ([x] + rest)[1..] == rest;
  }

  /** Joining the pieces with the separator gives the text back. */
  lemma {:induction false} JoinSplit(s: string, c: char)
    ensures Join(Split(s, c), [c]) == s
    decreases |s|
  {
    var k := Find(s, c);
    if k < |s| {
      var pre, post := s[..k], s[k + 1..];
      JoinSplit(post, c);
      SplitAt(s, c, k);
      JoinCons(pre, Split(post, c), [c]);
      assert s == pre + [c] + post;
    } else {
      SplitFree(s, c);
    }
  }

  /** Splitting undoes joining when no piece holds the separator. */
  lemma {:induction false} SplitJoin(xs: seq<string>, c: char)
    requires |xs| >= 1
    requires forall i :: 0 <= i < |xs| ==> Free(xs[i], c)
    ensures Split(Join(xs, [c]), c) == xs
  {
    if |xs| == 1 {
      SplitFree(xs[0], c);
    } else {
      var tail := Join(xs[1..], [c]);
      var s := Join(xs, [c]);
      var k := |xs[0]|;
      assert s == xs[0] + [c] + tail;
      assert s[..k] == xs[0] && s[k + 1..] == tail;
      SplitAt(s, c, k);
      SplitJoin(xs[1..], c);
      assert [xs[0]] + xs[1..] == xs;
    }
  }

  /** Splitting a text with a separator in it splits both sides independently. */
  lemma {:induction false} SplitConcat(a: string, b: string, c: char)
    ensures Split(a + [c] + b, c) == Split(a, c) + Split(b, c)
    decreases |a|
  {
    var s := a + [c] + b;
    var k := Find(a, c);
    if k == |a| {
      SplitAt(s, c, k);
      SplitFree(a, c);
      assert s[..k] == a && s[k + 1..] == b;
    } else {
      SplitAt(s, c, k);
      SplitAt(a, c, k);
      assert s[..k] == a[..k];
      assert s[k + 1..] == a[k + 1..] + [c] + b;
      SplitConcat(a[k + 1..], b, c);
      SeqAssoc([a[..k]], Split(a[k + 1..], c), Split(b, c));
    }
  }

  /** One piece more than there are separators. */
  lemma {:induction false} SplitCount(s: string, c: char)
    ensures |Split(s, c)| == CountChar(s, c) + 1
    decreases |s|
  {
    var k := Find(s, c);
    if k == |s| {
      CountCharAbsent(s, c);
    } else {
      assert s == s[..k] + [c] + s[k + 1..];
      CountCharConcat(s[..k] + [c], s[k + 1..], c);
      CountCharConcat(s[..k], [c], c);
      CountCharAbsent(s[..k], c);
      SplitCount(s[k + 1..], c);
    }
  }

  /** `n` copies of `x`. */
  function Repeat<T>(x: T, n: nat): (r: seq<T>)
    ensures |r| == n && forall i :: 0 <= i < n ==> r[i] == x
  {
    seq(n, _ => x)
  }

  /** How many times `c` occurs in `s`. */
  function CountChar(s: string, c: char): nat
  {
    if |s| == 0 then 0 else (if s[0] == c then 1 else 0) + CountChar(s[1..], c)
  }

  /** `s.replace(/c/g, rep)` for a single character `c`: every `c` becomes `rep`. */
  function ReplaceChar(s: string, c: char, rep: string): string
    decreases |s|
  {
    if |s| == 0 then "" else (if s[0] == c then rep else [s[0]]) + ReplaceChar(s[1..], c, rep)
  }

  /** A text without `c` is left as it is. */
  lemma {:induction false} ReplaceCharAbsent(s: string, c: char, rep: string)
    requires Free(s, c)
    ensures ReplaceChar(s, c, rep) == s
    decreases |s|
  {
    if |s| > 0 {
      ReplaceCharAbsent(s[1..], c, rep);
    }
  }

  lemma CountCharConcat(a: string, b: string, c: char)
    ensures CountChar(a + b, c) == CountChar(a, c) + CountChar(b, c)
  {
    if |a| == 0 {
      assert a + b == b;
    } else {
      assert (a + b)[1..] == a[1..] + b;
      CountCharConcat(a[1..], b, c);
    }
  }

  lemma {:induction false} CountCharAbsent(s: string, c: char)
    requires Free(s, c)
    ensures CountChar(s, c) == 0
  {
    if |s| > 0 {
      CountCharAbsent(s[1..], c);
    }
  }

  // ---------------------------------------------------------------------------------------
  // Decimal printing
  // ---------------------------------------------------------------------------------------

  predicate IsDigit(c: char) {
    '0' <= c <= '9'
  }

  function DigitChar(d: nat): (c: char)
    requires d < 10
    ensures IsDigit(c) && c as int - '0' as int == d
  {
    ('0' as int + d) as char
  }

  /** The decimal numeral of `n` with no leading zeros, as JavaScript's template strings
      and Rust's `Display` print it. */
  function {:induction false} NatToString(n: nat): (r: string)
    ensures 1 <= |r|
    ensures |r| == 1 <==> n < 10
    ensures forall i :: 0 <= i < |r| ==> IsDigit(r[i])
    ensures r[|r| - 1] == DigitChar(n % 10)
    decreases n
  {
    if n < 10 then [DigitChar(n)] else NatToString(n / 10) + [DigitChar(n % 10)]
  }

  /** Distinct numbers print differently. */
  lemma {:induction false} NatToStringInjective(n: nat, m: nat)
    requires NatToString(n) == NatToString(m)
    ensures n == m
    decreases n
  {
    if n < 10 || m < 10 {
      assert n < 10 && m < 10;
      assert DigitChar(n) == NatToString(n)[0] == NatToString(m)[0] == DigitChar(m);
    } else {
      var a := NatToString(n);
      assert a == NatToString(n / 10) + [DigitChar(n % 10)];
      assert a == NatToString(m / 10) + [DigitChar(m % 10)];
      assert NatToString(n / 10) == a[..|a| - 1] == NatToString(m / 10);
      NatToStringInjective(n / 10, m / 10);
      assert DigitChar(n % 10) == a[|a| - 1] == DigitChar(m % 10);
    }
  }

  /** A signed integer printed as JavaScript prints it. */
  function IntToString(i: int): (r: string)
    ensures i >= 0 ==> r == NatToString(i)
    ensures i < 0 ==> r == "-" + NatToString(-i)
  {
    if i < 0 then "-" + NatToString(-i) else NatToString(i)
  }

  /** The printed form starts with a minus sign exactly for negative numbers. */
  lemma IntToStringSign(i: int)
    ensures IntToString(i)[0] == '-' <==> i < 0
  {
    assert IsDigit(NatToString(if i < 0 then -i else i)[0]);
  }

  lemma IntToStringInjective(i: int, j: int)
    requires IntToString(i) == IntToString(j)
    ensures i == j
  {
    IntToStringSign(i);
    IntToStringSign(j);
    if i < 0 {
      assert NatToString(-i) == IntToString(i)[1..] == NatToString(-j);
      NatToStringInjective(-i, -j);
    } else {
      NatToStringInjective(i, j);
    }
  }

  // ---------------------------------------------------------------------------------------
  // JavaScript parseInt
  // ---------------------------------------------------------------------------------------

  /** The value of `c` as a digit of base `radix` (10 or 16), or -1 when it is not one. */
  function DigitValue(c: char, radix: nat): int
  {
    if '0' <= c <= '9' then c as int - '0' as int
    else if radix == 16 && 'a' <= c <= 'f' then c as int - 'a' as int + 10
    else if radix == 16 && 'A' <= c <= 'F' then c as int - 'A' as int + 10
    else -1
  }

  predicate IsRadixDigit(c: char, radix: nat) {
    DigitValue(c, radix) >= 0
  }

  /** The longest prefix of `s` made of digits of base `radix`. */
  function DigitPrefix(s: string, radix: nat): (r: string)
    ensures |r| <= |s| && r == s[..|r|]
    ensures forall i :: 0 <= i < |r| ==> IsRadixDigit(r[i], radix)
    ensures |r| == |s| || !IsRadixDigit(s[|r|], radix)
  {
    if |s| > 0 && IsRadixDigit(s[0], radix) then [s[0]] + DigitPrefix(s[1..], radix) else ""
  }

  /** The number a digit string denotes in base `radix`. */
  function DigitsValue(ds: string, radix: nat): nat
    requires forall i :: 0 <= i < |ds| ==> IsRadixDigit(ds[i], radix)
  {
    if |ds| == 0 then 0
    else
      var d := ds[|ds| - 1];
      assert IsRadixDigit(d, radix);
      DigitsValue(ds[..|ds| - 1], radix) * radix + DigitValue(d, radix)
  }

  /** JavaScript's `parseInt(s)` (when `autoRadix`: a "0x"/"0X" prefix selects base 16)
      or `parseInt(s, 10)`: leading white space is skipped, one sign is read, then the
      longest run of digits; no digit at all gives NaN, written `None`. */
  function ParseIntWith(s: string, autoRadix: bool): (r: Option<int>)
  {
    ParseSigned(TrimStart(s), autoRadix)
  }

  /** An optional sign, then the digits. */
  function ParseSigned(t: string, autoRadix: bool): Option<int>
  {
    if |t| > 0 && t[0] == '-' then
      match ParseUnsigned(t[1..], autoRadix)
      case None => None
      case Some(v) => Some(-v)
    else if |t| > 0 && t[0] == '+' then ParseUnsigned(t[1..], autoRadix)
    else ParseUnsigned(t, autoRadix)
  }

  predicate HasHexPrefix(u: string) {
    StartsWith(u, "0x") || StartsWith(u, "0X")
  }

  /** The digits after the sign, in base 16 after a hex prefix when `autoRadix` allows it. */
  function ParseUnsigned(u: string, autoRadix: bool): Option<int>
  {
    if autoRadix && HasHexPrefix(u) then ParseDigits(u[2..], 16) else ParseDigits(u, 10)
  }

  /** The value of the longest digit prefix, or `None` when there is no digit. */
  function ParseDigits(v: string, radix: nat): Option<int>
  {
    var ds := DigitPrefix(v, radix);
    if |ds| == 0 then None else Some(DigitsValue(ds, radix))
  }

  /** `parseInt(s)` with no radix argument. */
  function ParseInt(s: string): Option<int> {
    ParseIntWith(s, true)
  }

  /** `parseInt(s, 10)`. */
  function ParseIntDecimal(s: string): Option<int> {
    ParseIntWith(s, false)
  }

  lemma {:induction false} DigitsValueOfNatToString(n: nat)
    ensures forall i :: 0 <= i < |NatToString(n)| ==> IsRadixDigit(NatToString(n)[i], 10)
    ensures DigitsValue(NatToString(n), 10) == n
    decreases n
  {
    var r := NatToString(n);
    assert forall i :: 0 <= i < |r| ==> IsRadixDigit(r[i], 10) by {
      forall i | 0 <= i < |r| ensures IsRadixDigit(r[i], 10) {
        assert IsDigit(r[i]);
      }
    }
    if n >= 10 {
      DigitsValueOfNatToString(n / 10);
      assert r[..|r| - 1] == NatToString(n / 10);
    }
  }

  lemma DigitPrefixAll(s: string, radix: nat)
    requires forall i :: 0 <= i < |s| ==> IsRadixDigit(s[i], radix)
    ensures DigitPrefix(s, radix) == s
  {
  }

  lemma {:induction false} DigitPrefixStops(ds: string, rest: string, radix: nat)
    requires forall i :: 0 <= i < |ds| ==> IsRadixDigit(ds[i], radix)
    requires rest == [] || !IsRadixDigit(rest[0], radix)
    ensures DigitPrefix(ds + rest, radix) == ds
    decreases |ds|
  {
    if |ds| > 0 {
      assert (ds + rest)[1..] == ds[1..] + rest;
      DigitPrefixStops(ds[1..], rest, radix);
    } else {
      assert ds + rest == rest;
    }
  }

  /** The digits of a numeral, up to the first non-digit, are read back as its value. */
  lemma ParseUnsignedOfNumeral(n: nat, rest: string, autoRadix: bool)
    requires rest == [] || !IsDigit(rest[0])
    requires autoRadix ==> n >= 1 || rest == [] || (rest[0] != 'x' && rest[0] != 'X')
    ensures ParseUnsigned(NatToString(n) + rest, autoRadix) == Some(n)
  {
    DigitsValueOfNatToString(n);
    NumeralHasNoHexPrefix(n, rest, autoRadix);
    DigitPrefixStops(NatToString(n), rest, 10);
  }

  /** `parseInt` reads back the numeral of a non-negative integer and ignores whatever
      follows the digits. */
  lemma ParseIntOfNumeral(n: nat, rest: string, autoRadix: bool)
    requires rest == [] || !IsDigit(rest[0])
    requires autoRadix ==> n >= 1 || rest == [] || (rest[0] != 'x' && rest[0] != 'X')
    ensures ParseIntWith(NatToString(n) + rest, autoRadix) == Some(n)
  {
    var r := NatToString(n);
    var s := r + rest;
    assert s[0] == r[0] && IsDigit(r[0]);
    TrimStartUnchanged(s);
    ParseUnsignedOfNumeral(n, rest, autoRadix);
  }

  lemma NumeralHasNoHexPrefix(n: nat, rest: string, autoRadix: bool)
    requires rest == [] || !IsDigit(rest[0])
    requires autoRadix ==> n >= 1 || rest == [] || (rest[0] != 'x' && rest[0] != 'X')
    ensures !(autoRadix && HasHexPrefix(NatToString(n) + rest))
  {
    var r := NatToString(n);
    var s := r + rest;
    if |r| > 1 {
      assert s[1] == r[1] && IsDigit(r[1]);
    } else {
      assert n < 10 && r == [DigitChar(n)];
      assert n >= 1 ==> s[0] != '0';
      assert rest != [] ==> s[1] == rest[0];
    }
  }

  /** `parseInt(String(n), 10)` is `n` for every non-negative integer. */
  lemma ParseIntDecimalRoundTrip(n: nat)
    ensures ParseIntDecimal(NatToString(n)) == Some(n)
  {
    ParseIntOfNumeral(n, "", false);
    assert NatToString(n) + "" == NatToString(n);
  }
}

=== FILE: theme.dfy ===
/** The theme hook (frontend/src/hooks/useTheme.ts): the theme chosen on mount, the toggle,
    and the effect that writes the theme to storage and to the root element's class list.
    Storage and the class list are values here; the system preference is a parameter. */
module Theme {
  import opened Wrappers

  datatype Theme = Dark | Light

  /** The name stored under the `theme` key. */
  function Name(t: Theme): (s: string)
    ensures s == "dark" || s == "light"
  {
    match t
    case Dark => "dark"
    case Light => "light"
  }

  /** The theme on mount: a stored "dark" or "light" wins; anything else, or nothing, gives
      dark whether or not the system prefers dark. */
  function InitialTheme(stored: Option<string>, systemDark: bool): (t: Theme)
    ensures stored == Some("light") ==> t == Light
    ensures stored != Some("light") ==> t == Dark
  {
    if stored == Some("dark") then Dark
    else if stored == Some("light") then Light
    else if systemDark then Dark
    else Dark
  }

  /** The system preference never decides the theme. */
  lemma SystemPreferenceIgnored(stored: Option<string>, a: bool, b: bool)
    ensures InitialTheme(stored, a) == InitialTheme(stored, b)
  {
  }

  /** What `prefers-color-scheme` reports. */
  datatype Scheme = PrefersDark | PrefersLight | NoPreference

  /** The order the hook's doc comment promises: a stored name, else the system preference,
      else dark. */
  function IntendedInitialTheme(stored: Option<string>, scheme: Scheme): (t: Theme)
    ensures stored == Some("dark") ==> t == Dark
    ensures stored == Some("light") ==> t == Light
    ensures stored != Some("dark") && stored != Some("light") ==> (t == Light <==> scheme == PrefersLight)
  {
    if stored == Some("dark") then Dark
    else if stored == Some("light") then Light
    else if scheme == PrefersLight then Light
    else Dark
  }

  /** The two agree whenever a name is stored; with nothing stored and a system that prefers
      light, the hook as written still picks dark. */
  lemma {:induction false} IntendedDiffersOnLightSystem(stored: Option<string>, systemDark: bool)
    ensures stored == Some("dark") || stored == Some("light") ==>
      IntendedInitialTheme(stored, if systemDark then PrefersDark else PrefersLight) == InitialTheme(stored, systemDark)
    ensures stored != Some("dark") && stored != Some("light") ==>
      IntendedInitialTheme(stored, PrefersLight) == Light && InitialTheme(stored, systemDark) == Dark
  {
  }

  /** A stored name is read back as the theme it names. */
  lemma StoredNameReadBack(t: Theme, systemDark: bool)
    ensures InitialTheme(Some(Name(t)), systemDark) == t
  {
  }

  /** `toggleTheme`. */
  function Toggle(t: Theme): (r: Theme)
    ensures r != t
  {
    if t == Dark then Light else Dark
  }

  lemma ToggleTwice(t: Theme)
    ensures Toggle(Toggle(t)) == t
  {
  }

  /** The state the hook touches: its theme, the stored value and the root's classes. */
  datatype Page = Page(theme: Theme, stored: Option<string>, rootClasses: set<string>)

  /** The storage and the root class agree with the theme. */
  predicate Synced(p: Page) {
    p.stored == Some(Name(p.theme)) && ("dark" in p.rootClasses <==> p.theme == Dark)
  }

  /** The effect that runs after every change of theme. */
  function Effect(p: Page): (r: Page)
    ensures Synced(r) && r.theme == p.theme
    ensures forall c :: c != "dark" ==> (c in r.rootClasses <==> c in p.rootClasses)
  {
    var classes := if p.theme == Dark then p.rootClasses + {"dark"} else p.rootClasses - {"dark"};
    Page(p.theme, Some(Name(p.theme)), classes)
  }

  /** Mounting: the initial theme, then the effect. */
  function Mount(stored: Option<string>, systemDark: bool, rootClasses: set<string>): (p: Page)
    ensures Synced(p)
  {
    Effect(Page(InitialTheme(stored, systemDark), stored, rootClasses))
  }

  /** A toggle and the effect it triggers. */
  function ToggleStep(p: Page): (r: Page)
    ensures Synced(r) && r.theme == Toggle(p.theme)
    ensures forall c :: c != "dark" ==> (c in r.rootClasses <==> c in p.rootClasses)
  {
    Effect(p.(theme := Toggle(p.theme)))
  }

  function Toggles(p: Page, n: nat): Page
    decreases n
  {
    if n == 0 then p else Toggles(ToggleStep(p), n - 1)
  }

  /** After any number of toggles the page is in sync, an even number restores the theme,
      and no other root class changes. */
  lemma {:induction false} TogglesKeepSync(p: Page, n: nat)
    requires Synced(p)
    ensures Synced(Toggles(p, n))
    ensures Toggles(p, n).theme == if n % 2 == 0 then p.theme else Toggle(p.theme)
    ensures forall c :: c != "dark" ==> (c in Toggles(p, n).rootClasses <==> c in p.rootClasses)
    decreases n
  {
    if n > 0 {
      TogglesKeepSync(ToggleStep(p), n - 1);
    }
  }

  /** Reloading the page after any toggles brings back the theme it showed. */
  lemma ReloadKeepsTheme(p: Page, systemDark: bool)
    requires Synced(p)
    ensures Mount(p.stored, systemDark, p.rootClasses) == p
  {
  }
}

=== FILE: toast.dfy ===
/** The module-level toast store (frontend/src/components/ui/use-toast.ts): the id counter,
    the list of toasts, the registered listeners and the calls made to them. The five-second
    timer that removes a toast is an explicit `Expire` step; timers fire in the order they
    were set, since every one of them waits the same time. */
module Toast {
  import opened Wrappers
  import opened Strings
  import opened Seqs

  datatype Variant = Default | Destructive | Success

  /** What a caller passes: everything of a toast but its id. */
  datatype Content = Content(title: Option<string>, description: Option<string>, variant: Option<Variant>)

  datatype Toast = Toast(id: string, content: Content)

  /** A listener is named by a number; `deliveries` logs every call, with the list passed. */
  datatype Store = Store(
    counter: nat, toasts: seq<Toast>, listeners: seq<nat>,
    deliveries: seq<(nat, seq<Toast>)>, timers: seq<string>)

  const Initial := Store(0, [], [], [], [])

  /** The `n`-th id. */
  function ToastId(n: nat): string {
    "toast-" + NatToString(n)
  }

  lemma ToastIdInjective(n: nat, m: nat)
    requires ToastId(n) == ToastId(m)
    ensures n == m
  {
    assert ToastId(n)[6..] == NatToString(n);
    assert ToastId(m)[6..] == NatToString(m);
    NatToStringInjective(n, m);
  }

  /** One call per listener, in registration order, each passed `toasts`. */
  function Notify(listeners: seq<nat>, toasts: seq<Toast>): (calls: seq<(nat, seq<Toast>)>)
    ensures |calls| == |listeners|
    ensures forall i :: 0 <= i < |calls| ==> calls[i] == (listeners[i], toasts)
  {
    seq(|listeners|, i requires 0 <= i < |listeners| => (listeners[i], toasts))
  }

  /** `addToast`: the counter is bumped before use, the toast goes last, every listener is
      told, a timer is set for the new id, and the id is returned. */
  function AddToast(s: Store, c: Content): (r: (Store, string))
    ensures r.1 == ToastId(s.counter + 1) && r.0.counter == s.counter + 1
    ensures r.0.toasts == s.toasts + [Toast(r.1, c)]
    ensures r.0.listeners == s.listeners
    ensures r.0.deliveries == s.deliveries + Notify(s.listeners, r.0.toasts)
    ensures r.0.timers == s.timers + [r.1]
  {
    var id := ToastId(s.counter + 1);
    var toasts := s.toasts + [Toast(id, c)];
    (Store(s.counter + 1, toasts, s.listeners, s.deliveries + Notify(s.listeners, toasts), s.timers + [id]), id)
  }

  predicate Keep(t: Toast, id: string) {
    t.id != id
  }

  /** `removeToast`: drops every toast with that id, keeps the rest in order, and tells every
      listener. */
  function RemoveToast(s: Store, id: string): (r: Store)
    ensures forall i :: 0 <= i < |r.toasts| ==> r.toasts[i].id != id && r.toasts[i] in s.toasts
    ensures forall i :: 0 <= i < |s.toasts| && s.toasts[i].id != id ==> s.toasts[i] in r.toasts
    ensures IsSubseq(r.toasts, s.toasts)
    ensures forall t :: Count(r.toasts, t) == (if t.id != id then Count(s.toasts, t) else 0)
    ensures r.counter == s.counter && r.listeners == s.listeners && r.timers == s.timers
    ensures r.deliveries == s.deliveries + Notify(s.listeners, r.toasts)
  {
    var p := (t: Toast) => Keep(t, id);
    var toasts := Filter(s.toasts, p);
    assert forall t :: Count(toasts, t) == (if t.id != id then Count(s.toasts, t) else 0) by {
      forall t ensures Count(toasts, t) == (if t.id != id then Count(s.toasts, t) else 0) {
        FilterCount(s.toasts, p, t);
      }
    }
    s.(toasts := toasts, deliveries := s.deliveries + Notify(s.listeners, toasts))
  }

  /** Removing an id no toast has leaves the list as it was (the listeners are still told). */
  lemma RemoveAbsent(s: Store, id: string)
    requires forall i :: 0 <= i < |s.toasts| ==> s.toasts[i].id != id
    ensures RemoveToast(s, id).toasts == s.toasts
  {
    FilterAll(s.toasts, (t: Toast) => Keep(t, id));
  }

  /** The oldest pending timer fires and removes its toast; with no timer nothing happens. */
  function Expire(s: Store): (r: Store)
    ensures |s.timers| > 0 ==> r == RemoveToast(s, s.timers[0]).(timers := s.timers[1..])
    ensures |s.timers| == 0 ==> r == s
  {
    if |s.timers| == 0 then s else RemoveToast(s, s.timers[0]).(timers := s.timers[1..])
  }

  /** `useToast`'s registration: a setter is added only when it is not there yet. */
  function Register(s: Store, listener: nat): (r: Store)
    ensures listener in r.listeners
    ensures NoDuplicates(s.listeners) ==> NoDuplicates(r.listeners)
    ensures forall l :: l != listener ==> (l in r.listeners <==> l in s.listeners)
    ensures r.toasts == s.toasts && r.counter == s.counter && r.deliveries == s.deliveries
  {
    if listener in s.listeners then s else s.(listeners := s.listeners + [listener])
  }

  /** Registering twice is registering once. */
  lemma RegisterIdempotent(s: Store, listener: nat)
    ensures Register(Register(s, listener), listener) == Register(s, listener)
  {
  }

  // ---------------------------------------------------------------------------------------
  // The store's invariant
  // ---------------------------------------------------------------------------------------

  /** Every id was handed out, so it is `toast-k` for some `k` up to the counter. */
  predicate Issued(id: string, counter: nat) {
    exists k :: 1 <= k <= counter && id == ToastId(k)
  }

  predicate DistinctIds(ts: seq<Toast>) {
    forall i, j :: 0 <= i < j < |ts| ==> ts[i].id != ts[j].id
  }

  /** Ids are issued and distinct, every shown toast still has its timer pending, and no
      listener is registered twice. */
  predicate Valid(s: Store) {
    (forall i :: 0 <= i < |s.toasts| ==> Issued(s.toasts[i].id, s.counter))
    && (forall i :: 0 <= i < |s.timers| ==> Issued(s.timers[i], s.counter))
    && DistinctIds(s.toasts)
    && (forall i :: 0 <= i < |s.toasts| ==> s.toasts[i].id in s.timers)
    && NoDuplicates(s.listeners)
  }

  lemma InitialValid()
    ensures Valid(Initial)
  {
  }

  /** No issued id equals the next one. */
  lemma NextIdIsFresh(id: string, counter: nat)
    requires Issued(id, counter)
    ensures id != ToastId(counter + 1)
  {
    var k :| 1 <= k <= counter && id == ToastId(k);
    if id == ToastId(counter + 1) {
      ToastIdInjective(k, counter + 1);
    }
  }

  lemma AddKeepsValid(s: Store, c: Content)
    requires Valid(s)
    ensures Valid(AddToast(s, c).0)
  {
    var r := AddToast(s, c).0;
    var id := ToastId(s.counter + 1);
    forall i | 0 <= i < |s.toasts| ensures s.toasts[i].id != id {
      NextIdIsFresh(s.toasts[i].id, s.counter);
    }
    forall i | 0 <= i < |r.toasts| ensures Issued(r.toasts[i].id, r.counter) {
      if i < |s.toasts| {
        var k :| 1 <= k <= s.counter && s.toasts[i].id == ToastId(k);
        assert r.toasts[i].id == ToastId(k);
      } else {
        assert r.toasts[i].id == ToastId(r.counter);
      }
    }
    forall i | 0 <= i < |r.timers| ensures Issued(r.timers[i], r.counter) {
      if i < |s.timers| {
        var k :| 1 <= k <= s.counter && s.timers[i] == ToastId(k);
        assert r.timers[i] == ToastId(k);
      } else {
        assert r.timers[i] == ToastId(r.counter);
      }
    }
    forall i | 0 <= i < |r.toasts| ensures r.toasts[i].id in r.timers {
      if i < |s.toasts| {
        assert s.toasts[i].id in s.timers;
      } else {
        assert r.timers[|s.timers|] == id;
      }
    }
  }

  lemma {:induction false} FilterKeepsDistinct(ts: seq<Toast>, id: string)
    requires DistinctIds(ts)
    ensures DistinctIds(Filter(ts, (t: Toast) => Keep(t, id)))
  {
    if |ts| > 0 {
      var p := (t: Toast) => Keep(t, id);
      var rest := Filter(ts[1..], p);
      assert DistinctIds(ts[1..]);
      FilterKeepsDistinct(ts[1..], id);
      forall j | 0 <= j < |rest| ensures rest[j].id != ts[0].id {
        var k :| 0 <= k < |ts[1..]| && ts[1..][k] == rest[j];
        assert ts[k + 1] == rest[j];
      }
    }
  }

  lemma RemoveKeepsValid(s: Store, id: string)
    requires Valid(s)
    ensures Valid(RemoveToast(s, id))
  {
    FilterKeepsDistinct(s.toasts, id);
  }

  lemma ExpireKeepsValid(s: Store)
    requires Valid(s)
    ensures Valid(Expire(s))
  {
    if |s.timers| > 0 {
      var id := s.timers[0];
      var r := RemoveToast(s, id);
      RemoveKeepsValid(s, id);
      forall i | 0 <= i < |r.toasts| ensures r.toasts[i].id in s.timers[1..] {
        var t := r.toasts[i];
        assert t in s.toasts;
        var k :| 0 <= k < |s.toasts| && s.toasts[k] == t;
        var m :| 0 <= m < |s.timers| && s.timers[m] == t.id;
        assert m != 0;
        assert s.timers[1..][m - 1] == t.id;
      }
    }
  }

  /** Dropping an id that only the last toast has gives back the toasts before it. */
  lemma DropLast(ts: seq<Toast>, t: Toast)
    requires forall i :: 0 <= i < |ts| ==> ts[i].id != t.id
    ensures Filter(ts + [t], (x: Toast) => Keep(x, t.id)) == ts
  {
    var p := (x: Toast) => Keep(x, t.id);
    assert Filter(ts, p) == ts by {
      FilterAll(ts, p);
    }
    assert Filter([t], p) == [] by {
      FilterNone([t], p);
    }
    FilterConcat(ts, [t], p);
    assert ts + [] == ts;
  }

  /** A toast's own timer takes it away again and leaves the earlier toasts as they were. */
  lemma AddThenRemove(s: Store, c: Content)
    requires Valid(s)
    ensures var (r, id) := AddToast(s, c);
      RemoveToast(r, id).toasts == s.toasts
  {
    var id := ToastId(s.counter + 1);
    forall i | 0 <= i < |s.toasts| ensures s.toasts[i].id != id {
      NextIdIsFresh(s.toasts[i].id, s.counter);
    }
    DropLast(s.toasts, Toast(id, c));
  }

  /** A toast on show means a timer is pending. */
  lemma PendingTimer(ts: seq<Toast>, timers: seq<string>)
    requires forall i :: 0 <= i < |ts| ==> ts[i].id in timers
    ensures |ts| > 0 ==> |timers| > 0
  {
    if |ts| > 0 {
      assert ts[0].id in timers;
    }
  }

  function ExpireAll(s: Store, n: nat): Store
    decreases n
  {
    if n == 0 then s else ExpireAll(Expire(s), n - 1)
  }

  /** Once every pending timer has fired no toast is left. */
  lemma {:induction false} AllTimersClearToasts(s: Store)
    requires Valid(s)
    ensures Valid(ExpireAll(s, |s.timers|)) && ExpireAll(s, |s.timers|).toasts == []
    decreases |s.timers|
  {
    if |s.timers| == 0 {
      PendingTimer(s.toasts, s.timers);
    } else {
      var s1 := Expire(s);
      assert |s1.timers| == |s.timers| - 1;
      assert ExpireAll(s, |s.timers|) == ExpireAll(s1, |s1.timers|);
      ExpireKeepsValid(s);
      AllTimersClearToasts(s1);
    }
  }
}

=== FILE: utils.dfy ===
/** Two helpers of frontend/src/lib/utils.ts: `cn`, which joins the truthy arguments into a
    class list, and the method-to-colour table `getMethodColor`. */
module Utils {
  import opened Wrappers
  import opened Strings
  import opened Seqs
  import opened Assoc

  // ---------------------------------------------------------------------------------------
  // cn
  // ---------------------------------------------------------------------------------------

  /** One argument of `cn`: a string, a boolean, or `null`/`undefined`. */
  datatype ClassArg = Str(s: string) | Flag(b: bool) | Nothing

  /** `Boolean(arg)`: non-empty strings and `true`. */
  predicate Truthy(a: ClassArg) {
    (a.Str? && a.s != "") || (a.Flag? && a.b)
  }

  /** How `join` prints an argument that survived the filter. */
  function Word(a: ClassArg): string {
    match a
    case Str(s) => s
    case Flag(b) => if b then "true" else "false"
    case Nothing => ""
  }

  /** The printed form of the truthy arguments, in order; none of them is empty. */
  function Kept(args: seq<ClassArg>): (ws: seq<string>)
    ensures |ws| <= |args|
    ensures forall i :: 0 <= i < |ws| ==> ws[i] != ""
  {
    if |args| == 0 then []
    else (if Truthy(args[0]) then [Word(args[0])] else []) + Kept(args[1..])
  }

  /** `cn(...classes)`. */
  function Cn(args: seq<ClassArg>): (r: string)
    ensures |Kept(args)| == 1 ==> r == Kept(args)[0]
  {
    Join(Kept(args), " ")
  }

  /** The kept words are the filtered arguments, printed one by one. */
  lemma {:induction false} KeptIsFilteredWords(args: seq<ClassArg>)
    ensures var f := Filter(args, Truthy);
      |Kept(args)| == |f| && forall i :: 0 <= i < |f| ==> Kept(args)[i] == Word(f[i])
  {
    if |args| > 0 {
      var f1, k1 := Filter(args[1..], Truthy), Kept(args[1..]);
      KeptIsFilteredWords(args[1..]);
      if Truthy(args[0]) {
        assert Filter(args, Truthy) == [args[0]] + f1;
        assert Kept(args) == [Word(args[0])] + k1;
        WordsCons(args[0], f1, k1);
      } else {
        assert Filter(args, Truthy) == f1;
        assert Kept(args) == [] + k1 == k1;
      }
    }
  }

  /** Words printed one by one stay so with one more argument in front. */
  lemma WordsCons(a: ClassArg, f1: seq<ClassArg>, k1: seq<string>)
    requires |k1| == |f1| && forall i :: 0 <= i < |f1| ==> k1[i] == Word(f1[i])
    ensures forall i :: 0 <= i < |f1| + 1 ==> ([Word(a)] + k1)[i] == Word(([a] + f1)[i])
  {
    forall i | 0 < i < |f1| + 1 ensures ([Word(a)] + k1)[i] == Word(([a] + f1)[i]) {
      assert ([a] + f1)[i] == f1[i - 1] && ([Word(a)] + k1)[i] == k1[i - 1];
    }
  }

  lemma {:induction false} KeptConcat(a: seq<ClassArg>, b: seq<ClassArg>)
    ensures Kept(a + b) == Kept(a) + Kept(b)
  {
    if |a| == 0 {
      assert a + b == b;
    } else {
      assert (a + b)[1..] == a[1..] + b;
      KeptConcat(a[1..], b);
    }
  }

  /** With no truthy argument the result is the empty string. */
  lemma {:induction false} CnOfNothingTruthy(args: seq<ClassArg>)
    requires forall i :: 0 <= i < |args| ==> !Truthy(args[i])
    ensures Cn(args) == ""
  {
    KeptIsFilteredWords(args);
    FilterNone(args, Truthy);
  }

  /** A falsy argument anywhere in the list changes nothing. */
  lemma CnDropsFalsy(before: seq<ClassArg>, x: ClassArg, after: seq<ClassArg>)
    requires !Truthy(x)
    ensures Cn(before + [x] + after) == Cn(before + after)
  {
    KeptConcat(before + [x], after);
    KeptConcat(before, [x]);
    KeptConcat(before, after);
    assert Kept([x]) == [] + Kept([x][1..]);
    assert Kept(before + [x]) == Kept(before);
  }

  /** `true` is printed as the class "true". */
  lemma CnPrintsTrue(cls: string)
    requires cls != ""
    ensures Cn([Str(cls), Flag(true), Flag(false), Nothing, Str("")]) == cls + " " + "true"
  {
    var args := [Str(cls), Flag(true), Flag(false), Nothing, Str("")];
    var head, tail := [Str(cls), Flag(true)], args[2..];
    assert args == head + tail;
    KeptConcat(head, tail);
    CnOfNothingTruthy(tail);
    assert Kept(tail) == [];
    assert Kept(head[1..]) == ["true"] + Kept(head[2..]);
    assert Kept(head) == [cls, "true"];
    assert Kept(args) == [cls, "true"];
    JoinCons(cls, ["true"], " ");
  }

  lemma {:induction false} KeptFree(args: seq<ClassArg>)
    requires forall i :: 0 <= i < |args| && args[i].Str? ==> Free(args[i].s, ' ')
    ensures forall j :: 0 <= j < |Kept(args)| ==> Free(Kept(args)[j], ' ')
  {
    if |args| > 0 {
      KeptFree(args[1..]);
      assert Free("true", ' ');
    }
  }

  lemma {:induction false} KeptNotEmpty(args: seq<ClassArg>, i: nat)
    requires i < |args| && Truthy(args[i])
    ensures |Kept(args)| >= 1
  {
    if i > 0 && !Truthy(args[0]) {
      KeptNotEmpty(args[1..], i - 1);
    }
  }

  /** Split at the spaces, the result gives back the kept words when none of the string
      arguments holds a space and at least one argument is truthy. */
  lemma CnTokens(args: seq<ClassArg>, i: nat)
    requires forall i :: 0 <= i < |args| && args[i].Str? ==> Free(args[i].s, ' ')
    requires i < |args| && Truthy(args[i])
    ensures Split(Cn(args), ' ') == Kept(args)
  {
    KeptFree(args);
    KeptNotEmpty(args, i);
    SplitJoin(Kept(args), ' ');
  }

  // ---------------------------------------------------------------------------------------
  // getMethodColor
  // ---------------------------------------------------------------------------------------

  const BlueClasses := "bg-blue-500/10 text-blue-400 border-blue-500/20"
  const GreenClasses := "bg-green-500/10 text-green-400 border-green-500/20"
  const YellowClasses := "bg-yellow-500/10 text-yellow-400 border-yellow-500/20"
  const PurpleClasses := "bg-purple-500/10 text-purple-400 border-purple-500/20"
  const RedClasses := "bg-red-500/10 text-red-400 border-red-500/20"
  const GrayClasses := "bg-gray-500/10 text-gray-400 border-gray-500/20"

  /** The `colors` record, keyed by the upper-case method names. */
  const ColorTable: Pairs<string, string> := [
    ("GET", BlueClasses), ("POST", GreenClasses), ("PUT", YellowClasses),
    ("PATCH", PurpleClasses), ("DELETE", RedClasses), ("HEAD", GrayClasses),
    ("OPTIONS", GrayClasses)]

  /** What `colors[method] || gray` yields: classes text, or, for a name the record inherits
      from `Object.prototype`, that inherited member, which is truthy and so is returned. */
  datatype Color = Classes(text: string) | Inherited(name: string)

  /** The names every plain object inherits from `Object.prototype`. */
  const InheritedNames: set<string> := {
    "constructor", "hasOwnProperty", "isPrototypeOf", "propertyIsEnumerable",
    "toLocaleString", "toString", "valueOf", "__proto__",
    "__defineGetter__", "__defineSetter__", "__lookupGetter__", "__lookupSetter__"}

  /** `getMethodColor`: the classes recorded under the key as given, the inherited member for
      a name of `Object.prototype`, gray for any other key. */
  function MethodColor(verb: string): (c: Color)
    ensures c.Inherited? <==> verb in InheritedNames
    ensures c.Inherited? ==> c.name == verb
    ensures c == Classes(GrayClasses) <==>
      verb !in InheritedNames &&
      verb != "GET" && verb != "POST" && verb != "PUT" && verb != "PATCH" && verb != "DELETE"
  {
    assert BlueClasses[3] != GrayClasses[3];
    assert |GreenClasses| != |GrayClasses| && |YellowClasses| != |GrayClasses|;
    assert |PurpleClasses| != |GrayClasses| && |RedClasses| != |GrayClasses|;
    if verb in InheritedNames then Inherited(verb)
    else
      Classes(
        match verb
        case "GET" => BlueClasses
        case "POST" => GreenClasses
        case "PUT" => YellowClasses
        case "PATCH" => PurpleClasses
        case "DELETE" => RedClasses
        case "HEAD" => GrayClasses
        case "OPTIONS" => GrayClasses
        case _ => GrayClasses)
  }

  lemma ColorTableKeys()
    ensures DistinctKeys(ColorTable)
  {
    assert Keys(ColorTable) == ["GET", "POST", "PUT", "PATCH", "DELETE", "HEAD", "OPTIONS"];
  }

  /** Every key of the record gets the classes recorded under it; HEAD and OPTIONS are
      recorded as gray. */
  lemma MethodColorRecorded(i: nat)
    requires i < |ColorTable|
    ensures MethodColor(ColorTable[i].0) == Classes(ColorTable[i].1)
    ensures Lookup(ColorTable, ColorTable[i].0) == Some(MethodColor(ColorTable[i].0).text)
  {
    assert MethodColor(ColorTable[i].0) == Classes(ColorTable[i].1) by {
      assert i == 0 || i == 1 || i == 2 || i == 3 || i == 4 || i == 5 || i == 6;
    }
    assert Lookup(ColorTable, ColorTable[i].0) == Some(ColorTable[i].1) by {
      ColorTableKeys();
      LookupAt(ColorTable, i);
    }
  }

  /** A key outside the record, such as a lower-case method, gets gray, unless the record
      inherits it from `Object.prototype`. */
  lemma MethodColorFallback(verb: string)
    requires !HasKey(ColorTable, verb)
    ensures MethodColor(verb) == (if verb in InheritedNames then Inherited(verb) else Classes(GrayClasses))
    ensures Lookup(ColorTable, verb).None?
  {
    assert ColorTable[0].0 != verb && ColorTable[1].0 != verb && ColorTable[2].0 != verb;
    assert ColorTable[3].0 != verb && ColorTable[4].0 != verb;
  }
}

=== FILE: validation.dfy ===
/** The form validators of the frontend (frontend/src/lib/validation.ts). Each returns an
    error message or nothing. `JSON.parse` and the `URL` constructor are parameters that
    say whether their input is accepted. */
module Validation {
  import opened Wrappers
  import opened Strings

  const StatusRangeError := "Status code must be between 100 and 599"
  const JsonError := "Invalid JSON syntax"
  const HeaderNameEmpty := "Header name cannot be empty"
  const HeaderNameChars := "Header name can only contain letters, numbers, and hyphens"
  const HeaderValueControl := "Header value contains invalid control characters"
  const UrlEmpty := "URL cannot be empty"
  const UrlInvalid := "Invalid URL format"
  const RateLimitNegative := "Rate limit cannot be negative"
  const RateLimitHigh := "Rate limit too high (max: 10000)"
  const MaxRequestsNegative := "Max requests cannot be negative"
  const MaxRequestsHigh := "Max requests too high (max: 100000)"

  /** `validateStatusCode`. */
  function ValidateStatusCode(code: int): (r: Option<string>)
    ensures r.None? <==> 100 <= code <= 599
    ensures r.Some? ==> r.value == StatusRangeError
  {
    if code < 100 || code > 599 then Some(StatusRangeError) else None
  }

  /** `validateJSON`: blank text is accepted without parsing; other text must parse. */
  function ValidateJson(value: string, parses: string -> bool): (r: Option<string>)
    ensures IsBlank(value) ==> r.None?
    ensures !IsBlank(value) ==> (r.None? <==> parses(value))
    ensures r.Some? ==> r.value == JsonError
  {
    if Trim(value) == "" then None
    else if parses(value) then None
    else Some(JsonError)
  }

  /** The characters of `/^[a-zA-Z0-9-]+$/`. */
  predicate IsTokenChar(c: char) {
    'a' <= c <= 'z' || 'A' <= c <= 'Z' || '0' <= c <= '9' || c == '-'
  }

  /** The length of the run of token characters at the front of `s`. */
  function TokenRun(s: string): (n: nat)
    ensures n <= |s|
    ensures forall i :: 0 <= i < n ==> IsTokenChar(s[i])
    ensures n < |s| ==> !IsTokenChar(s[n])
  {
    if |s| == 0 || !IsTokenChar(s[0]) then 0 else 1 + TokenRun(s[1..])
  }

  /** `validateHeaderName`: blank names are reported as empty; any other name must consist
      of letters, digits and hyphens only. */
  function ValidateHeaderName(name: string): (r: Option<string>)
    ensures IsBlank(name) ==> r == Some(HeaderNameEmpty)
    ensures !IsBlank(name) ==>
      (r.None? <==> forall i :: 0 <= i < |name| ==> IsTokenChar(name[i]))
    ensures !IsBlank(name) && r.Some? ==> r.value == HeaderNameChars
  {
    if Trim(name) == "" then Some(HeaderNameEmpty)
    else if |name| > 0 && TokenRun(name) == |name| then None
    else Some(HeaderNameChars)
  }

  /** The characters of `/[\x00-\x1F\x7F]/`: horizontal tab included. */
  predicate IsControl(c: char) {
    c as int <= 0x1F || c as int == 0x7F
  }

  /** The position of the first control character, or `|s|`. */
  function ControlAt(s: string): (n: nat)
    ensures n <= |s|
    ensures forall i :: 0 <= i < n ==> !IsControl(s[i])
    ensures n < |s| ==> IsControl(s[n])
  {
    if |s| == 0 || IsControl(s[0]) then 0 else 1 + ControlAt(s[1..])
  }

  /** `validateHeaderValue`: an error exactly when some character is a control character. */
  function ValidateHeaderValue(value: string): (r: Option<string>)
    ensures r.Some? <==> exists i :: 0 <= i < |value| && IsControl(value[i])
    ensures r.Some? ==> r.value == HeaderValueControl
  {
    if ControlAt(value) < |value| then Some(HeaderValueControl) else None
  }

  /** `validateURL`: blank text is reported as empty; other text must be a URL. */
  function ValidateUrl(url: string, isUrl: string -> bool): (r: Option<string>)
    ensures IsBlank(url) ==> r == Some(UrlEmpty)
    ensures !IsBlank(url) ==> (r.None? <==> isUrl(url)) && (r.Some? ==> r.value == UrlInvalid)
  {
    if Trim(url) == "" then Some(UrlEmpty)
    else if isUrl(url) then None
    else Some(UrlInvalid)
  }

  /** A JavaScript `number` as a comparison with a finite bound sees it: not a number, one of
      the two infinities, or a finite value, fractional or not. */
  datatype JsNumber = NaN | NegInfinity | PosInfinity | Finite(value: real)

  /** `x < b`: false for NaN, true for minus infinity. */
  predicate Below(x: JsNumber, b: real) {
    match x
    case NaN => false
    case NegInfinity => true
    case PosInfinity => false
    case Finite(v) => v < b
  }

  /** `x > b`: false for NaN, true for plus infinity. */
  predicate Above(x: JsNumber, b: real) {
    match x
    case NaN => false
    case NegInfinity => false
    case PosInfinity => true
    case Finite(v) => v > b
  }

  /** `validateRateLimit`: the negative check comes first; NaN fails both comparisons and is
      accepted, as is any finite value in range, whole or not. */
  function ValidateRateLimit(limit: JsNumber): (r: Option<string>)
    ensures r.None? <==> limit.NaN? || (limit.Finite? && 0.0 <= limit.value <= 10000.0)
    ensures (limit == NegInfinity || (limit.Finite? && limit.value < 0.0)) ==> r == Some(RateLimitNegative)
    ensures (limit == PosInfinity || (limit.Finite? && limit.value > 10000.0)) ==> r == Some(RateLimitHigh)
  {
    if Below(limit, 0.0) then Some(RateLimitNegative)
    else if Above(limit, 10000.0) then Some(RateLimitHigh)
    else None
  }

  /** `validateMaxRequests`: the same shape with a larger bound. */
  function ValidateMaxRequests(max: JsNumber): (r: Option<string>)
    ensures r.None? <==> max.NaN? || (max.Finite? && 0.0 <= max.value <= 100000.0)
    ensures (max == NegInfinity || (max.Finite? && max.value < 0.0)) ==> r == Some(MaxRequestsNegative)
    ensures (max == PosInfinity || (max.Finite? && max.value > 100000.0)) ==> r == Some(MaxRequestsHigh)
  {
    if Below(max, 0.0) then Some(MaxRequestsNegative)
    else if Above(max, 100000.0) then Some(MaxRequestsHigh)
    else None
  }
}

=== FILE: webhook.dfy ===
/** The capture handler of the server (src/handlers/webhook.rs): the body-size gate, what is
    stored and broadcast for an accepted request, the JSON object the request headers are
    recorded as, and the reply (default, or the endpoint's custom response).

    Foreign code enters as parameters: `HeaderName::from_str` (`Codec.headerName`, giving
    the normalised name or nothing), `HeaderValue::from_str` (`Codec.headerValueOk`),
    `serde_json` parsing of the stored header object (`Codec.parseObject`), JSON string
    quoting (`Codec.quote`) and `String::from_utf8` (`Codec.utf8`). The clock and the peer
    address are the request's `receivedAt` and `ipAddress`. */
module Webhook {
  import opened Wrappers
  import opened Strings
  import opened Assoc
  import opened Bytes
  import opened Seqs
  import RequestsApi

  const MaxBodySize: nat := 10 * 1024 * 1024

  /** The header the server always sends, in the normalised (lower-case) spelling that
      `HeaderMap` stores. */
  const AllowOriginName := "access-control-allow-origin"

  // -------------------------------------------------------------------------------------
  // headers_to_json
  // -------------------------------------------------------------------------------------

  /** A header value `to_str` accepts: visible ASCII or tab. */
  predicate VisibleAscii(v: seq<byte>) {
    forall i :: 0 <= i < |v| ==> v[i] == 9 || 32 <= v[i] < 127
  }

  /** `value.to_str().unwrap_or("[binary]")`. */
  function HeaderText(v: seq<byte>): (r: string)
    ensures VisibleAscii(v) ==> |r| == |v| && forall i :: 0 <= i < |v| ==> r[i] as int == v[i] as int
    ensures !VisibleAscii(v) ==> r == "[binary]"
  {
    if VisibleAscii(v) then seq(|v|, i requires 0 <= i < |v| => v[i] as int as char) else "[binary]"
  }

  /** The values the header object can hold. */
  datatype JsonValue = JString(s: string) | JArray(items: seq<string>)

  /** One step of the loop: a first value is stored as a string, a second turns the entry
      into an array of both, later ones are pushed onto the array. */
  function AddHeader(obj: Pairs<string, JsonValue>, name: string, val: string): Pairs<string, JsonValue>
  {
    var current: Option<JsonValue> := Lookup(obj, name);
    match current
    case Some(JArray(items)) => Insert(obj, name, JArray(items + [val]))
    case Some(JString(first)) => Insert(obj, name, JArray([first, val]))
    case None => Insert(obj, name, JString(val))
  }

  /** The header object built from the request headers in iteration order. */
  function HeaderObject(hs: seq<(string, seq<byte>)>): Pairs<string, JsonValue>
  {
    if |hs| == 0 then []
    else
      var last := hs[|hs| - 1];
      AddHeader(HeaderObject(hs[..|hs| - 1]), last.0, HeaderText(last.1))
  }

  /** The texts of the values sent under `name`, in iteration order. */
  function ValuesOf(hs: seq<(string, seq<byte>)>, name: string): seq<string>
  {
    if |hs| == 0 then []
    else
      var last := hs[|hs| - 1];
      ValuesOf(hs[..|hs| - 1], name) + (if last.0 == name then [HeaderText(last.1)] else [])
  }

  /** What a name with these values is recorded as. */
  function Grouped(vs: seq<string>): Option<JsonValue> {
    if |vs| == 0 then None
    else if |vs| == 1 then Some(JString(vs[0]))
    else Some(JArray(vs))
  }

  /** One step adds `val` to the values recorded under `name` and touches no other name. */
  lemma AddHeaderStep(obj: Pairs<string, JsonValue>, name: string, val: string, vs: seq<string>)
    requires DistinctKeys(obj) && Lookup(obj, name) == Grouped(vs)
    ensures DistinctKeys(AddHeader(obj, name, val))
    ensures Lookup(AddHeader(obj, name, val), name) == Grouped(vs + [val])
    ensures forall other :: other != name ==> Lookup(AddHeader(obj, name, val), other) == Lookup(obj, other)
  {
    var current: Option<JsonValue> := Lookup(obj, name);
    var next := match current
      case Some(JArray(items)) => JArray(items + [val])
      case Some(JString(first)) => JArray([first, val])
      case None => JString(val);
    assert AddHeader(obj, name, val) == Insert(obj, name, next);
    InsertKeys(obj, name, next);
    InsertLookup(obj, name, next);
    if |vs| == 1 {
      assert vs + [val] == [vs[0], val];
    }
  }

  /** The header object has one entry per name, and a name's entry is what its values are
      recorded as. */
  lemma {:induction false} HeaderObjectAt(hs: seq<(string, seq<byte>)>, name: string)
    ensures DistinctKeys(HeaderObject(hs))
    ensures Lookup(HeaderObject(hs), name) == Grouped(ValuesOf(hs, name))
    decreases |hs|
  {
    if |hs| > 0 {
      var init := hs[..|hs| - 1];
      var last := hs[|hs| - 1];
      var val := HeaderText(last.1);
      var obj := HeaderObject(init);
      HeaderObjectAt(init, last.0);
      AddHeaderStep(obj, last.0, val, ValuesOf(init, last.0));
      assert HeaderObject(hs) == AddHeader(obj, last.0, val);
      if name == last.0 {
        assert ValuesOf(hs, name) == ValuesOf(init, name) + [val];
      } else {
        HeaderObjectAt(init, name);
        assert ValuesOf(hs, name) == ValuesOf(init, name);
        assert Lookup(HeaderObject(hs), name) == Lookup(obj, name);
      }
    }
  }

  /** A name sent once maps to its value as a string, a name sent k >= 2 times maps to the
      array of its k values in order, and no other name appears. */
  lemma HeaderObjectMeaning(hs: seq<(string, seq<byte>)>)
    ensures DistinctKeys(HeaderObject(hs))
    ensures forall name :: Lookup(HeaderObject(hs), name) == Grouped(ValuesOf(hs, name))
  {
    HeaderObjectAt(hs, "");
    forall name ensures Lookup(HeaderObject(hs), name) == Grouped(ValuesOf(hs, name)) {
      HeaderObjectAt(hs, name);
    }
  }

  /** Serialising the object: `{"name":value,...}` with strings quoted by `quote`. */
  function JsonText(obj: Pairs<string, JsonValue>, quote: string -> string): (r: string)
    ensures |obj| == 0 ==> r == "{}"
  {
    "{" + Join(Members(obj, quote), ",") + "}"
  }

  function Members(obj: Pairs<string, JsonValue>, quote: string -> string): (r: seq<string>)
    ensures |r| == |obj|
  {
    seq(|obj|, i requires 0 <= i < |obj| => quote(obj[i].0) + ":" + ValueText(obj[i].1, quote))
  }

  function ValueText(v: JsonValue, quote: string -> string): string {
    match v
    case JString(s) => quote(s)
    case JArray(items) => "[" + Join(seq(|items|, i requires 0 <= i < |items| => quote(items[i])), ",") + "]"
  }

  /** `headers_to_json`. */
  function HeadersToJson(hs: seq<(string, seq<byte>)>, quote: string -> string): (r: string)
    ensures |hs| == 0 ==> r == "{}"
  {
    JsonText(HeaderObject(hs), quote)
  }

  // -------------------------------------------------------------------------------------
  // The handler
  // -------------------------------------------------------------------------------------

  datatype Incoming = Incoming(
    endpointId: string,
    httpMethod: string,
    path: string,
    query: Option<string>,
    headers: seq<(string, seq<byte>)>,
    body: seq<byte>,
    receivedAt: string,
    ipAddress: string)

  /** A field of the stored custom header object: a JSON string, or any other JSON value. */
  datatype JsonField = FieldString(s: string) | FieldOther

  datatype Codec = Codec(
    headerName: string -> Option<string>,
    headerValueOk: string -> bool,
    parseObject: string -> Option<seq<(string, JsonField)>>,
    quote: string -> string,
    utf8: seq<byte> -> Option<string>)

  /** The row inserted into `requests`. */
  datatype NewRecord = NewRecord(
    endpointId: string,
    httpMethod: string,
    path: string,
    queryString: Option<string>,
    headersJson: string,
    body: Option<seq<byte>>,
    contentType: Option<string>,
    receivedAt: string,
    ipAddress: string)

  datatype Reply = Reply(status: int, headers: Pairs<string, string>, body: string)

  /** `Rejected`: the handler's error status. `Accepted`: the row the background task
      inserts, the body text it broadcasts, and the reply. */
  datatype Outcome =
    | Rejected(status: int)
    | Accepted(record: NewRecord, broadcastBody: Option<seq<char>>, reply: Reply)

  /** `headers.get("content-type")`: the first value under that name, if `to_str` takes it. */
  function ContentType(hs: seq<(string, seq<byte>)>): (r: Option<string>)
    ensures (forall i :: 0 <= i < |hs| ==> hs[i].0 != "content-type") ==> r.None?
    ensures forall i ::
      (0 <= i < |hs| && hs[i].0 == "content-type" && (forall j :: 0 <= j < i ==> hs[j].0 != "content-type")) ==>
      r == (if VisibleAscii(hs[i].1) then Some(HeaderText(hs[i].1)) else None)
  {
    if |hs| == 0 then None
    else if hs[0].0 == "content-type" then
      (if VisibleAscii(hs[0].1) then Some(HeaderText(hs[0].1)) else None)
    else
      var r := ContentType(hs[1..]);
      assert forall i :: 1 <= i < |hs| ==> hs[i] == hs[1..][i - 1];
      r
  }

  /** The values under a name, read from the front: the first header's, then the rest's. */
  lemma {:induction false} ValuesOfCons(h: (string, seq<byte>), t: seq<(string, seq<byte>)>, name: string)
    ensures ValuesOf([h] + t, name) == (if h.0 == name then [HeaderText(h.1)] else []) + ValuesOf(t, name)
    decreases |t|
  {
    if |t| > 0 {
      var init := t[..|t| - 1];
      assert ([h] + t)[..|[h] + t| - 1] == [h] + init;
      ValuesOfCons(h, init, name);
    } else {
      assert ([h] + t)[..0] == [];
    }
  }

  /** The content type stored with the request is the first value the header object records
      under `content-type`; when that value is unreadable no content type is stored and the
      header object shows "[binary]" for it. */
  lemma {:induction false} ContentTypeIsFirstRecorded(hs: seq<(string, seq<byte>)>)
    ensures ValuesOf(hs, "content-type") == [] ==> ContentType(hs).None?
    ensures ContentType(hs).Some? ==>
      ValuesOf(hs, "content-type") != [] && ValuesOf(hs, "content-type")[0] == ContentType(hs).value
    ensures ValuesOf(hs, "content-type") != [] && ContentType(hs).None? ==> ValuesOf(hs, "content-type")[0] == "[binary]"
    decreases |hs|
  {
    if |hs| > 0 {
      assert hs == [hs[0]] + hs[1..];
      ValuesOfCons(hs[0], hs[1..], "content-type");
      if hs[0].0 != "content-type" {
        ContentTypeIsFirstRecorded(hs[1..]);
      }
    }
  }

  /** `StatusCode::from_u16(status as u16)`, falling back to 200: the stored `i32` keeps its
      low 16 bits, and `from_u16` takes 100..=999. */
  function ReplyStatus(stored: int): (r: int)
    ensures 100 <= r <= 999
    ensures 100 <= stored <= 999 ==> r == stored
    ensures var low := stored % 65536; (100 <= low <= 999 ==> r == low) && (!(100 <= low <= 999) ==> r == 200)
  {
    var low := stored % 65536;
    if 100 <= low <= 999 then low else 200
  }

  /** A stored header entry the loop inserts: a valid name and a string value the
      `HeaderValue` parser accepts. */
  function Accept(entry: (string, JsonField), codec: Codec): Option<(string, string)> {
    match codec.headerName(entry.0)
    case None => None
    case Some(name) =>
      match entry.1
      case FieldOther => None
      case FieldString(v) => if codec.headerValueOk(v) then Some((name, v)) else None
  }

  /** The loop over the stored entries, inserting the accepted ones. */
  function InsertEntries(h: Pairs<string, string>, entries: seq<(string, JsonField)>, codec: Codec)
    : Pairs<string, string>
    decreases |entries|
  {
    if |entries| == 0 then h
    else
      var next := match Accept(entries[0], codec)
        case Some(p) => Insert(h, p.0, p.1)
        case None => h;
      InsertEntries(next, entries[1..], codec)
  }

  /** The accepted entries, in order. */
  function AcceptedEntries(entries: seq<(string, JsonField)>, codec: Codec): seq<(string, string)>
  {
    if |entries| == 0 then []
    else
      (match Accept(entries[0], codec) case Some(p) => [p] case None => [])
      + AcceptedEntries(entries[1..], codec)
  }

  /** One turn of the insertion loop. */
  lemma InsertEntriesStep(ps: seq<(string, string)>, entries: seq<(string, JsonField)>, codec: Codec)
    requires |entries| > 0
    ensures Accept(entries[0], codec).Some? ==>
      InsertEntries(FromPairs(ps), entries, codec)
        == InsertEntries(FromPairs(ps + [Accept(entries[0], codec).value]), entries[1..], codec)
      && AcceptedEntries(entries, codec) == [Accept(entries[0], codec).value] + AcceptedEntries(entries[1..], codec)
    ensures Accept(entries[0], codec).None? ==>
      InsertEntries(FromPairs(ps), entries, codec) == InsertEntries(FromPairs(ps), entries[1..], codec)
      && AcceptedEntries(entries, codec) == AcceptedEntries(entries[1..], codec)
  {
    if Accept(entries[0], codec).Some? {
      var p := Accept(entries[0], codec).value;
      assert (ps + [p])[..|ps + [p]| - 1] == ps;
    }
  }

  /** The insertion loop is the same as writing the accepted entries after the ones already
      there. */
  lemma {:induction false} InsertEntriesIsFromPairs(ps: seq<(string, string)>, entries: seq<(string, JsonField)>, codec: Codec)
    ensures InsertEntries(FromPairs(ps), entries, codec) == FromPairs(ps + AcceptedEntries(entries, codec))
    decreases |entries|
  {
    if |entries| == 0 {
      assert ps + AcceptedEntries(entries, codec) == ps;
    } else {
      InsertEntriesStep(ps, entries, codec);
      var rest := AcceptedEntries(entries[1..], codec);
      if Accept(entries[0], codec).Some? {
        var p := Accept(entries[0], codec).value;
        InsertEntriesIsFromPairs(ps + [p], entries[1..], codec);
        SeqAssoc(ps, [p], rest);
      } else {
        InsertEntriesIsFromPairs(ps, entries[1..], codec);
      }
    }
  }

  /** The custom reply's headers: `Access-Control-Allow-Origin: *`, then every accepted stored
      entry. */
  function CustomHeaders(stored: Option<string>, codec: Codec): Pairs<string, string> {
    var start := [(AllowOriginName, "*")];
    match stored
    case None => start
    case Some(text) =>
      match codec.parseObject(text)
      case None => start
      case Some(entries) => InsertEntries(start, entries, codec)
  }

  /** The stored entries the loop walks over: none when there is no stored object or it
      does not parse. */
  function StoredEntries(stored: Option<string>, codec: Codec): seq<(string, JsonField)> {
    if stored.Some? && codec.parseObject(stored.value).Some? then codec.parseObject(stored.value).value else []
  }

  /** The custom headers are the allow-origin pair followed by the accepted entries, written
      into an empty map one after another. */
  lemma CustomHeadersAre(stored: Option<string>, codec: Codec)
    ensures CustomHeaders(stored, codec)
         == FromPairs([(AllowOriginName, "*")] + AcceptedEntries(StoredEntries(stored, codec), codec))
  {
    var start := [(AllowOriginName, "*")];
    assert FromPairs(start) == start by {
      assert start[..0] == [];
    }
    var entries := StoredEntries(stored, codec);
    InsertEntriesIsFromPairs(start, entries, codec);
    if entries == [] {
      assert AcceptedEntries(entries, codec) == [];
      assert start + [] == start;
    }
  }

  /** Each reply header holds the value of the last accepted entry with that name; the
      allow-origin header is "*" unless an accepted entry overrides it; no other header
      appears. */
  lemma CustomHeadersMeaning(stored: Option<string>, codec: Codec, name: string)
    ensures var accepted := AcceptedEntries(StoredEntries(stored, codec), codec);
      var h := CustomHeaders(stored, codec);
      DistinctKeys(h)
      && Lookup(h, name) == (if HasKey(accepted, name) then Lookup(accepted, name)
                             else if name == AllowOriginName then Some("*") else None)
  {
    var start := [(AllowOriginName, "*")];
    var accepted := AcceptedEntries(StoredEntries(stored, codec), codec);
    CustomHeadersAre(stored, codec);
    FromPairsMeaning(start + accepted);
    LookupAppend(start, accepted, name);
    assert start[..0] == [];
  }

  /** The reply when the endpoint has no custom response. */
  const DefaultReply := Reply(200, [(AllowOriginName, "*")], "")

  /** `webhook_handler`. */
  function Handle(endpoints: map<string, RequestsApi.Endpoint>, req: Incoming, codec: Codec): (r: Outcome)
    ensures |req.body| > MaxBodySize <==> r == Rejected(413)
    ensures r == Rejected(404) <==> |req.body| <= MaxBodySize && req.endpointId !in endpoints
    ensures r.Accepted? <==> |req.body| <= MaxBodySize && req.endpointId in endpoints
    ensures r.Accepted? ==>
      && (r.record.body.None? <==> |req.body| == 0)
      && (r.record.body.Some? ==> r.record.body.value == req.body)
      && r.broadcastBody == (if |req.body| == 0 then None else codec.utf8(req.body))
      && r.record.headersJson == HeadersToJson(req.headers, codec.quote)
      && r.record.contentType == ContentType(req.headers)
      && r.record.endpointId == req.endpointId
      && r.record.httpMethod == req.httpMethod && r.record.path == req.path
      && r.record.queryString == req.query
      && r.record.receivedAt == req.receivedAt && r.record.ipAddress == req.ipAddress
  {
    if |req.body| > MaxBodySize then Rejected(413)
    else if req.endpointId !in endpoints then Rejected(404)
    else
      var ep := endpoints[req.endpointId];
      var stored := if |req.body| == 0 then None else Some(req.body);
      var record := NewRecord(req.endpointId, req.httpMethod, req.path, req.query,
        HeadersToJson(req.headers, codec.quote), stored, ContentType(req.headers),
        req.receivedAt, req.ipAddress);
      var broadcastBody := if stored.None? then None else codec.utf8(stored.value);
      var reply :=
        if ep.customResponseEnabled then
          Reply(ReplyStatus(ep.responseStatus), CustomHeaders(ep.responseHeaders, codec),
                ep.responseBody.GetOr(""))
        else DefaultReply;
      Accepted(record, broadcastBody, reply)
  }

  /** The reply of an accepted request: the default one when the custom response is off,
      otherwise the stored status (or 200), the custom headers and the stored body (or ""). */
  lemma ReplyChoice(endpoints: map<string, RequestsApi.Endpoint>, req: Incoming, codec: Codec)
    requires |req.body| <= MaxBodySize && req.endpointId in endpoints
    ensures var ep := endpoints[req.endpointId];
      var reply := Handle(endpoints, req, codec).reply;
      && (!ep.customResponseEnabled ==> reply == Reply(200, [(AllowOriginName, "*")], ""))
      && (ep.customResponseEnabled ==>
            && reply.status == ReplyStatus(ep.responseStatus)
            && reply.headers == CustomHeaders(ep.responseHeaders, codec)
            && reply.body == (if ep.responseBody.Some? then ep.responseBody.value else ""))
  {
  }
}

=== FILE: wrappers.dfy ===
/** Optional values, standing for Rust's `Option`, TypeScript's `T | null | undefined`
    and JavaScript's NaN-or-number results. */
module Wrappers {

  datatype Option<+T> = None | Some(value: T) {

    /** The value held, or `default` when there is none. */
    function GetOr(default: T): T {
      match this
      case Some(v) => v
      case None => default
    }
  }
}

=== FILE: ws_client.dfy ===
/** The browser's WebSocket client (frontend/src/lib/websocket.ts): one connection per
    endpoint, a list of subscribed handlers, and reconnection with exponential back-off.

    A socket is named by the number of sockets created before it. Browser callbacks
    (`onopen`, `onclose`, a timer firing) are events applied to the client state; whether
    the `WebSocket` constructor throws is the parameter `created`, and `JSON.parse` is the
    parameter `parse`. A handler is named by a `HandlerId`: two subscriptions of the same id
    are the same function object. Console logging is not modelled. */
module WsClient {
  import opened Wrappers
  import opened Seqs

  const MaxReconnectAttempts: nat := 5
  const ReconnectDelay: nat := 1000

  type HandlerId = nat
  type SocketId = nat

  datatype Client = Client(
    endpointId: string,
    ws: Option<SocketId>,
    sockets: nat,
    handlers: seq<HandlerId>,
    attempts: nat,
    timers: seq<nat>)

  /** `new WebSocketClient(endpointId)`. */
  function New(endpointId: string): (c: Client)
    ensures c.endpointId == endpointId && c.ws.None? && c.handlers == [] && c.attempts == 0
    ensures c.timers == [] && c.sockets == 0
  {
    Client(endpointId, None, 0, [], 0, [])
  }

  /** `connect()`: a fresh socket becomes the current one unless the constructor throws,
      in which case nothing changes. */
  function Connect(c: Client, created: bool): (r: Client)
    ensures created ==> r.ws == Some(c.sockets) && r.sockets == c.sockets + 1
    ensures !created ==> r == c
    ensures r.handlers == c.handlers && r.attempts == c.attempts && r.timers == c.timers
  {
    if created then c.(ws := Some(c.sockets), sockets := c.sockets + 1) else c
  }

  /** `onopen`: a successful connection forgets earlier failures. */
  function OnOpen(c: Client): (r: Client)
    ensures r.attempts == 0
    ensures r.ws == c.ws && r.sockets == c.sockets && r.handlers == c.handlers && r.timers == c.timers
  {
    c.(attempts := 0)
  }

  function Pow2(n: nat): (p: nat)
    ensures p >= 1
  {
    if n == 0 then 1 else 2 * Pow2(n - 1)
  }

  /** The wait before the `n`-th reconnection attempt. */
  function DelayFor(n: nat): nat
    requires n >= 1
  {
    ReconnectDelay * Pow2(n - 1)
  }

  /** The five waits, in order. */
  const Delays: seq<nat> := [1000, 2000, 4000, 8000, 16000]

  lemma DelaysAreDoubling()
    ensures |Delays| == MaxReconnectAttempts
    ensures forall n :: 1 <= n <= MaxReconnectAttempts ==> DelayFor(n) == Delays[n - 1]
  {
    assert DelayFor(1) == 1000 && DelayFor(2) == 2000 && DelayFor(3) == 4000;
    assert DelayFor(4) == 8000 && DelayFor(5) == 16000;
  }

  /** `attemptReconnect()`: below the cap, count the attempt and schedule a `connect` after
      the doubling delay; at the cap, do nothing. */
  function AttemptReconnect(c: Client): (r: Client)
    ensures c.attempts >= MaxReconnectAttempts ==> r == c
    ensures c.attempts < MaxReconnectAttempts ==>
      r.attempts == c.attempts + 1 && r.timers == c.timers + [DelayFor(r.attempts)]
    ensures r.ws == c.ws && r.handlers == c.handlers && r.sockets == c.sockets
  {
    if c.attempts >= MaxReconnectAttempts then c
    else
      var n := c.attempts + 1;
      c.(attempts := n, timers := c.timers + [DelayFor(n)])
  }

  /** `onclose`: whichever socket closed, try to reconnect. */
  function OnClose(c: Client): Client {
    AttemptReconnect(c)
  }

  /** A scheduled reconnection fires: its timer is gone and `connect` runs. */
  function FireTimer(c: Client, i: nat, created: bool): (r: Client)
    ensures i < |c.timers| ==> r.timers == c.timers[..i] + c.timers[i + 1..]
    ensures i < |c.timers| ==> multiset(r.timers) + multiset{c.timers[i]} == multiset(c.timers)
    ensures i < |c.timers| ==> r.ws == Connect(c, created).ws && r.sockets == Connect(c, created).sockets
    ensures i < |c.timers| ==> r.handlers == c.handlers && r.attempts == c.attempts
    ensures i >= |c.timers| ==> r == c
  {
    if i < |c.timers| then
      assert c.timers == c.timers[..i] + [c.timers[i]] + c.timers[i + 1..];
      Connect(c.(timers := c.timers[..i] + c.timers[i + 1..]), created)
    else c
  }

  /** A close below the cap, then its timer firing, is one counted attempt followed by
      `connect`: the pending timers are as they were before the close. */
  lemma CloseThenFire(c: Client, created: bool)
    requires c.attempts < MaxReconnectAttempts
    ensures FireTimer(OnClose(c), |c.timers|, created) == Connect(c.(attempts := c.attempts + 1), created)
  {
    var d := OnClose(c);
    assert d.timers[..|c.timers|] + d.timers[|c.timers| + 1..] == c.timers;
  }

  /** `onmessage`: a frame that parses goes to every handler, in subscription order; one
      that does not parse goes to none. */
  function OnMessage<M>(c: Client, data: string, parse: string -> Option<M>): (out: seq<(HandlerId, M)>)
    ensures parse(data).None? ==> out == []
    ensures parse(data).Some? ==>
      |out| == |c.handlers| && forall i :: 0 <= i < |out| ==> out[i] == (c.handlers[i], parse(data).value)
  {
    match parse(data)
    case None => []
    case Some(m) => seq(|c.handlers|, i requires 0 <= i < |c.handlers| => (c.handlers[i], m))
  }

  /** The position of the first handler that throws, or `|hs|` when none does. */
  function FirstThrow(hs: seq<HandlerId>, throws: HandlerId -> bool): (k: nat)
    ensures k <= |hs|
    ensures forall j :: 0 <= j < k ==> !throws(hs[j])
    ensures k < |hs| ==> throws(hs[k])
  {
    if |hs| == 0 then 0
    else if throws(hs[0]) then 0
    else
      var k := FirstThrow(hs[1..], throws);
      assert forall j :: 1 <= j < |hs| ==> hs[j] == hs[1..][j - 1];
      1 + k
  }

  /** `onmessage` when handlers may throw: the loop runs inside the `try`, so the handler
      that throws is the last one called, and those after it get nothing. */
  function OnMessageThrowing<M>(c: Client, data: string, parse: string -> Option<M>,
                                throws: HandlerId -> bool): (out: seq<(HandlerId, M)>)
    ensures |out| <= |OnMessage(c, data, parse)| && out == OnMessage(c, data, parse)[..|out|]
    ensures (forall i :: 0 <= i < |c.handlers| ==> !throws(c.handlers[i])) ==> out == OnMessage(c, data, parse)
    ensures parse(data).Some? ==> forall i :: 0 <= i < |out| - 1 ==> !throws(out[i].0)
    ensures parse(data).Some? && (exists i :: 0 <= i < |c.handlers| && throws(c.handlers[i])) ==>
      |out| >= 1 && throws(out[|out| - 1].0)
  {
    var all := OnMessage(c, data, parse);
    var k := FirstThrow(c.handlers, throws);
    if k < |all| then all[..k + 1] else all
  }

  /** `subscribe(handler)`. */
  function Subscribe(c: Client, h: HandlerId): (r: Client)
    ensures r.handlers == c.handlers + [h]
    ensures r.ws == c.ws && r.attempts == c.attempts && r.timers == c.timers
  {
    c.(handlers := c.handlers + [h])
  }

  /** The function `subscribe` returns: drop every subscription of that handler. */
  function Unsubscribe(c: Client, h: HandlerId): (r: Client)
    ensures h !in r.handlers
    ensures forall g :: g != h ==> Count(r.handlers, g) == Count(c.handlers, g)
    ensures IsSubseq(r.handlers, c.handlers)
    ensures r.ws == c.ws && r.attempts == c.attempts && r.timers == c.timers
  {
    assert forall g :: g != h ==> Count(RemoveAll(c.handlers, h), g) == Count(c.handlers, g) by {
      forall g ensures g != h ==> Count(RemoveAll(c.handlers, h), g) == Count(c.handlers, g) {
        RemoveAllCount(c.handlers, h, g);
      }
    }
    c.(handlers := RemoveAll(c.handlers, h))
  }

  /** Unsubscribing right after subscribing a new handler restores the subscriptions. */
  lemma SubscribeUnsubscribe(c: Client, h: HandlerId)
    requires h !in c.handlers
    ensures Unsubscribe(Subscribe(c, h), h) == c
  {
    RemoveAllConcat(c.handlers, [h], h);
    RemoveAllAbsent(c.handlers, h);
    assert RemoveAll([h], h) == [];
  }

  /** `disconnect()`: close and forget the current socket, if any. The socket's `onclose`
      still fires afterwards; that is the separate `Closed` event. */
  function Disconnect(c: Client): (r: Client)
    ensures r.ws.None?
    ensures c.ws.None? ==> r == c
    ensures r.attempts == c.attempts && r.handlers == c.handlers && r.timers == c.timers
  {
    if c.ws.Some? then c.(ws := None) else c
  }

  /** What can happen to a client, in the order it happens. */
  datatype Event =
    | Connected(created: bool)
    | Opened
    | Closed
    | TimerFired(index: nat, created: bool)
    | Subscribed(handler: HandlerId)
    | Unsubscribed(handler: HandlerId)
    | Disconnected

  function Step(c: Client, e: Event): Client {
    match e
    case Connected(created) => Connect(c, created)
    case Opened => OnOpen(c)
    case Closed => OnClose(c)
    case TimerFired(i, created) => FireTimer(c, i, created)
    case Subscribed(h) => Subscribe(c, h)
    case Unsubscribed(h) => Unsubscribe(c, h)
    case Disconnected => Disconnect(c)
  }

  function Run(c: Client, es: seq<Event>): Client
    decreases |es|
  {
    if |es| == 0 then c else Run(Step(c, es[0]), es[1..])
  }

  /** The attempt counter never passes the cap, and every pending reconnection waits one of
      the five doubling delays. */
  predicate Bounded(c: Client) {
    c.attempts <= MaxReconnectAttempts && forall i :: 0 <= i < |c.timers| ==> c.timers[i] in Delays
  }

  lemma StepBounded(c: Client, e: Event)
    requires Bounded(c)
    ensures Bounded(Step(c, e))
  {
    DelaysAreDoubling();
    match e
    case Closed =>
      var r := AttemptReconnect(c);
      if c.attempts < MaxReconnectAttempts {
        assert r.timers[|c.timers|] == Delays[c.attempts];
      }
    case TimerFired(i, created) =>
      if i < |c.timers| {
        var t := c.timers[..i] + c.timers[i + 1..];
        forall j | 0 <= j < |t| ensures t[j] in Delays {
          if j < i { assert t[j] == c.timers[j]; } else { assert t[j] == c.timers[j + 1]; }
        }
      }
    case _ =>
  }

  lemma {:induction false} RunBounded(c: Client, es: seq<Event>)
    requires Bounded(c)
    ensures Bounded(Run(c, es))
    decreases |es|
  {
    if |es| > 0 {
      StepBounded(c, es[0]);
      RunBounded(Step(c, es[0]), es[1..]);
    }
  }

  function Closes(n: nat): (es: seq<Event>)
    ensures |es| == n && forall i :: 0 <= i < n ==> es[i] == Closed
  {
    if n == 0 then [] else [Closed] + Closes(n - 1)
  }

  /** How many of `n` closes schedule a reconnection when `attempts` have been made. */
  function Scheduled(attempts: nat, n: nat): nat {
    if attempts + n <= MaxReconnectAttempts then n
    else if attempts <= MaxReconnectAttempts then MaxReconnectAttempts - attempts
    else 0
  }

  /** One close below the cap schedules the next delay of the table. */
  lemma CloseSchedulesNext(c: Client)
    requires c.attempts < MaxReconnectAttempts
    ensures OnClose(c).attempts == c.attempts + 1
    ensures OnClose(c).timers == c.timers + Delays[c.attempts..c.attempts + 1]
  {
    DelaysAreDoubling();
  }

  /** Closes with no successful open in between schedule the delays 1000, 2000, 4000, 8000
      and 16000 and then nothing more. */
  lemma {:induction false} RepeatedCloses(c: Client, n: nat)
    requires c.attempts <= MaxReconnectAttempts
    ensures var k := Scheduled(c.attempts, n);
      && Run(c, Closes(n)).attempts == c.attempts + k
      && Run(c, Closes(n)).timers == c.timers + Delays[c.attempts..c.attempts + k]
      && Run(c, Closes(n)).ws == c.ws
    decreases n
  {
    if n > 0 {
      var c' := OnClose(c);
      assert Closes(n)[0] == Closed && Closes(n)[1..] == Closes(n - 1);
      assert Run(c, Closes(n)) == Run(c', Closes(n - 1));
      RepeatedCloses(c', n - 1);
      if c.attempts < MaxReconnectAttempts {
        CloseSchedulesNext(c);
        var k' := Scheduled(c'.attempts, n - 1);
        assert Scheduled(c.attempts, n) == 1 + k';
        SliceConcat(Delays, c.attempts, c'.attempts, c'.attempts + k');
      } else {
        assert Delays[c.attempts..c.attempts] == [];
      }
    } else {
      assert Delays[c.attempts..c.attempts] == [];
    }
  }

  /** As written, an explicit `disconnect` does not stop the client: the closed socket's
      `onclose` still schedules a reconnection, and when it fires a new socket is opened. */
  lemma DisconnectReopens(endpointId: string)
    ensures var c := Run(New(endpointId), [Connected(true), Disconnected, Closed, TimerFired(0, true)]);
      c.ws == Some(1) && c.sockets == 2
  {
    var c0 := New(endpointId);
    var c1 := Connect(c0, true);
    var c2 := Disconnect(c1);
    var c3 := OnClose(c2);
    assert c3.timers == [1000];
    var c4 := FireTimer(c3, 0, true);
    assert c4.ws == Some(1);
    assert Run(New(endpointId), [Connected(true), Disconnected, Closed, TimerFired(0, true)]) == c4 by {
      var es := [Connected(true), Disconnected, Closed, TimerFired(0, true)];
      assert es[1..] == [Disconnected, Closed, TimerFired(0, true)];
      assert es[1..][1..] == [Closed, TimerFired(0, true)];
      assert es[1..][1..][1..] == [TimerFired(0, true)];
      assert es[1..][1..][1..][1..] == [];
    }
  }

  /** The client with the evidently intended `disconnect`: it also cancels the pending
      reconnections and marks the client stopped, so that `onclose` no longer reconnects
      until `connect` is called again. */
  datatype Stoppable = Stoppable(client: Client, stopped: bool)

  function StepStoppable(s: Stoppable, e: Event): (r: Stoppable)
    ensures !s.stopped && !e.Disconnected? ==> r == Stoppable(Step(s.client, e), false)
  {
    match e
    case Connected(created) => Stoppable(Connect(s.client, created), false)
    case Closed => if s.stopped then s else Stoppable(OnClose(s.client), false)
    case Disconnected => Stoppable(Disconnect(s.client).(timers := []), true)
    case _ => Stoppable(Step(s.client, e), s.stopped)
  }

  function RunStoppable(s: Stoppable, es: seq<Event>): Stoppable
    decreases |es|
  {
    if |es| == 0 then s else RunStoppable(StepStoppable(s, es[0]), es[1..])
  }

  predicate NoConnect(es: seq<Event>) {
    forall i :: 0 <= i < |es| ==> !es[i].Connected?
  }

  /** After the corrected `disconnect`, no socket is opened again unless `connect` is
      called: whatever closes, opens, fires or (un)subscribes, the client holds no socket,
      creates none and has no reconnection pending. */
  lemma {:induction false} StoppedStaysClosed(s: Stoppable, es: seq<Event>)
    requires s.stopped && s.client.ws.None? && s.client.timers == []
    requires NoConnect(es)
    ensures RunStoppable(s, es).client.ws.None?
    ensures RunStoppable(s, es).client.sockets == s.client.sockets
    ensures RunStoppable(s, es).client.timers == []
    ensures RunStoppable(s, es).stopped
    decreases |es|
  {
    if |es| > 0 {
      assert !es[0].Connected?;
      var s' := StepStoppable(s, es[0]);
      assert s'.stopped && s'.client.ws.None? && s'.client.timers == [] && s'.client.sockets == s.client.sockets;
      assert NoConnect(es[1..]) by {
        forall i | 0 <= i < |es| - 1 ensures !es[1..][i].Connected? {
          assert es[1..][i] == es[i + 1];
        }
      }
      StoppedStaysClosed(s', es[1..]);
    }
  }

  /** The corrected `disconnect` followed by the same events as the leaking trace. */
  lemma DisconnectStops(endpointId: string)
    ensures var s := RunStoppable(Stoppable(New(endpointId), false), [Connected(true), Disconnected]);
      RunStoppable(s, [Closed, TimerFired(0, true)]).client.ws.None?
  {
    var s0 := Stoppable(New(endpointId), false);
    var es := [Connected(true), Disconnected];
    assert es[1..] == [Disconnected];
    assert es[1..][1..] == [];
    var s := RunStoppable(s0, es);
    assert s.stopped && s.client.ws.None? && s.client.timers == [];
    StoppedStaysClosed(s, [Closed, TimerFired(0, true)]);
  }
}
